=== FILE: README.md ===
# esker content pipeline, in Dafny

A verified model of the content core of esker, a static-site generator.
esker turns a directory of markdown files into a cross-linked HTML site.
The model covers six parts:

- **Frontmatter scanning.** The `---` delimiter state machine and the key/value dispatch of `frontmatter.rs`, with its date fallbacks and non-fatal date errors. The older parser of `md_file.rs`, which reads the key "published" and treats a bad date as fatal. The body-stripping toggle of `set_raw_contents`.
- **Links** (`link.rs`). Internal/external classification and the segment-wise slugification of internal targets. Rewriting of link and image targets under the base URL. The tag and sitemap link records.
- **The markdown event pipeline** (`parser/`). The stateful map that records links and builds the table of contents. The fenced-code-block highlighter, with its alias table and `^\w+$` check. The heading rewriter, which collapses each heading into one `<hN id=…>` HTML event. The chain that runs them in order.
- **The site index** (`site.rs`). The flat sitemap that resolves wikilinks and the tag index. The routing of links into internal and external lists. The ignore-list filter. The scan pass of `load_files`.
- **Build coordination** (`site.rs`). The rebuild reset and the watch-event classifier. The newest-first feed order and the tag-page names.
- **Utilities.** `strip_pwd`, the error accumulator, and the values handed to the templates.

## How the model is built

- **Library calls.** The leaves esker delegates to libraries are fields of one record, `Externals.Lib`, and every operation takes it as a parameter. These are `slugify!`, `html_escape`, pulldown-cmark's `push_html`, syntect's lookup and highlighting, and chrono's parsing and formatting. Where a proof needs a property of one, the lemma states it as a precondition. The only such property is that slugs contain no '/' and no '.' (`SlugsAreUrlSafe`).
- **Panics.** A panic (`panic!`, `unwrap`, `expect`) is the `Panic` case of `Wrappers.Result`.
- **Paths.** A path is a sequence of components; an absolute path starts with the component "/".
- **Event streams.** The iterator adapters become functions over the whole event sequence. Each adapter drains its upstream, so the result is the same unless a panic stops the build first.

## Model

| member | source | states |
|---|---|---|
| BuildErrors.New | src/errors.rs:12-17 | both error lists start empty |
| BuildErrors.AddInvalidDateCreated | src/errors.rs:19-21 | the path is appended to the created list only; the updated list is unchanged |
| BuildErrors.AddInvalidDateUpdated | src/errors.rs:23-25 | the path is appended to the updated list only; the created list is unchanged |
| BuildErrors.HasErrors | src/errors.rs:60-62 | true exactly when the updated list is non-empty, so errors in the created list alone are never reported |
| BuildErrors.Clear | src/errors.rs:64-67 | both lists are emptied and no error is reported afterwards |
| BuildErrors.AddsKeepOrder | src/errors.rs:19-21 | errors keep their recording order, duplicates included |
| BuildErrors.Append | src/errors.rs:60-62 | one error record followed by another: both lists concatenate, and the result is reported exactly when either part is |
| BuildErrors.AppendNew | src/errors.rs:12-17 | the empty record of `new` is neutral on both sides |
| BuildErrors.AppendAssoc | src/errors.rs:19-25 | recording errors in steps gives the same lists however the steps are grouped |
| BuildErrors.AddIsAppend | src/errors.rs:19-25 | adding a created (updated) path is appending a record holding only that path in the created (updated) list |
| Text.Split | src/frontmatter.rs:138 | `split(',')` gives one piece more than there are separators, and no piece contains one |
| Text.JoinSplit | src/link.rs:136-148 | joining the pieces of a split with the same separator gives back the input |
| Text.SplitJoin | src/link.rs:136-148 | splitting a join of separator-free pieces gives back the pieces |
| Text.SplitOnce | src/frontmatter.rs:105 | `split_once` cuts at the first occurrence: nothing when there is none, otherwise a prefix free of the separator and the rest |
| Text.SplitOnceAt | src/frontmatter.rs:105 | with the separator absent from a, splitting a + sep + b gives (a, b) |
| Text.Trim | src/frontmatter.rs:107-108 | the result is the input minus its leading and trailing whitespace runs |
| Text.TrimIdempotent | src/frontmatter.rs:111 | trimming twice (as the title branch does) equals trimming once |
| Text.TrimUnpadded | src/frontmatter.rs:107-108 | text without leading or trailing whitespace is its own trim |
| Text.ReplacePct20Complete | src/link.rs:143-144 | after replacing "%20" with "-" no "%20" is left |
| Paths.PathToString | src/util.rs:38-40 | `display()` of a path: an absolute path's text starts with "/"; with PathToStringSplits and AbsolutePathToString, the text is pinned down |
| Paths.AbsolutePathToString | src/frontmatter.rs:157-164 | the string of an absolute path is "/" followed by its other components joined by "/", with no doubled root |
| Paths.AbsolutePathExample | src/frontmatter.rs:157-164 | the glob path `/site/a.md` is written "/site/a.md" |
| Paths.PathToStringSplits | src/util.rs:38-40 | splitting the text at '/' gives back a relative path's components, or "" followed by an absolute path's non-root components |
| Paths.SplitExtension | src/link.rs:140 | a file name splits at its last dot into a non-empty stem and a dot-free extension, or has no extension (no dot, a leading dot only, or "..") |
| Paths.WithExtensionBareName | src/site.rs:272 | for a plain file name, `with_extension` keeps the stem and appends the new extension, or nothing when the extension is "" |
| Paths.WithExtensionAppends | src/link.rs:90-91 | a path whose file name has no dot gains "." + extension at its end |
| Paths.WithExtension | src/link.rs:90-91 | `with_extension`: the file name after the last '/' loses its extension and gains the new one; stated by WithExtensionBareName, WithExtensionAppends and DottedNameExtension |
| Util.StripPwd | src/util.rs:52-54 | succeeds exactly when pwd is a proper component prefix of the path, and then returns the components between pwd and the file name; otherwise it panics |
| Util.StripPwdDirectChild | src/util.rs:53 | a file directly inside pwd gives the empty path |
| Util.StripPwdExample | src/util.rs:64-70 | ".../test_site/posts/private file.md" relative to ".../test_site" gives "posts" |
| Util.NaiveDateToStr | src/util.rs:42-44 | the date formatted "%Y-%m-%d %H:%M" by chrono; PageNew states the pages carry it |
| FrontmatterScan.UpToClosing | src/frontmatter.rs:64-67 | the lines after the opening delimiter are read up to and including the first closing delimiter |
| FrontmatterScan.ScanDelimiters | src/frontmatter.rs:49-71 | the scan loop is valid exactly when the first line is "---" (or there is no line), and then it hands the key/value parser exactly the lines after it, up to and including the closing "---" |
| FrontmatterScan.ClosedBlock | src/frontmatter.rs:59-68 | when the first closing delimiter is at i, the block read is lines 1 to i inclusive |
| FrontmatterScan.SingleLineBlock | src/frontmatter.rs:59-68 | "---", one line, "---" hands the parser that line and the closing delimiter |
| FrontmatterScan.ClosingDelimiter | src/frontmatter.rs:66-67 | the first closing delimiter at position k ends the read lines at k |
| FrontmatterScan.KeyValue | src/frontmatter.rs:105-108 | a line without ':' gives nothing; otherwise the key and value are the trimmed text before and after the first ':' |
| FrontmatterScan.TrimmedValue | src/frontmatter.rs:107-108 | key and value come back already trimmed |
| FrontmatterScan.ParseTags | src/frontmatter.rs:137-145 | the ','-separated pieces of the value, trimmed and in order, duplicates kept; "" gives [""] |
| FrontmatterScan.FirstSome | src/frontmatter.rs:80-102 | the first successful attempt wins, and none succeeds exactly when every attempt fails |
| FrontmatterScan.MatchPossibleDates | src/frontmatter.rs:80-102 | the four parse attempts in source order ("%Y-%m-%d %H:%M:%S", "%Y-%m-%d %H:%M", "%Y-%m-%d", then the text + " 17:00"), the first success winning |
| FrontmatterScan.LineEffect | src/frontmatter.rs:104-151 | lines without ':' and unknown keys change nothing. title, summary and template set their field. publish is false only for "false". tag/tags replace the list. A date that parses sets its field; one that does not leaves it unchanged and yields the file path as an error of that kind |
| FrontmatterScan.ApplyLine | src/frontmatter.rs:112-127 | the site's error list gains the file path under created dates exactly when the line's date_created value does not parse, under updated dates exactly when its date_updated value does not parse, and is otherwise unchanged; the path and the sitemap flag are kept |
| FrontmatterScan.NoColonLine | src/frontmatter.rs:105-149 | a line without ':' changes neither the frontmatter nor the errors |
| FrontmatterScan.ApplyLineErrors | src/frontmatter.rs:112-127 | a line reads the same frontmatter whatever errors were recorded before, and appends its own errors after them |
| FrontmatterScan.ApplyLinesErrors | src/frontmatter.rs:52-71 | the same for all interpreted lines: the earlier errors are kept and the file's own errors follow them |
| FrontmatterScan.UpdatedDateLine | src/frontmatter.rs:120-126 | a "date_updated" line whose value no accepted format parses appends the file path to the updated-date errors |
| FrontmatterScan.FrontmatterNew | src/frontmatter.rs:34-78 | None exactly when the first line is not "---", with no error recorded. A file without lines gets the defaults: title = stem, publish and in_sitemap true, no tags, no summary, template "" |
| FrontmatterScan.Defaults | src/frontmatter.rs:34-48 | the frontmatter before any line: title is the file stem, the dates come from the metadata, publish and in_sitemap are true, no summary, no tags, template "". Stated through FrontmatterNew on an empty file |
| FrontmatterScan.ApplyLines | src/frontmatter.rs:52-71 | every interpreted line is applied in file order; its error behaviour is stated by ApplyLinesErrors |
| FrontmatterScan.FrontmatterNewErrors | src/frontmatter.rs:22-78 | `Frontmatter::new` appends to the site's errors exactly the errors the file records on its own, after the existing ones |
| FrontmatterScan.UnparsedUpdatedDateRecorded | src/frontmatter.rs:22-78 | the file "---", "date_updated: X", "---" with an unparsable X returns with its path appended to the updated-date errors |
| FrontmatterScan.IgnoresBody | src/frontmatter.rs:59-68 | nothing after the closing delimiter is read: appending a body changes neither the frontmatter nor the errors |
| FrontmatterScan.DateCreatedStr | src/frontmatter.rs:166-168 | `date_created_str` equals `date_modified_str` and does not depend on the created date |
| FrontmatterScan.DateModifiedStr | src/frontmatter.rs:153-155 | date_updated formatted "%Y-%m-%d %H:%M"; DateCreatedStr is stated equal to it |
| LegacyMdFile.LegacyApplyLine | src/md_file.rs:76-117 | the older line parser panics exactly on a date key whose value does not parse as "%Y-%m-%d %H:%M"; a line without ':' changes nothing |
| LegacyMdFile.LegacyApplyLines | src/md_file.rs:48-66 | the lines are applied in order and the first fatal date stops the read; stated by PanicStopsLines |
| LegacyMdFile.LegacyPublishedKey | src/md_file.rs:99-101 | "published" is false only for the value "false" |
| LegacyMdFile.LegacyUnknownKey | src/md_file.rs:113 | unknown keys, "template" and "publish" among them, change nothing |
| LegacyMdFile.LegacyTagsKey | src/md_file.rs:103-111 | "tag" and "tags" replace the list with the trimmed ','-separated pieces |
| LegacyMdFile.LegacyDateKey | src/md_file.rs:84-94 | a date that parses sets the created or updated field its key names |
| LegacyMdFile.LegacyTitleKey | src/md_file.rs:83 | "title" stores the trimmed value |
| LegacyMdFile.LegacySummaryKey | src/md_file.rs:96-98 | "summary" stores the trimmed value |
| LegacyMdFile.LegacyFrontmatterNew | src/md_file.rs:21-74 | None when the first line is not "---"; defaults for a file without lines |
| LegacyMdFile.KeyValueOfLine | src/md_file.rs:77-80 | "key:value" with a plain key splits into that key and the trimmed value |
| LegacyMdFile.MalformedDateLine | src/md_file.rs:84-94 | a "date_created" or "date_updated" line with an unparseable value panics |
| LegacyMdFile.DateKeysPlain | src/md_file.rs:84-90 | the date keys have no colon and no surrounding blanks, so "key:value" reaches their branch |
| LegacyMdFile.MalformedDateIsFatal | src/md_file.rs:21-94 | such a line inside the frontmatter block aborts the whole parse rather than being recorded |
| LegacyMdFile.PanicStopsLines | src/md_file.rs:84-94 | a panicking line aborts the parse of every block it starts |
| LegacyMdFile.Kept | src/md_file.rs:155-168 | no "---" line survives, and no more lines come out than went in |
| LegacyMdFile.KeptAppend | src/md_file.rs:155-168 | the line filter works line by line: the kept lines of a concatenation are the kept lines of each part, the second part starting in the state the first leaves |
| LegacyMdFile.SetRawContents | src/md_file.rs:149-172 | the loop with its `in_frontmatter` toggle produces the kept lines joined by "\n" |
| LegacyMdFile.KeepMask | src/md_file.rs:158-166 | one keep flag per line |
| LegacyMdFile.KeptIsMaskedSubsequence | src/md_file.rs:155-170 | the output is the in-order subsequence of the lines that are not "---" and lie outside every delimited region |
| LegacyMdFile.NoDelimiterKeepsAll | src/md_file.rs:165-170 | without a "---" line every line is kept |
| LegacyMdFile.RegionDropsAll | src/md_file.rs:158-166 | inside an open region nothing is kept until the next "---" |
| LegacyMdFile.DelimitedRegionHidden | src/md_file.rs:155-168 | a later "---" pair in the body hides everything between the two delimiters |
| LegacyMdFile.ClosedRegionKeepsNothing | src/md_file.rs:158-166 | a closed "---" region yields no line and leaves the toggle closed |
| LegacyMdFile.KeptDelimiter | src/md_file.rs:158-161 | a "---" line is dropped and flips the toggle |
| LegacyMdFile.StripsFrontmatter | src/md_file.rs:148-172 | a frontmatter block followed by a delimiter-free body leaves exactly the body |
| Links.Empty | src/link.rs:115-124 | the blank record: empty url and title, external, no originating fields, type Default |
| Links.IsExternal | src/link.rs:177-181 | a target is external when it starts with "http://", "https://" or "www." |
| Links.IsInternal | src/link.rs:169-171 | internal is exactly not external; FragmentIsInternal and MailtoLinkIsInternal state its consequences |
| Links.IsMailto | src/link.rs:173-175 | a target starting with "mailto:" |
| Links.SlugifyInternalUrl | src/link.rs:135-150 | the url split at '/', each segment slugified, joined with '/'; stated by SlugifyInternalUrlSegments |
| Links.RewriteUrl | src/link.rs:86-105 | an internal non-mailto target is slugified, given the extension "html" and prefixed with the base URL; a mailto or external target is kept; stated by InternalLinkUrl, MailtoLinkIsInternal and FillFromParser |
| Links.FillLink | src/link.rs:86-111 | the Link branch of `fill_from_parser`: url rewritten, internal flag from the target, title and originating fields copied; stated by FillFromParser |
| Links.BuildWithBaseUrl | src/site.rs:391-393 | the base URL, then '/', then the web path |
| Links.SlugifyInternalUrlSegments | src/link.rs:135-150 | with '/'- and '.'-free slugs, the slugified url has exactly one segment per input segment, each the slug of the extension-less, "%20"→"-" segment, and contains no '.' |
| Links.NoDotInJoin | src/link.rs:148 | joining dot-free segments with '/' gives a dot-free url |
| Links.FillFromParser | src/link.rs:79-113 | a non-Link tag panics. A Link tag sets is_internal from the target, copies the title and both originating fields, keeps link_type, and keeps external and "mailto:" targets verbatim |
| Links.SlugGainsHtml | src/link.rs:90-91 | a slug that is non-empty and does not end in "/" gains ".html" at its end, since its last segment has no dot |
| Links.InternalLinkUrl | src/link.rs:88-101 | an internal non-mailto target whose slug is non-empty and does not end in "/" becomes base + "/" + slug + ".html" and is internal |
| Links.MailtoLinkIsInternal | src/link.rs:89-101 | a "mailto:" target keeps its url verbatim yet is recorded as internal |
| Links.FragmentIsInternal | src/link.rs:169-181 | a "#fragment" target counts as internal and is not a mailto |
| Links.ForParser | src/link.rs:127-131 | the re-emitted tag is an inline link to the record's url, titled base + "/" + url |
| Links.UpdateImgLink | src/link.rs:152-167 | an internal image url gets base + "/" without slugifying; an external one is kept; link type and title are kept |
| Links.ImageUrlVersusLinkUrl | src/link.rs:152-167 | an external image url is rewritten exactly as a link target would be; an internal non-"mailto:" one keeps its path under the base URL, where a link target would be slugified and given ".html" |
| Links.AddLink | src/site.rs:419-425 | internal links are appended to the internal list and the rest to the external list; the other list is unchanged |
| Documents.NewTagLinkFromMdFile | src/link.rs:55-66 | internal link to the file's full url with its title, no originating fields, carrying the created date |
| Documents.NewSitemapLink | src/link.rs:68-77 | internal link to the file's full url with its title, no originating fields, carrying the created timestamp |
| Documents.TagAndSitemapLinksAgree | src/link.rs:55-77 | the tag and sitemap links of a file differ only in their type |
| ParserMap.MapEvent | src/parser/mod.rs:21-80 | link starts are re-emitted as inline links to the rewritten url, titled base + "/" + url. Image starts go through `update_img_link`. Every other event passes through unchanged |
| ParserMap.Step | src/parser/mod.rs:21-80 | the emitted event never depends on the closure's state |
| ParserMap.Run | src/parser/mod.rs:16-80 | the output has one event per input event, each the map of the input event at that position |
| ParserMap.RunToc | src/parser/mod.rs:69-74 | the toc is only appended to, one entry per heading end |
| ParserMap.RunLinks | src/parser/mod.rs:63-67 | the link lists are only appended to, one link per link end |
| ParserMap.StepLinks | src/parser/mod.rs:63-67 | a single event records a link exactly when it ends one |
| ParserMap.RunWf | src/parser/mod.rs:38-74 | outside a heading the toc placeholder stays blank, since each heading end resets it |
| ParserMap.RunAppend | src/parser/mod.rs:21-80 | the map over a concatenation runs the second part from the state the first part leaves |
| ParserMap.NoTextNoTexts | src/parser/mod.rs:46-61 | a stream without text events contributes no text |
| ParserMap.HasTextUnfold | src/parser/mod.rs:46-61 | a stream has text exactly when its head or its tail has |
| ParserMap.RunInsideLink | src/parser/mod.rs:31-50 | inside a link, only the first text event sets the record's title, and the link lists are untouched |
| ParserMap.StepInsideLink | src/parser/mod.rs:46-50 | one event inside a link leaves the link lists alone; a text event while capturing sets the title and stops the capture |
| ParserMap.LinkSegmentRecordsLink | src/parser/mod.rs:24-67 | a link's start, contents and end record exactly one link: the record filled from the target, titled with the first text inside the link if any |
| ParserMap.RunInsideHeading | src/parser/mod.rs:52-59 | inside a heading, the placeholder's title accumulates every text without separator, and its url is full_url + "#" + slug(title) |
| ParserMap.StepInsideHeading | src/parser/mod.rs:52-59 | one event inside a heading keeps the capture on and the toc unchanged; a text event appends its text to the placeholder title and re-derives the anchored url |
| ParserMap.HeadingSegmentAddsTocEntry | src/parser/mod.rs:38-74 | a heading adds exactly one toc entry (its concatenated texts and anchored url, or the blank record) and resets the placeholder |
| ParserMap.TextlessHeadingEntry | src/parser/mod.rs:69-72 | a heading without text adds a blank entry: empty title and url, type Default |
| Parser.MapKeepsFencedStarts | src/parser/mod.rs:38-43 | the map neither creates nor removes fenced-block or heading starts |
| Parser.Rendered | src/parser/mod.rs:83-88 | after the chain no fenced-block or heading start is left, and a panic needs a fenced block in the input |
| Parser.New | src/parser/mod.rs:12-89 | the HTML is `push_html` of the chain's output. The toc grows by one entry per heading end and the link lists by one link per link end. A block that cannot be highlighted aborts |
| Parser.RunOutputIndependent | src/parser/mod.rs:21-80 | the mapped stream is the same whatever state the map starts in |
| Parser.PlainStreamOnlyMapped | src/parser/mod.rs:83-84 | without fenced blocks or headings, only the map changes the stream |
| SyntaxHighlight.SyntectLangName | src/parser/syntax_highlight.rs:34-50 | the eleven aliases map to their syntax names and every other language is returned unchanged |
| SyntaxHighlight.SyntectLangNameIdempotent | src/parser/syntax_highlight.rs:34-50 | applying the alias table twice changes nothing more |
| SyntaxHighlight.ParseCodeSpec | src/parser/syntax_highlight.rs:52-61 | "" gives no language; a non-empty single word is returned as the language, itself and nothing else; anything else panics, and only that panics |
| SyntaxHighlight.CppSpecIsFatal | src/parser/syntax_highlight.rs:56-59 | "c++" panics |
| SyntaxHighlight.Find | src/parser/syntax_highlight.rs:149-164 | empty input gives nothing. Otherwise the syntax is looked up by name, then by extension, after aliasing, and its slug becomes the HTML id |
| SyntaxHighlight.PushCodeHighlight | src/parser/syntax_highlight.rs:101-121 | with no language or no syntax, the code is escaped inside a plain `<code>`. Otherwise the highlighted code goes inside `<code class="highlight code ID">`, and a highlighter failure panics |
| SyntaxHighlight.TextRun | src/parser/syntax_highlight.rs:88-90 | the maximal run of text events at the front |
| SyntaxHighlight.HighlightBlocks | src/parser/syntax_highlight.rs:80-98 | no fenced start survives, the stream does not grow, every output event is HTML or an input event, and a panic needs a fenced block |
| SyntaxHighlight.HighlightPassThrough | src/parser/syntax_highlight.rs:81-84 | a stream without fenced blocks, indented blocks included, is returned unchanged |
| SyntaxHighlight.HighlightBlock | src/parser/syntax_highlight.rs:85-97 | a fenced block becomes one `<pre class="syntax-code">` … `</pre>` HTML event over the concatenated texts, and the event ending the run is consumed |
| SyntaxHighlight.TextRunOf | src/parser/syntax_highlight.rs:88 | the run stops exactly at the first non-text event |
| SyntaxHighlight.BadSpecIsFatal | src/parser/syntax_highlight.rs:59-85 | a fenced block whose language is neither empty nor a single word aborts the conversion |
| Headlines.HeadingEnd | src/parser/headlines.rs:31-33 | finds the first heading end, with none before it |
| Headlines.SpacedTexts | src/parser/headlines.rs:34-37 | each text event contributes " " + text |
| Headlines.ParseHeadlines | src/parser/headlines.rs:20-57 | no heading start survives, the stream does not grow, and every output event is HTML or an input event |
| Headlines.HeadlinesPassThrough | src/parser/headlines.rs:21-26 | a stream without heading starts is returned unchanged |
| Headlines.HeadingCollapses | src/parser/headlines.rs:28-56 | a closed heading becomes exactly one `<hN id="ID">` + rendered inner events + `</hN>` HTML event |
| Headlines.HeadingId | src/parser/headlines.rs:42-45 | an explicit id is used as given, otherwise the slug of the spaced texts; stated by ExplicitIdVerbatim and GeneratedIdIgnoresOtherEvents |
| Headlines.HeadingHtml | src/parser/headlines.rs:50-56 | `<hN id="ID">` + inner HTML + `</hN>`; stated by HeadingCollapses |
| Headlines.ExplicitIdVerbatim | src/parser/headlines.rs:42-43 | an explicit id is used as given, whatever the heading's text |
| Headlines.GeneratedIdIgnoresOtherEvents | src/parser/headlines.rs:34-44 | non-text inner events do not change the generated id |
| Headlines.UnclosedHeadingEndsStream | src/parser/headlines.rs:31-33 | when the stream ends inside a heading, that heading and everything after it are dropped |
| Headlines.UnclosedPrefix | src/parser/headlines.rs:21-26 | events before the first heading start pass through in order |
| SiteIndex.PushIfAbsent | src/site.rs:574-576 | the list only grows, contains the item, and stays duplicate-free |
| SiteIndex.RegisterPath | src/site.rs:572-579 | the relative-path key exists and holds the path; lists only grow, stay duplicate-free, and other keys are untouched |
| SiteIndex.RegisterStem | src/site.rs:581-594 | the stem key exists and holds the path; lists only grow, stay duplicate-free, and other keys are untouched |
| SiteIndex.FlatSitemapRegisters | src/site.rs:562-595 | after `collect_flat_sitemap` both the relative-path key and the stem key hold the relative path, and no other key is added |
| SiteIndex.FlatSitemapGrows | src/site.rs:562-595 | existing lists only grow, and keys other than those two are untouched |
| SiteIndex.FlatSitemapStaysUnique | src/site.rs:572-594 | duplicate-free lists stay duplicate-free |
| SiteIndex.CollectFlatSitemap | src/site.rs:562-595 | both registrations of one file; stated by FlatSitemapRegisters, FlatSitemapGrows and FlatSitemapStaysUnique |
| SiteIndex.StemKeyGetsBareStem | src/site.rs:583-591 | when the stem key exists without the path, the path and then (if missing) the bare stem are pushed |
| SiteIndex.JoinLonger | src/site.rs:563-568 | the relative path of a file in a sub-directory is longer than its stem |
| SiteIndex.GetItemFromFlatSitemap | src/site.rs:398-416 | the first candidate under the key, or nothing when the key is absent or its list empty |
| SiteIndex.LookupIsStable | src/site.rs:562-595 | registering a file never changes what an existing key resolves to |
| SiteIndex.RegisteredFileResolves | src/site.rs:398-416 | after registering a new file, both its path and its stem resolve to it |
| SiteIndex.Repeat | src/site.rs:380-388 | n copies of the link |
| SiteIndex.RepeatAdd | src/site.rs:380-388 | copies add up |
| SiteIndex.AddTagLink | src/site.rs:380-388 | one tag gains the link, its key created if missing; every other tag is unchanged |
| SiteIndex.CollectTagsGet | src/site.rs:379-389 | each tag gains one link per occurrence in the file, duplicates included; other tags are unchanged |
| SiteIndex.CollectTagsKeys | src/site.rs:379-389 | the keys afterwards are the old keys plus the file's tags |
| SiteIndex.CollectTags | src/site.rs:379-389 | each of the file's tags in order appends its tag link; stated by CollectTagsGet and CollectTagsKeys |
| SiteIndex.JoinPath | src/site.rs:437 | `dir.join(d)`: an absolute entry replaces the directory |
| SiteIndex.SomeAncestorInMeans | src/site.rs:441-442 | the recursive ancestor test means "some prefix in range is a listed directory" |
| SiteIndex.IsInPrivateFolder | src/site.rs:432-446 | false without an ignore list. Otherwise true exactly when no ancestor of the file is dir joined with an ignored entry |
| SiteIndex.IgnoredDirectoryExcluded | src/site.rs:432-446 | a file under an ignored relative directory is filtered out |
| SiteIndex.LoadFilter | src/site.rs:310-313 | keeps exactly the files for which `is_in_private_folder` is true, from the input |
| SiteIndex.LoadFilterSingle | src/site.rs:310-313 | a single path is kept exactly when `is_in_private_folder` accepts it |
| SiteIndex.LoadFilterAppend | src/site.rs:310-313 | the filter works path by path, so it keeps the input order and every repetition of a kept path |
| SiteIndex.UnconfiguredLoadsNothing | src/site.rs:432-446 | without an ignore list the filter drops every file |
| SiteBuild.ScanOne | src/site.rs:319-343 | a file without frontmatter only joins the invalid list, and an unpublished file changes nothing |
| SiteBuild.Scan | src/site.rs:319-343 | the scan loop over the loaded candidates in order; stated by ScanInvalid, ScanGroups, ScanSitemap and ScanTags |
| SiteBuild.ScanInvalid | src/site.rs:340-342 | the invalid list gains exactly the paths without frontmatter, in order |
| SiteBuild.ScanGroups | src/site.rs:325-338 | each directory's group is its published files in scan order |
| SiteBuild.ScanGroupKeys | src/site.rs:325-338 | a directory has a group exactly when it had one before or some published file lives there |
| SiteBuild.ScanOneFiles | src/site.rs:324-338 | one file extends its directory's group exactly when it is published there, creating the group if needed |
| SiteBuild.ScanSitemap | src/site.rs:326-333 | a file reaches the template sitemap exactly when an earlier published file shares its directory |
| SiteBuild.ScanOneSitemap | src/site.rs:326-333 | one file adds its sitemap link exactly when it is published and its directory already has a group |
| SiteBuild.ScanTags | src/site.rs:327-335 | every published file adds one tag link per occurrence of each of its tags, in scan order |
| SiteBuild.FirstInDirectoryNotInSitemap | src/site.rs:326-338 | a published file scanned when its directory has no group and no earlier file was published there leaves the sitemap unchanged |
| SiteBuild.ClearSiteForRebuild | src/site.rs:179-186 | errors, files, paths, invalid files, tags and sitemap are emptied; links, attachments and the flat sitemap are kept |
| SiteBuild.LoadFiles | src/site.rs:307-377 | the stored path list is the unfiltered one; the site's errors are followed by the date errors of every kept file, in path order |
| SiteBuild.LoadOne | src/site.rs:320-322 | a candidate for the path, without a file exactly when the first line is not "---", and then with the errors unchanged; the errors afterwards are the earlier ones followed by the file's own date errors, recorded under the path's string (a single leading "/" for an absolute path) |
| SiteBuild.LoadAllErrors | src/site.rs:319-343 | the loop leaves the site's errors followed by each kept file's own date errors, in path order |
| SiteBuild.LoadAllCandidates | src/site.rs:319-343 | one candidate per kept path, in order, and which files load does not depend on the errors recorded so far |
| SiteBuild.UnparsedUpdatedDateReported | src/site.rs:307-377 | a kept file whose frontmatter holds only an unparsable date_updated leaves its path among the updated-date errors, so the build reports errors; for an absolute path the recorded string is "/" followed by the other components joined by "/" |
| SiteBuild.ScanNothing | src/site.rs:319-343 | scanning no file changes nothing |
| SiteBuild.UnconfiguredBuildIsEmpty | src/site.rs:310-313 | without an ignore list a build loads no file and records no error, and tags and sitemap stay as they were |
| SiteBuild.HandleWatchEvent | src/site.rs:510-547 | only writes, creations and removals act, and they panic exactly when the path is not under the site directory. Otherwise ".md" rebuilds the markdown, the public dir copies public, and the templates dir and "config.yaml" each add a full rebuild. A stripped path under the attachments name copies data. The actions come in the handler's order of checks |
| SiteBuild.OptionalInOrder | src/site.rs:516-545 | the five checks, each adding its one action or nothing, list their actions in the order the handler runs them |
| SiteBuild.FiveInOrder | src/site.rs:516-545 | lists whose actions have non-decreasing places in the handler's order concatenate into a list in that order |
| SiteBuild.CountActions | src/site.rs:516-545 | the five checks are independent, so their actions add up |
| SiteBuild.CountAppend | src/site.rs:516-545 | counts of actions add over concatenation |
| SiteBuild.ConfigInTemplatesRebuildsTwice | src/site.rs:528-535 | saving config.yaml inside the templates directory rebuilds the site twice |
| SiteBuild.OutsideSiteIsFatal | src/site.rs:514 | a change outside the site directory aborts |
| SiteBuild.InsertByDateSorted | src/site.rs:292 | inserting into a newest-first list keeps it newest first |
| SiteBuild.InsertByDatePermutes | src/site.rs:292 | insertion adds exactly the page |
| SiteBuild.SortByDateDescSorted | src/site.rs:292 | the feed is ordered newest first |
| SiteBuild.SortByDateDescPermutes | src/site.rs:292 | the feed is a permutation of the pages |
| SiteBuild.InsertByDateStable | src/site.rs:292 | insertion puts the page ahead of every page of its own time and keeps the order of the others |
| SiteBuild.SortByDateDescStable | src/site.rs:292 | the sort is stable: pages created at the same time keep their input order, as with `sort_by` |
| SiteBuild.SortByDateDesc | src/site.rs:292 | the feed sort, by insertion; stated by SortByDateDescSorted, SortByDateDescPermutes and SortByDateDescStable |
| SiteBuild.TagPageNames | src/site.rs:259-279 | no tag page is written without a tags directory |
| SiteBuild.TagPageNamesSound | src/site.rs:259-279 | every page belongs to a non-empty tag and is named with the tag's extension replaced by "html" |
| SiteBuild.TagPageNamesComplete | src/site.rs:259-279 | with a tags directory every non-empty tag gets its page |
| SiteBuild.PlainTagPage | src/site.rs:272 | a tag without dots or slashes gets the page "tag.html" |
| Paths.LastDotAfterStem | src/site.rs:272 | the last dot of "stem.ext" sits right after the stem |
| Paths.StemOfDottedName | src/site.rs:272 | the stem of "stem.ext" is stem |
| Paths.DottedNameExtension | src/site.rs:272 | `with_extension` on "stem.ext" replaces ext: the result is stem, a dot and the new extension |
| SiteBuild.DottedTagPage | src/site.rs:272 | a tag "stem.ext" gets the page "stem.html" |
| SiteBuild.DottedTagsCollide | src/site.rs:272 | two tags differing only after their last dot write the same page, stem + ".html" |
| Templates.GetName | src/templates.rs:31-39 | template + ".html" when a template of exactly that name is loaded, "single.html" otherwise |
| Templates.GetNameIsLoaded | src/templates.rs:31-39 | the result is one of those two names, and it is loaded whenever "single.html" is |
| Templates.ConfigNew | src/templates.rs:52-58 | title and url are copied and a missing description becomes "" |
| Templates.PageNew | src/templates.rs:79-96 | content, links and timestamps come from the file unchanged, and both dates are formatted "%Y-%m-%d %H:%M" |
| Templates.SectionPageNew | src/templates.rs:108-110 | the pages are kept in the given order |

## Left out

- `main.rs` is not part of this model. It holds the command line, the preview server and the file-watcher thread, which are I/O and concurrency.
- `new_site.rs` is not part of this model: it is scaffold text constants without logic.
- `config.rs` is not part of this model. Its YAML loading is I/O, and the configuration is an input record (`Documents.SiteConfig`) with the fields `site.rs` reads.
- The file-system and shell-out parts of `site.rs` are not modelled. These are `Site::new`, `get_possible_theme_paths`, `create_required_directories_for_build`, `cp_public`, `cp_data`, `cleanup_unusued_attachments`, `create_theme_css`, `rebuild`'s directory removal, `load_templates`, and every template render and file write. The watch classifier returns the actions it would trigger instead of running them.
- The render pass of `load_files` is not modelled: `parse_markdown_to_html`, `get_backlinks_for_file`, `write_html` and `write_section_html`. Their definitions are not part of this model, so `MdFile`'s toc, html, backlinks and related files are inputs.
- `add_attachment` and `is_attachment` are not modelled. They are a single push and a constant `false`.
- Library internals are parameters (`Externals.Lib`): pulldown-cmark's tokenizer and `push_html`, `slugify!`, syntect, `html_escape` and chrono.
- The `naive_date_to_str` round-trip test (util.rs:73-79) is not modelled, because it depends on chrono parsing and formatting being inverse.
- `MdFile` follows the newer fields that `site.rs`, `templates.rs` and `parser/mod.rs` use, because the `md_file.rs` on file is an older version without them. The creation and update timestamps live on `MdFile`.
- The parser calls `link.update_vals`, which `link.rs` does not define. `Links.FillFromParser` (the `fill_from_parser` of `link.rs`) models it.
- The unit test at `parser/syntax_highlight.rs:196-205` expects `<pre><code class="language-rust">`, which contradicts the code at line 93. The model follows the code.
- SyntaxHighlight.IsCodeSpec: `\w` is taken as ASCII letters, digits and '_', whereas Rust's regex `\w` also matches Unicode letters and digits.
- Paths.WithExtension: Rust's normalisation of "." components and repeated separators is not modelled.
- SiteBuild.TagPageNames: returns the page file names, not the joined output paths, so tags containing '/' (which would write into sub-directories) are not modelled.
- The pages handed to the feed sort come from `HashMap` iteration, whose order is unspecified; the model takes them as a sequence. Given that order, the sort is stable (`SiteBuild.SortByDateDescStable`), so the feed's order among pages of equal time follows it.
- SiteBuild.LoadFiles: the glob's result is given as a sequence of paths. The file system is a parameter (`source`) giving each path's lines, file stem and metadata times, and it is assumed to succeed for every kept path. `MdFile::new` is a parameter (`make`); the model keeps only that the file holds the frontmatter read. The render pass (`parse_markdown_to_html` on every loaded file, src/site.rs:349-353) records links and attachments on the site; the model does not state what `links` and `attachments` hold afterwards. The panics left out by taking the file system as given are:
  - a failing per-line `io::Result` of `read_lines`;
  - `fs::read_to_string(..).expect` (src/site.rs:321);
  - `fs::metadata(..).unwrap()` and the `created()`/`modified()` `expect`s (src/frontmatter.rs:23-31);
  - `file_stem().unwrap()` and its `into_string().unwrap()` (src/frontmatter.rs:33-37);
  - `into_string().unwrap()` in `get_filepath_as_str` on a path that is not UTF-8 (src/frontmatter.rs:157-164), since path components here are strings.
- Links.InternalLinkUrl: stated only for slugs that are non-empty and do not end in "/". For an empty slug `with_extension` changes nothing, and after a trailing "/" it works on the name before it. `Links.FillFromParser` models both cases, but no lemma states them.
- Util.StripPwd: works on component paths, not strings.
- The `println!` diagnostics in `load_files` and `get_item_from_flat_sitemap` are not modelled.
- `report_errors` is not modelled: it only prints.
- The tag-key order of `build_tag_pages` is `HashMap` iteration order, which is unspecified. The model takes the tag names as a sequence.

=== FILE: build_errors.dfy ===
/** The accumulator of non-fatal validation errors of a build (errors.rs). */
module BuildErrors {

  /** File paths whose `date_created` or `date_updated` frontmatter did not parse. */
  datatype Errors = Errors(invalidDateCreated: seq<string>, invalidDateUpdated: seq<string>)

  function New(): (e: Errors)
    ensures |e.invalidDateCreated| == 0 && |e.invalidDateUpdated| == 0
  {
    Errors([], [])
  }

  function AddInvalidDateCreated(e: Errors, filepath: string): (r: Errors)
    ensures r.invalidDateCreated == e.invalidDateCreated + [filepath]
    ensures r.invalidDateUpdated == e.invalidDateUpdated
  {
    e.(invalidDateCreated := e.invalidDateCreated + [filepath])
  }

  function AddInvalidDateUpdated(e: Errors, filepath: string): (r: Errors)
    ensures r.invalidDateUpdated == e.invalidDateUpdated + [filepath]
    ensures r.invalidDateCreated == e.invalidDateCreated
  {
    e.(invalidDateUpdated := e.invalidDateUpdated + [filepath])
  }

  /** `has_errors` as written tests the updated list twice, so it reports an
      error exactly when some `date_updated` failed to parse. */
  function HasErrors(e: Errors): (r: bool)
    ensures r <==> |e.invalidDateUpdated| > 0
    ensures |e.invalidDateCreated| > 0 && |e.invalidDateUpdated| == 0 ==> !r
  {
    !(|e.invalidDateUpdated| == 0 && |e.invalidDateUpdated| == 0)
  }

  function Clear(e: Errors): (r: Errors)
    ensures r == New()
    ensures !HasErrors(r)
  {
    Errors([], [])
  }

  /** The errors of `d` recorded after those of `e`, list by list: what a
      run that records `d` does to a site that already holds `e`. */
  function Append(e: Errors, d: Errors): (r: Errors)
    ensures r.invalidDateCreated == e.invalidDateCreated + d.invalidDateCreated
    ensures r.invalidDateUpdated == e.invalidDateUpdated + d.invalidDateUpdated
    ensures HasErrors(r) <==> HasErrors(e) || HasErrors(d)
  {
    Errors(e.invalidDateCreated + d.invalidDateCreated, e.invalidDateUpdated + d.invalidDateUpdated)
  }

  /** Nothing recorded is the unit of `Append`. */
  lemma AppendNew(e: Errors)
    ensures Append(e, New()) == e && Append(New(), e) == e
  {
    assert e.invalidDateCreated + [] == e.invalidDateCreated;
    assert e.invalidDateUpdated + [] == e.invalidDateUpdated;
  }

  /** Recording in two steps is recording the concatenation. */
  lemma AppendAssoc(a: Errors, b: Errors, c: Errors)
    ensures Append(Append(a, b), c) == Append(a, Append(b, c))
  {
    assert a.invalidDateCreated + b.invalidDateCreated + c.invalidDateCreated
        == a.invalidDateCreated + (b.invalidDateCreated + c.invalidDateCreated);
    assert a.invalidDateUpdated + b.invalidDateUpdated + c.invalidDateUpdated
        == a.invalidDateUpdated + (b.invalidDateUpdated + c.invalidDateUpdated);
  }

  /** Each add is an append of a one-path record. */
  lemma AddIsAppend(e: Errors, filepath: string)
    ensures AddInvalidDateCreated(e, filepath) == Append(e, Errors([filepath], []))
    ensures AddInvalidDateUpdated(e, filepath) == Append(e, Errors([], [filepath]))
  {
    assert e.invalidDateCreated + [] == e.invalidDateCreated;
    assert e.invalidDateUpdated + [] == e.invalidDateUpdated;
  }

  /** Errors are kept in the order they were recorded, duplicates included. */
  lemma AddsKeepOrder(e: Errors, a: string, b: string)
    ensures AddInvalidDateCreated(AddInvalidDateCreated(e, a), b).invalidDateCreated
            == e.invalidDateCreated + [a, b]
    ensures AddInvalidDateCreated(AddInvalidDateCreated(New(), a), a).invalidDateCreated == [a, a]
  {
    assert e.invalidDateCreated + [a] + [b] == e.invalidDateCreated + [a, b];
  }
}

=== FILE: document.dfy ===
/** The per-file record (`MdFile`), the user configuration the core reads,
    and the link records built from a file (link.rs). */
module Documents {
  import opened Wrappers
  import opened Paths
  import opened Externals
  import opened Links
  import FrontmatterScan

  /** The configuration fields the core reads; loading it from YAML is not
      part of this model. Directory entries are relative component paths. */
  datatype SiteConfig = SiteConfig(
    url: string,
    title: string,
    description: Option<string>,
    attachmentDirectory: Option<Path>,
    ignoredDirectories: Option<seq<Path>>,
    tagsUrl: Option<Path>,
    theme: Option<string>)

  /** A loaded markdown file, with the fields the site, the parser and the
      templates use. */
  datatype MdFile = MdFile(
    path: Path,
    raw: string,
    html: string,
    frontmatter: FrontmatterScan.Frontmatter,
    fileNameWithoutExtension: string,
    webPathParents: Path,
    fullUrl: string,
    isSection: bool,
    toc: seq<Link>,
    backlinks: seq<Link>,
    relatedFiles: seq<Link>,
    dateCreatedTimestamp: int,
    dateUpdatedTimestamp: int)

  /** `new_tag_link_from_md_file`: an internal link to the file, titled as the
      file, carrying the creation date in its display form. */
  function NewTagLinkFromMdFile(lib: Lib, md: MdFile): (r: Link)
    ensures r.isInternal && r.url == md.fullUrl && r.title == md.frontmatter.title
    ensures r.originatingFileTitle.None? && r.originatingFileUrl.None?
    ensures r.linkType.TaggedItem? && r.linkType.dateCreated == lib.displayDate(md.frontmatter.dateCreated)
  {
    Link(md.fullUrl, true, md.frontmatter.title, None, None, TaggedItem(lib.displayDate(md.frontmatter.dateCreated)))
  }

  /** `new_sitemap_link`: the same link, carrying the creation timestamp. */
  function NewSitemapLink(md: MdFile): (r: Link)
    ensures r.isInternal && r.url == md.fullUrl && r.title == md.frontmatter.title
    ensures r.originatingFileTitle.None? && r.originatingFileUrl.None?
    ensures r.linkType == Sitemap(md.dateCreatedTimestamp)
  {
    Link(md.fullUrl, true, md.frontmatter.title, None, None, Sitemap(md.dateCreatedTimestamp))
  }

  /** The tag link and the sitemap link of a file differ only in their type. */
  lemma TagAndSitemapLinksAgree(lib: Lib, md: MdFile)
    ensures NewTagLinkFromMdFile(lib, md).(linkType := Default) == NewSitemapLink(md).(linkType := Default)
  {
  }
}

=== FILE: events.dfy ===
/** The markdown event stream produced by the tokenizer (pulldown-cmark's
    `Event` and `Tag`), reduced to the cases the pipeline distinguishes. */
module Events {
  import opened Wrappers

  datatype HeadingLevel = H1 | H2 | H3 | H4 | H5 | H6 {
    /** The `Display` form of the level, which is also the HTML tag name. */
    function Name(): string {
      match this
      case H1 => "h1"
      case H2 => "h2"
      case H3 => "h3"
      case H4 => "h4"
      case H5 => "h5"
      case H6 => "h6"
    }
  }

  datatype CodeBlockKind = Indented | Fenced(lang: string)

  /** How a link was written in the markdown source. */
  datatype LinkType =
    | Inline | Reference | ReferenceUnknown | Collapsed | CollapsedUnknown
    | Shortcut | ShortcutUnknown | Autolink | Email

  datatype Tag =
    | Link(linkType: LinkType, url: string, title: string)
    | Image(linkType: LinkType, url: string, title: string)
    | Heading(level: HeadingLevel, id: Option<string>, classes: seq<string>)
    | CodeBlock(kind: CodeBlockKind)
    | OtherTag(name: string)

  datatype Event =
    | Start(tag: Tag)
    | End(tag: Tag)
    | Text(text: string)
    | Html(html: string)
    | OtherEvent(name: string)

  predicate IsLinkStart(e: Event) {
    e.Start? && e.tag.Link?
  }

  predicate IsLinkEnd(e: Event) {
    e.End? && e.tag.Link?
  }

  predicate IsHeadingStart(e: Event) {
    e.Start? && e.tag.Heading?
  }

  predicate IsHeadingEnd(e: Event) {
    e.End? && e.tag.Heading?
  }

  predicate IsFencedStart(e: Event) {
    e.Start? && e.tag.CodeBlock? && e.tag.kind.Fenced?
  }

  /** The texts of the `Text` events of `evs`, concatenated in order. */
  function Texts(evs: seq<Event>): string {
    if |evs| == 0 then ""
    else (if evs[0].Text? then evs[0].text else "") + Texts(evs[1..])
  }

  /** True when some event of `evs` is a `Text` event. */
  predicate HasText(evs: seq<Event>) {
    exists i :: 0 <= i < |evs| && evs[i].Text?
  }

  /** Number of events of `evs` satisfying `p`. */
  function CountWhere(evs: seq<Event>, p: Event -> bool): nat {
    if |evs| == 0 then 0 else (if p(evs[0]) then 1 else 0) + CountWhere(evs[1..], p)
  }

  lemma {:induction false} CountWhereAppend(a: seq<Event>, b: seq<Event>, p: Event -> bool)
    ensures CountWhere(a + b, p) == CountWhere(a, p) + CountWhere(b, p)
  {
    if |a| > 0 {
      CountWhereAppend(a[1..], b, p);
      assert (a + b)[1..] == a[1..] + b;
    } else {
      assert a + b == b;
    }
  }
}

=== FILE: externals.dfy ===
/** The library functions at the leaves of the generator, as parameters:
    `slugify!`, `html_escape::encode_safe`, pulldown-cmark's `push_html`,
    syntect's syntax lookup and highlighting, and chrono's parsing,
    formatting and `Display` of dates. */
module Externals {
  import opened Wrappers
  import opened Events

  /** chrono's `NaiveDateTime`. */
  datatype DateTime = DateTime(year: int, month: nat, day: nat, hour: nat, minute: nat, second: nat)

  datatype Lib = Lib(
    /** `slugify!` */
    slugify: string -> string,
    /** `html_escape::encode_safe` */
    escapeHtml: string -> string,
    /** `pulldown_cmark::html::push_html` over a whole event sequence */
    pushHtml: seq<Event> -> string,
    /** `SyntaxSet::find_syntax_by_name`, yielding the syntax name */
    syntaxByName: string -> Option<string>,
    /** `SyntaxSet::find_syntax_by_extension`, yielding the syntax name */
    syntaxByExtension: string -> Option<string>,
    /** syntect's classed highlighting of code in the named syntax; None when it fails */
    highlight: (string, string) -> Option<string>,
    /** `NaiveDateTime::parse_from_str(text, format)` */
    parseDate: (string, string) -> Option<DateTime>,
    /** `NaiveDateTime::format(format).to_string()` */
    formatDate: (DateTime, string) -> string,
    /** `NaiveDateTime::to_string()` */
    displayDate: DateTime -> string)

  /** What the `slugify!` macro guarantees of its output: it contains neither
      a path separator nor a dot. */
  ghost predicate SlugsAreUrlSafe(lib: Lib) {
    forall s :: '/' !in lib.slugify(s) && '.' !in lib.slugify(s)
  }
}

=== FILE: frontmatter.dfy ===
/** Frontmatter scanning (frontmatter.rs): the `---` delimiter state machine,
    the key/value dispatch and the date fallbacks. */
module FrontmatterScan {
  import opened Wrappers
  import opened Text
  import opened Externals
  import opened BuildErrors
  import opened Util

  datatype Frontmatter = Frontmatter(
    title: string,
    filepath: string,
    summary: Option<string>,
    tags: seq<string>,
    publish: bool,
    dateCreated: DateTime,
    dateUpdated: DateTime,
    template: string,
    inSitemap: bool)

  const Delimiter: string := "---"

  /** The frontmatter before any line is read: the title is the file stem and
      the dates come from the file system's metadata. */
  function Defaults(filepath: string, stem: string, created: DateTime, updated: DateTime): Frontmatter {
    Frontmatter(stem, filepath, None, [], true, created, updated, "", true)
  }

  /** The lines up to and including the first delimiter, or all of them. */
  function UpToClosing(ls: seq<string>): (r: seq<string>)
    ensures r <= ls
    ensures Delimiter !in ls ==> r == ls
    ensures Delimiter in ls ==> |r| > 0 && r[|r| - 1] == Delimiter && Delimiter !in r[..|r| - 1]
  {
    if |ls| == 0 then []
    else if ls[0] == Delimiter then [ls[0]]
    else
      var rest := UpToClosing(ls[1..]);
      assert Delimiter in ls ==> Delimiter in ls[1..] by {
        if Delimiter in ls {
          var k :| 0 <= k < |ls| && ls[k] == Delimiter;
          assert ls[1..][k - 1] == Delimiter;
        }
      }
      assert |rest| > 0 ==> ([ls[0]] + rest)[..|rest|] == [ls[0]] + rest[..|rest| - 1];
      [ls[0]] + rest
  }

  /** Which lines reach the key/value parser: none at all (`None`) when the
      first line is not the delimiter; otherwise the lines after it, up to and
      including the closing delimiter if there is one. An empty file is valid
      and contributes no line. */
  function DelimitedLines(lines: seq<string>): Option<seq<string>> {
    if |lines| == 0 then Some([])
    else if lines[0] != Delimiter then None
    else Some(UpToClosing(lines[1..]))
  }

  /** The loop of `Frontmatter::new` over the file's lines (the `capturing`
      flag and its two `break`s); it hands exactly `DelimitedLines` to the
      key/value parser. */
  method ScanDelimiters(lines: seq<string>) returns (valid: bool, interpreted: seq<string>)
    ensures valid <==> DelimitedLines(lines).Some?
    ensures valid ==> interpreted == DelimitedLines(lines).value
  {
    valid := true;
    interpreted := [];
    var capturing := false;
    var i := 0;
    while i < |lines|
      invariant 0 <= i <= |lines|
      invariant valid
      invariant !capturing ==> i == 0 && interpreted == []
      invariant capturing ==> 0 < i && lines[0] == Delimiter && interpreted == lines[1..i]
      invariant capturing ==> Delimiter !in lines[1..i]
      decreases |lines| - i
    {
      var line := lines[i];
      if line != Delimiter && !capturing {
        assert DelimitedLines(lines).None?;
        valid := false;
        break;
      }
      if line == Delimiter && !capturing {
        capturing := true;
        i := i + 1;
        continue;
      }
      interpreted := interpreted + [line];
      if line == Delimiter && capturing {
        ClosedBlock(lines, i);
        assert interpreted == lines[1..i + 1];
        return;
      }
      assert lines[1..i + 1] == lines[1..i] + [line];
      i := i + 1;
    }
    if valid && capturing {
      assert lines[1..i] == lines[1..];
    } else if valid {
      assert lines == [];
    }
  }

  /** A block closed at line `i` hands on the lines after the opening
      delimiter up to and including line `i`. */
  lemma ClosedBlock(lines: seq<string>, i: nat)
    requires 0 < i < |lines| && lines[0] == Delimiter && lines[i] == Delimiter
    requires Delimiter !in lines[1..i]
    ensures DelimitedLines(lines) == Some(lines[1..i + 1])
  {
    assert lines[1..][..i - 1] == lines[1..i];
    ClosingDelimiter(lines[1..], i - 1);
    assert lines[1..][..i] == lines[1..i + 1];
  }

  /** The prefix up to the closing delimiter at position `k`. */
  lemma {:induction false} ClosingDelimiter(ls: seq<string>, k: nat)
    requires k < |ls| && ls[k] == Delimiter && Delimiter !in ls[..k]
    ensures UpToClosing(ls) == ls[..k + 1]
  {
    if k > 0 {
      assert ls[0] == ls[..k][0];
      assert ls[0] != Delimiter;
      assert UpToClosing(ls) == [ls[0]] + UpToClosing(ls[1..]);
      assert ls[1..][..k - 1] == ls[1..k];
      ClosingDelimiter(ls[1..], k - 1);
      assert [ls[0]] + ls[1..][..k] == ls[..k + 1];
    }
  }

  /** A block of one line hands that line and the closing delimiter on. */
  lemma SingleLineBlock(line: string)
    requires line != Delimiter
    ensures DelimitedLines([Delimiter, line, Delimiter]) == Some([line, Delimiter])
  {
    var rest := [line, Delimiter];
    assert [Delimiter, line, Delimiter][1..] == rest;
    assert rest[..1] == [line];
    ClosingDelimiter(rest, 1);
    assert rest[..2] == rest;
  }

  /** `split_once(":")` with both sides trimmed. */
  function KeyValue(line: string): (r: Option<(string, string)>)
    ensures r.None? <==> ':' !in line
    ensures r.Some? ==> exists before, after :: line == before + ":" + after && ':' !in before
                                               && r.value == (Trim(before), Trim(after))
  {
    match SplitOnce(line, ':')
    case None => None
    case Some((before, after)) => Some((Trim(before), Trim(after)))
  }

  /** Keys and values come back already trimmed. */
  lemma TrimmedValue(line: string)
    requires KeyValue(line).Some?
    ensures Trim(KeyValue(line).value.1) == KeyValue(line).value.1
    ensures Trim(KeyValue(line).value.0) == KeyValue(line).value.0
  {
    var (before, after) := SplitOnce(line, ':').value;
    TrimIdempotent(before);
    TrimIdempotent(after);
  }

  /** The value of a `tag`/`tags` line: the comma-separated pieces, trimmed,
      in order, duplicates kept; an empty value yields one empty tag. */
  function ParseTags(value: string): (tags: seq<string>)
    ensures |tags| == |Split(value, ',')|
    ensures forall i :: 0 <= i < |tags| ==> tags[i] == Trim(Split(value, ',')[i])
    ensures value == "" ==> tags == [""]
  {
    var pieces := Split(value, ',');
    seq(|pieces|, i requires 0 <= i < |pieces| => Trim(pieces[i]))
  }

  /** The first successful attempt of a sequence. */
  function FirstSome<T>(attempts: seq<Option<T>>): (r: Option<T>)
    ensures r.None? <==> forall i :: 0 <= i < |attempts| ==> attempts[i].None?
    ensures r.Some? ==> exists i :: 0 <= i < |attempts| && attempts[i] == r
                                    && forall j :: 0 <= j < i ==> attempts[j].None?
  {
    if |attempts| == 0 then None
    else if attempts[0].Some? then attempts[0]
    else
      var r := FirstSome(attempts[1..]);
      assert r.Some? ==> exists i :: 0 <= i < |attempts| && attempts[i] == r
                                    && forall j :: 0 <= j < i ==> attempts[j].None? by {
        if r.Some? {
          var i :| 0 <= i < |attempts[1..]| && attempts[1..][i] == r
                   && forall j :: 0 <= j < i ==> attempts[1..][j].None?;
          assert attempts[i + 1] == r;
          assert forall j :: 0 <= j < i + 1 ==> attempts[j].None? by {
            forall j | 0 <= j < i + 1 ensures attempts[j].None? {
              if j > 0 {
                assert attempts[j] == attempts[1..][j - 1];
              }
            }
          }
        }
      }
      r
  }

  /** `match_possible_dates`: the four parse attempts in order, the first
      success winning. The last attempt appends " 17:00" to the text. */
  function MatchPossibleDates(lib: Lib, text: string): (r: Option<DateTime>)
    ensures r == FirstSome([
      lib.parseDate(text, "%Y-%m-%d %H:%M:%S"),
      lib.parseDate(text, "%Y-%m-%d %H:%M"),
      lib.parseDate(text, "%Y-%m-%d"),
      lib.parseDate(text + " 17:00", "%Y-%m-%d %H:%M")])
  {
    var attempts := [
      lib.parseDate(text, "%Y-%m-%d %H:%M:%S"),
      lib.parseDate(text, "%Y-%m-%d %H:%M"),
      lib.parseDate(text, "%Y-%m-%d"),
      lib.parseDate(text + " 17:00", "%Y-%m-%d %H:%M")];
    assert attempts[1..][1..][1..][1..] == [];
    assert FirstSome(attempts[1..][1..]) == if attempts[2].Some? then attempts[2] else FirstSome(attempts[1..][1..][1..]);
    assert FirstSome(attempts[1..][1..][1..]) == attempts[3];
    if lib.parseDate(text, "%Y-%m-%d %H:%M:%S").Some? then lib.parseDate(text, "%Y-%m-%d %H:%M:%S")
    else if lib.parseDate(text, "%Y-%m-%d %H:%M").Some? then lib.parseDate(text, "%Y-%m-%d %H:%M")
    else if lib.parseDate(text, "%Y-%m-%d").Some? then lib.parseDate(text, "%Y-%m-%d")
    else lib.parseDate(text + " 17:00", "%Y-%m-%d %H:%M")
  }

  /** Frontmatter under construction together with the site's error list. */
  datatype ScanState = ScanState(fm: Frontmatter, errors: Errors)

  predicate IsKnownKey(key: string) {
    key in {"title", "date_created", "date_updated", "summary", "template", "publish", "tag", "tags"}
  }

  /** The date key and value of a line whose date matches none of the
      accepted formats, if it is one. */
  predicate BadDate(lib: Lib, line: string, key: string) {
    KeyValue(line).Some? && KeyValue(line).value.0 == key && MatchPossibleDates(lib, KeyValue(line).value.1).None?
  }

  /** `get_key_value_from_line` on one line read on its own: the updated
      frontmatter and the date errors this line alone records. A line
      without a key/value pair or with an unknown key changes nothing;
      `title`, `summary`, `template`, `publish` and `tag`/`tags` set their
      field; a date key sets its date when one of the accepted formats parses
      the value and otherwise records the file path under that kind of date
      error. */
  function LineEffect(lib: Lib, fm: Frontmatter, line: string): (r: (Frontmatter, Errors))
    ensures KeyValue(line).None? ==> r == (fm, New())
    ensures KeyValue(line).Some? && !IsKnownKey(KeyValue(line).value.0) ==> r == (fm, New())
    ensures KeyValue(line).Some? && KeyValue(line).value.0 == "title" ==>
              r == (fm.(title := KeyValue(line).value.1), New())
    ensures KeyValue(line).Some? && KeyValue(line).value.0 == "summary" ==>
              r == (fm.(summary := Some(KeyValue(line).value.1)), New())
    ensures KeyValue(line).Some? && KeyValue(line).value.0 == "template" ==>
              r == (fm.(template := KeyValue(line).value.1), New())
    ensures KeyValue(line).Some? && KeyValue(line).value.0 == "publish" ==>
              r == (fm.(publish := KeyValue(line).value.1 != "false"), New())
    ensures KeyValue(line).Some? && KeyValue(line).value.0 in {"tag", "tags"} ==>
              r == (fm.(tags := ParseTags(KeyValue(line).value.1)), New())
    ensures KeyValue(line).Some? && KeyValue(line).value.0 == "date_created" ==>
              match MatchPossibleDates(lib, KeyValue(line).value.1)
              case Some(d) => r == (fm.(dateCreated := d), New())
              case None => r == (fm, Errors([fm.filepath], []))
    ensures KeyValue(line).Some? && KeyValue(line).value.0 == "date_updated" ==>
              match MatchPossibleDates(lib, KeyValue(line).value.1)
              case Some(d) => r == (fm.(dateUpdated := d), New())
              case None => r == (fm, Errors([], [fm.filepath]))
    ensures r.0.filepath == fm.filepath && r.0.inSitemap == fm.inSitemap
  {
    match KeyValue(line)
    case None => (fm, New())
    case Some((key, value)) =>
      if key == "title" then
        TrimmedValue(line);
        (fm.(title := Trim(value)), New())
      else if key == "date_created" then
        match MatchPossibleDates(lib, value)
        case Some(d) => (fm.(dateCreated := d), New())
        case None => (fm, Errors([fm.filepath], []))
      else if key == "date_updated" then
        match MatchPossibleDates(lib, value)
        case Some(d) => (fm.(dateUpdated := d), New())
        case None => (fm, Errors([], [fm.filepath]))
      else if key == "summary" then (fm.(summary := Some(value)), New())
      else if key == "template" then (fm.(template := value), New())
      else if key == "publish" then (fm.(publish := if value == "false" then false else true), New())
      else if key == "tag" || key == "tags" then (fm.(tags := ParseTags(value)), New())
      else (fm, New())
  }

  /** One line applied to the frontmatter under construction: the site's
      error list gains the file path under created or updated dates exactly
      when the line's date of that kind does not parse, and is otherwise
      left alone. */
  function ApplyLine(lib: Lib, st: ScanState, line: string): (r: ScanState)
    ensures BadDate(lib, line, "date_created") ==> r.errors == AddInvalidDateCreated(st.errors, st.fm.filepath)
    ensures BadDate(lib, line, "date_updated") ==> r.errors == AddInvalidDateUpdated(st.errors, st.fm.filepath)
    ensures !BadDate(lib, line, "date_created") && !BadDate(lib, line, "date_updated") ==> r.errors == st.errors
    ensures r.fm.filepath == st.fm.filepath && r.fm.inSitemap == st.fm.inSitemap
  {
    var effect := LineEffect(lib, st.fm, line);
    AppendNew(st.errors);
    AddIsAppend(st.errors, st.fm.filepath);
    ScanState(effect.0, Append(st.errors, effect.1))
  }

  /** The lines applied one after another. */
  function ApplyLines(lib: Lib, st: ScanState, ls: seq<string>): ScanState
    decreases |ls|
  {
    if |ls| == 0 then st else ApplyLines(lib, ApplyLine(lib, st, ls[0]), ls[1..])
  }

  /** `Frontmatter::new` over the file's lines: `None` for a file whose first
      line is not the delimiter; otherwise the defaults updated by every
      interpreted line, with date errors appended to `errors`. */
  function FrontmatterNew(lib: Lib, filepath: string, stem: string, created: DateTime,
                          updated: DateTime, lines: seq<string>, errors: Errors): (r: (Option<Frontmatter>, Errors))
    ensures r.0.None? <==> |lines| > 0 && lines[0] != Delimiter
    ensures r.0.None? ==> r.1 == errors
    ensures |lines| == 0 ==> r == (Some(Defaults(filepath, stem, created, updated)), errors)
  {
    match DelimitedLines(lines)
    case None => (None, errors)
    case Some(ls) =>
      var st := ApplyLines(lib, ScanState(Defaults(filepath, stem, created, updated), errors), ls);
      (Some(st.fm), st.errors)
  }

  /** A line's effect does not depend on the errors already recorded: it
      reads the same frontmatter and appends the same errors. */
  lemma ApplyLineErrors(lib: Lib, fm: Frontmatter, errors: Errors, line: string)
    ensures var alone := ApplyLine(lib, ScanState(fm, New()), line);
            ApplyLine(lib, ScanState(fm, errors), line) == ScanState(alone.fm, Append(errors, alone.errors))
  {
    AppendNew(LineEffect(lib, fm, line).1);
  }

  /** The same for a run of lines. */
  lemma {:induction false} ApplyLinesErrors(lib: Lib, fm: Frontmatter, errors: Errors, ls: seq<string>)
    ensures var alone := ApplyLines(lib, ScanState(fm, New()), ls);
            ApplyLines(lib, ScanState(fm, errors), ls) == ScanState(alone.fm, Append(errors, alone.errors))
    decreases |ls|
  {
    if |ls| == 0 {
      AppendNew(errors);
    } else {
      var first := ApplyLine(lib, ScanState(fm, New()), ls[0]);
      ApplyLineErrors(lib, fm, errors, ls[0]);
      ApplyLineErrors(lib, fm, New(), ls[0]);
      AppendNew(first.errors);
      assert ApplyLine(lib, ScanState(fm, New()), ls[0]) == ScanState(first.fm, first.errors);
      ApplyLinesErrors(lib, first.fm, Append(errors, first.errors), ls[1..]);
      ApplyLinesErrors(lib, first.fm, first.errors, ls[1..]);
      var rest := ApplyLines(lib, ScanState(first.fm, New()), ls[1..]);
      AppendAssoc(errors, first.errors, rest.errors);
    }
  }

  /** `Frontmatter::new` reads the same frontmatter whatever the site's error
      list holds, and only appends the file's own date errors to it. */
  lemma FrontmatterNewErrors(lib: Lib, filepath: string, stem: string, created: DateTime,
                             updated: DateTime, lines: seq<string>, errors: Errors)
    ensures var alone := FrontmatterNew(lib, filepath, stem, created, updated, lines, New());
            FrontmatterNew(lib, filepath, stem, created, updated, lines, errors) == (alone.0, Append(errors, alone.1))
  {
    AppendNew(errors);
    match DelimitedLines(lines)
    case None =>
    case Some(ls) =>
      ApplyLinesErrors(lib, Defaults(filepath, stem, created, updated), errors, ls);
  }

  /** A "date_updated" line whose value matches none of the accepted formats
      inside the block records the file under the updated-date errors. */
  lemma UnparsedUpdatedDateRecorded(lib: Lib, filepath: string, stem: string, created: DateTime,
                                    updated: DateTime, value: string, errors: Errors)
    requires MatchPossibleDates(lib, Trim(value)).None?
    ensures FrontmatterNew(lib, filepath, stem, created, updated,
                           [Delimiter, "date_updated" + ":" + value, Delimiter], errors).1
            == AddInvalidDateUpdated(errors, filepath)
  {
    var line := "date_updated" + ":" + value;
    UpdatedDateLine(lib, ScanState(Defaults(filepath, stem, created, updated), errors), value);
    assert line != Delimiter by { assert |line| > |Delimiter|; }
    SingleLineBlock(line);
    var st0 := ScanState(Defaults(filepath, stem, created, updated), errors);
    var st1 := ApplyLine(lib, st0, line);
    assert ':' !in Delimiter;
    ApplyLinesCons(lib, st0, line, [Delimiter]);
    ApplyLinesCons(lib, st1, Delimiter, []);
    NoColonLine(lib, st1, Delimiter);
  }

  /** A `date_updated` line whose value no accepted format parses records the
      file as having an invalid update date. */
  lemma UpdatedDateLine(lib: Lib, st: ScanState, value: string)
    requires MatchPossibleDates(lib, Trim(value)).None?
    ensures ApplyLine(lib, st, "date_updated" + ":" + value).errors
            == AddInvalidDateUpdated(st.errors, st.fm.filepath)
  {
    var key := "date_updated";
    var line := key + ":" + value;
    assert KeyValue(line) == Some((key, Trim(value))) by {
      assert ':' !in key by {
        forall i | 0 <= i < |key| ensures key[i] != ':' { }
      }
      TrimUnpadded(key);
      assert line == key + [':'] + value;
      SplitOnceAt(key, ':', value);
    }
    assert BadDate(lib, line, "date_updated") && !BadDate(lib, line, "date_created");
  }

  /** The first line is applied first. */
  lemma ApplyLinesCons(lib: Lib, st: ScanState, line: string, rest: seq<string>)
    ensures ApplyLines(lib, st, [line] + rest) == ApplyLines(lib, ApplyLine(lib, st, line), rest)
  {
    assert ([line] + rest)[1..] == rest;
  }

  /** A line without ':' changes nothing. */
  lemma NoColonLine(lib: Lib, st: ScanState, line: string)
    requires ':' !in line
    ensures ApplyLine(lib, st, line) == st
  {
    assert KeyValue(line).None?;
    AppendNew(st.errors);
  }

  /** Nothing after the closing delimiter is read: a body appended after it
      changes neither the frontmatter nor the errors. */
  lemma IgnoresBody(lib: Lib, filepath: string, stem: string, created: DateTime, updated: DateTime,
                    header: seq<string>, body: seq<string>, errors: Errors)
    requires Delimiter !in header
    ensures FrontmatterNew(lib, filepath, stem, created, updated, [Delimiter] + header + [Delimiter] + body, errors)
         == FrontmatterNew(lib, filepath, stem, created, updated, [Delimiter] + header + [Delimiter], errors)
  {
    var withBody := [Delimiter] + header + [Delimiter] + body;
    var without := [Delimiter] + header + [Delimiter];
    assert DelimitedLines(withBody) == DelimitedLines(without) by {
      assert withBody[1..][|header|] == Delimiter;
      assert withBody[1..][..|header|] == header;
      ClosingDelimiter(withBody[1..], |header|);
      assert without[1..][|header|] == Delimiter;
      assert without[1..][..|header|] == header;
      ClosingDelimiter(without[1..], |header|);
      assert withBody[1..][..|header| + 1] == without[1..][..|header| + 1];
    }
  }

  /** The quirk of `date_created_str`: it formats `date_updated`. */
  function DateCreatedStr(lib: Lib, fm: Frontmatter): (r: string)
    ensures r == DateModifiedStr(lib, fm)
    ensures forall d :: r == DateModifiedStr(lib, fm.(dateCreated := d))
  {
    NaiveDateToStr(lib, fm.dateUpdated)
  }

  function DateModifiedStr(lib: Lib, fm: Frontmatter): string {
    NaiveDateToStr(lib, fm.dateUpdated)
  }
}

=== FILE: headlines.dfy ===
/** Headings collapsed into single HTML events carrying an id
    (parser/headlines.rs). */
module Headlines {
  import opened Wrappers
  import opened Externals
  import opened Events

  /** Index of the first heading end in `evs`, if any. */
  function HeadingEnd(evs: seq<Event>): (r: Option<nat>)
    ensures r.Some? ==> r.value < |evs| && IsHeadingEnd(evs[r.value])
                        && forall i :: 0 <= i < r.value ==> !IsHeadingEnd(evs[i])
    ensures r.None? ==> forall i :: 0 <= i < |evs| ==> !IsHeadingEnd(evs[i])
  {
    if |evs| == 0 then None
    else if IsHeadingEnd(evs[0]) then Some(0)
    else match HeadingEnd(evs[1..])
      case None => None
      case Some(k) => Some(k + 1)
  }

  /** The text the id is generated from: " " + text for every `Text` event. */
  function SpacedTexts(evs: seq<Event>): (r: string)
    ensures |r| == |Texts(evs)| + CountWhere(evs, (e: Event) => e.Text?)
  {
    if |evs| == 0 then ""
    else (if evs[0].Text? then " " + evs[0].text else "") + SpacedTexts(evs[1..])
  }

  /** The id written on a heading: its explicit id, or the slug of its texts. */
  function HeadingId(lib: Lib, id: Option<string>, inner: seq<Event>): string {
    match id
    case Some(given) => given
    case None => lib.slugify(SpacedTexts(inner))
  }

  /** `<hN id="ID">` + inner HTML + `</hN>`. */
  function HeadingHtml(level: HeadingLevel, id: string, innerHtml: string): string {
    "<" + level.Name() + " id=\"" + id + "\">" + innerHtml + "</" + level.Name() + ">"
  }

  /** `ParseHeadlines` over a whole event stream: a heading start, the events
      up to the first heading end, and that end become one `Html` event; other
      events pass through; a heading that is never closed ends the stream. */
  function ParseHeadlines(lib: Lib, evs: seq<Event>): (r: seq<Event>)
    ensures |r| <= |evs|
    ensures forall i :: 0 <= i < |r| ==> !IsHeadingStart(r[i])
    ensures forall i :: 0 <= i < |r| ==> r[i].Html? || r[i] in evs
    decreases |evs|
  {
    if |evs| == 0 then []
    else if IsHeadingStart(evs[0]) then
      var rest := evs[1..];
      match HeadingEnd(rest)
      case None => []
      case Some(k) =>
        var inner := rest[..k];
        var tag := evs[0].tag;
        var tail := ParseHeadlines(lib, rest[k + 1..]);
        assert forall e :: e in tail ==> e.Html? || e in evs by {
          forall e | e in tail && !e.Html?
            ensures e in evs
          {
            assert e in rest[k + 1..];
          }
        }
        [Html(HeadingHtml(tag.level, HeadingId(lib, tag.id, inner), lib.pushHtml(inner)))] + tail
    else
      var tail := ParseHeadlines(lib, evs[1..]);
      assert forall e :: e in tail ==> e.Html? || e in evs by {
        forall e | e in tail && !e.Html?
          ensures e in evs
        {
          assert e in evs[1..];
        }
      }
      [evs[0]] + tail
  }

  /** A stream without heading starts comes back unchanged. */
  lemma {:induction false} HeadlinesPassThrough(lib: Lib, evs: seq<Event>)
    requires forall i :: 0 <= i < |evs| ==> !IsHeadingStart(evs[i])
    ensures ParseHeadlines(lib, evs) == evs
    decreases |evs|
  {
    if |evs| > 0 {
      HeadlinesPassThrough(lib, evs[1..]);
      assert evs == [evs[0]] + evs[1..];
    }
  }

  /** A closed heading becomes exactly one `Html` event: the level's tag with
      the explicit id if there is one and otherwise the slug of " " + text
      for each inner text, wrapped around the rendering of the inner events. */
  lemma HeadingCollapses(lib: Lib, level: HeadingLevel, id: Option<string>, classes: seq<string>,
                         inner: seq<Event>, close: Tag, rest: seq<Event>)
    requires forall i :: 0 <= i < |inner| ==> !IsHeadingEnd(inner[i])
    requires close.Heading?
    ensures ParseHeadlines(lib, [Start(Heading(level, id, classes))] + inner + [End(close)] + rest)
            == [Html(HeadingHtml(level, HeadingId(lib, id, inner), lib.pushHtml(inner)))] + ParseHeadlines(lib, rest)
  {
    var evs := [Start(Heading(level, id, classes))] + inner + [End(close)] + rest;
    var tail := evs[1..];
    assert tail == inner + [End(close)] + rest;
    assert tail[|inner|] == End(close);
    assert forall i :: 0 <= i < |inner| ==> tail[i] == inner[i];
    assert HeadingEnd(tail) == Some(|inner|);
    assert tail[..|inner|] == inner;
    assert tail[|inner| + 1..] == rest;
  }

  /** An explicit id is used as given, whatever the heading's text. */
  lemma ExplicitIdVerbatim(lib: Lib, given: string, inner: seq<Event>, other: seq<Event>)
    ensures HeadingId(lib, Some(given), inner) == HeadingId(lib, Some(given), other) == given
  {
  }

  /** Only `Text` events feed the generated id: other inner events (inline
      code, emphasis markers, html) do not change it. */
  lemma {:induction false} GeneratedIdIgnoresOtherEvents(evs: seq<Event>, e: Event, i: nat)
    requires !e.Text? && i <= |evs|
    ensures SpacedTexts(evs[..i] + [e] + evs[i..]) == SpacedTexts(evs)
    decreases |evs|
  {
    if i == 0 {
      assert (evs[..i] + [e] + evs[i..])[1..] == evs;
    } else {
      assert (evs[..i] + [e] + evs[i..])[0] == evs[0];
      assert (evs[..i] + [e] + evs[i..])[1..] == evs[1..][..i - 1] + [e] + evs[1..][i - 1..];
      GeneratedIdIgnoresOtherEvents(evs[1..], e, i - 1);
    }
  }

  /** When the stream ends inside a heading, the partial heading and
      everything after it are lost. */
  lemma UnclosedHeadingEndsStream(lib: Lib, before: seq<Event>, start: Event, after: seq<Event>)
    requires forall i :: 0 <= i < |before| ==> !IsHeadingStart(before[i])
    requires IsHeadingStart(start)
    requires forall i :: 0 <= i < |after| ==> !IsHeadingEnd(after[i])
    ensures ParseHeadlines(lib, before + [start] + after) == before
  {
    UnclosedPrefix(lib, before, [start] + after);
    assert before + [start] + after == before + ([start] + after);
    assert ([start] + after)[1..] == after;
  }

  lemma {:induction false} UnclosedPrefix(lib: Lib, before: seq<Event>, tail: seq<Event>)
    requires forall i :: 0 <= i < |before| ==> !IsHeadingStart(before[i])
    ensures ParseHeadlines(lib, before + tail) == before + ParseHeadlines(lib, tail)
    decreases |before|
  {
    if |before| > 0 {
      var s := before + tail;
      assert s[0] == before[0] && !IsHeadingStart(s[0]);
      assert s[1..] == before[1..] + tail;
      assert ParseHeadlines(lib, s) == [s[0]] + ParseHeadlines(lib, s[1..]);
      UnclosedPrefix(lib, before[1..], tail);
      assert before == [before[0]] + before[1..];
    } else {
      assert before + tail == tail;
    }
  }
}

=== FILE: link.dfy ===
/** Link records and the rewriting of link targets (link.rs, and
    `build_with_baseurl` of site.rs). */
module Links {
  import opened Wrappers
  import opened Text
  import opened Paths
  import opened Externals
  import E = Events

  /** What a link record is used for in the templates. */
  datatype EskerLinkType =
    | Default
    | Toc(headingLevel: nat)
    | Backlink
    | RelatedLink
    | TagLink
    | TaggedItem(dateCreated: string)
    | Sitemap(dateCreatedTimestamp: int)

  datatype Link = Link(
    url: string,
    isInternal: bool,
    title: string,
    originatingFileTitle: Option<string>,
    originatingFileUrl: Option<string>,
    linkType: EskerLinkType)

  /** Every link met while parsing, split by whether it stays on the site. */
  datatype SiteLinks = SiteLinks(external: seq<Link>, internal: seq<Link>)

  /** `Link::empty`: the blank record the parser fills in. */
  function Empty(): (r: Link)
    ensures r.url == "" && r.title == "" && !r.isInternal
    ensures r.originatingFileTitle.None? && r.originatingFileUrl.None? && r.linkType == Default
  {
    Link("", false, "", None, None, Default)
  }

  /** `is_external`: the target names another site. */
  predicate IsExternal(url: string) {
    StartsWith(url, "http://") || StartsWith(url, "https://") || StartsWith(url, "www.")
  }

  /** `is_internal`: every target that is not external, including "mailto:"
      addresses and bare "#fragment" anchors. */
  predicate IsInternal(url: string) {
    !IsExternal(url)
  }

  predicate IsMailto(url: string) {
    StartsWith(url, "mailto:")
  }

  /** `build_with_baseurl`: the base URL, a '/', then the web path. */
  function BuildWithBaseUrl(baseUrl: string, webPath: string): (r: string)
    ensures |r| == |baseUrl| + 1 + |webPath|
    ensures baseUrl <= r && r[|baseUrl|] == '/' && r[|baseUrl| + 1..] == webPath
  {
    baseUrl + "/" + webPath
  }

  /** One segment of `slugify_internal_url`: the extension goes, every "%20"
      becomes "-", and the rest is slugified. */
  function SlugifySegment(lib: Lib, segment: string): string {
    lib.slugify(ReplaceAll(WithExtension(segment, ""), "%20", "-"))
  }

  /** Each segment slugified, in order. */
  function SlugifySegments(lib: Lib, segments: seq<string>): seq<string> {
    seq(|segments|, i requires 0 <= i < |segments| => SlugifySegment(lib, segments[i]))
  }

  /** `slugify_internal_url`: the url is cut at every '/', each segment is
      slugified, and the segments are joined again with '/'. */
  function SlugifyInternalUrl(lib: Lib, url: string): string {
    Join(SlugifySegments(lib, Split(url, '/')), "/")
  }

  /** With slugs free of '/' and '.', the slugified url has exactly one
      segment per segment of the original url, each the slug of the original
      one, and no dot left for `with_extension` to cut at. */
  lemma SlugifyInternalUrlSegments(lib: Lib, url: string)
    requires SlugsAreUrlSafe(lib)
    ensures Split(SlugifyInternalUrl(lib, url), '/') == SlugifySegments(lib, Split(url, '/'))
    ensures |Split(SlugifyInternalUrl(lib, url), '/')| == |Split(url, '/')|
    ensures '.' !in SlugifyInternalUrl(lib, url)
  {
    var slugs := SlugifySegments(lib, Split(url, '/'));
    SplitJoin(slugs, '/');
    assert "/" == ['/'];
    JoinSplit(SlugifyInternalUrl(lib, url), '/');
    NoDotInJoin(slugs);
  }

  lemma {:induction false} NoDotInJoin(parts: seq<string>)
    requires forall i :: 0 <= i < |parts| ==> '.' !in parts[i]
    ensures '.' !in Join(parts, "/")
  {
    if |parts| > 1 {
      NoDotInJoin(parts[1..]);
    }
  }

  /** The url written for a link target (the `Tag::Link` branch of
      `fill_from_parser`): external targets and "mailto:" addresses are kept
      as written; other internal targets are slugified, given the "html"
      extension and put under the base URL. */
  function RewriteUrl(lib: Lib, baseUrl: string, url: string): string {
    if IsInternal(url) then
      if IsMailto(url) then url
      else BuildWithBaseUrl(baseUrl, WithExtension(SlugifyInternalUrl(lib, url), "html"))
    else url
  }

  /** `fill_from_parser` (the `update_vals` the parser calls): a `Link` tag
      overwrites url, internal flag, title and both originating fields of the
      record and leaves its link type alone; any other tag is fatal. */
  function FillFromParser(lib: Lib, baseUrl: string, link: Link, tag: E.Tag,
                          originatingUrl: Option<string>, originatingTitle: Option<string>): (r: Result<Link>)
    ensures r.Panic? <==> !tag.Link?
    ensures r.Ok? ==> r.value.isInternal == IsInternal(tag.url)
    ensures r.Ok? ==> r.value.title == tag.title
    ensures r.Ok? ==> r.value.originatingFileUrl == originatingUrl
                      && r.value.originatingFileTitle == originatingTitle
    ensures r.Ok? ==> r.value.linkType == link.linkType
    ensures r.Ok? && (IsExternal(tag.url) || IsMailto(tag.url)) ==> r.value.url == tag.url
  {
    match tag
    case Link(_, url, title) => Ok(FillLink(lib, baseUrl, link, url, title, originatingUrl, originatingTitle))
    case _ => Panic("fill_from_parser called with a tag that is not a link")
  }

  /** The `Tag::Link` branch of `fill_from_parser`. */
  function FillLink(lib: Lib, baseUrl: string, link: Link, url: string, title: string,
                    originatingUrl: Option<string>, originatingTitle: Option<string>): Link
  {
    link.(url := RewriteUrl(lib, baseUrl, url), isInternal := IsInternal(url), title := title,
          originatingFileTitle := originatingTitle, originatingFileUrl := originatingUrl)
  }

  /** The slug of a url has no dot, so "html" is appended to it. */
  lemma SlugGainsHtml(lib: Lib, url: string)
    requires SlugsAreUrlSafe(lib)
    requires var slug := SlugifyInternalUrl(lib, url); |slug| > 0 && slug[|slug| - 1] != '/'
    ensures WithExtension(SlugifyInternalUrl(lib, url), "html") == SlugifyInternalUrl(lib, url) + "." + "html"
  {
    var slug := SlugifyInternalUrl(lib, url);
    SlugifyInternalUrlSegments(lib, url);
    var tail := slug[NameStart(slug)..];
    assert '.' !in tail by {
      forall k | 0 <= k < |tail|
        ensures tail[k] != '.'
      {
        assert tail[k] == slug[NameStart(slug) + k];
      }
    }
    WithExtensionAppends(slug, "html");
  }

  /** An internal, non-mailto target whose slugified form is non-empty and
      does not end in '/' becomes base + "/" + slug + ".html". */
  lemma InternalLinkUrl(lib: Lib, baseUrl: string, link: Link, lt: E.LinkType, url: string, title: string,
                        originatingUrl: Option<string>, originatingTitle: Option<string>)
    requires SlugsAreUrlSafe(lib)
    requires IsInternal(url) && !IsMailto(url)
    requires var slug := SlugifyInternalUrl(lib, url); |slug| > 0 && slug[|slug| - 1] != '/'
    ensures var r := FillFromParser(lib, baseUrl, link, E.Link(lt, url, title), originatingUrl, originatingTitle);
            r.Ok? && r.value.isInternal
            && r.value.url == baseUrl + "/" + (SlugifyInternalUrl(lib, url) + "." + "html")
  {
    SlugGainsHtml(lib, url);
    assert RewriteUrl(lib, baseUrl, url) == BuildWithBaseUrl(baseUrl, WithExtension(SlugifyInternalUrl(lib, url), "html"));
  }

  /** A "mailto:" target keeps its url verbatim yet is recorded as internal. */
  lemma MailtoLinkIsInternal(lib: Lib, baseUrl: string, link: Link, lt: E.LinkType, address: string, title: string,
                             originatingUrl: Option<string>, originatingTitle: Option<string>)
    ensures var r := FillFromParser(lib, baseUrl, link, E.Link(lt, "mailto:" + address, title), originatingUrl, originatingTitle);
            r.Ok? && r.value.isInternal && r.value.url == "mailto:" + address
  {
    var url := "mailto:" + address;
    assert IsMailto(url) by { assert url[..7] == "mailto:"; }
    assert !IsExternal(url) by {
      assert url[0] == 'm';
    }
  }

  /** A bare "#fragment" target counts as internal. */
  lemma FragmentIsInternal(fragment: string)
    ensures IsInternal("#" + fragment) && !IsMailto("#" + fragment)
  {
    assert ("#" + fragment)[0] == '#';
  }

  /** `for_parser`: the tag re-emitted for a link start, an inline link to the
      record's url whose title is the base URL joined with that url. */
  function ForParser(baseUrl: string, link: Link): (r: E.Tag)
    ensures r.Link? && r.linkType == E.Inline && r.url == link.url
    ensures r.title == BuildWithBaseUrl(baseUrl, link.url)
  {
    E.Link(E.Inline, link.url, BuildWithBaseUrl(baseUrl, link.url))
  }

  /** `update_img_link`: an internal image path is put under the base URL
      without slugifying; an external one is kept. Link type and title stay. */
  function UpdateImgLink(baseUrl: string, linkType: E.LinkType, url: string, title: string): (r: E.Tag)
    ensures r.Image? && r.linkType == linkType && r.title == title
    ensures IsInternal(url) ==> r.url == baseUrl + "/" + url
    ensures IsExternal(url) ==> r.url == url
  {
    if IsInternal(url) then E.Image(linkType, BuildWithBaseUrl(baseUrl, url), title)
    else E.Image(linkType, url, title)
  }

  /** Image and link targets are rewritten alike except for internal
      non-"mailto:" targets: a link is slugified and given the "html"
      extension, an image keeps its path. */
  lemma ImageUrlVersusLinkUrl(lib: Lib, baseUrl: string, lt: E.LinkType, url: string, title: string)
    ensures IsExternal(url) ==> UpdateImgLink(baseUrl, lt, url, title).url == RewriteUrl(lib, baseUrl, url)
    ensures IsInternal(url) && !IsMailto(url) ==>
              && UpdateImgLink(baseUrl, lt, url, title).url == BuildWithBaseUrl(baseUrl, url)
              && RewriteUrl(lib, baseUrl, url)
                 == BuildWithBaseUrl(baseUrl, WithExtension(SlugifyInternalUrl(lib, url), "html"))
  {
  }

  /** `add_link` of site.rs: internal links go to one list, the rest to the
      other, each in arrival order. */
  function AddLink(links: SiteLinks, link: Link): (r: SiteLinks)
    ensures link.isInternal ==> r.internal == links.internal + [link] && r.external == links.external
    ensures !link.isInternal ==> r.external == links.external + [link] && r.internal == links.internal
  {
    if link.isInternal then links.(internal := links.internal + [link])
    else links.(external := links.external + [link])
  }
}

=== FILE: md_file.dfy ===
/** The older `md_file.rs`: its own frontmatter parser (key "published",
    fatal date errors) and `set_raw_contents`, which strips frontmatter
    blocks from the body. */
module LegacyMdFile {
  import opened Wrappers
  import opened Text
  import opened Externals
  import FrontmatterScan

  const Delimiter: string := FrontmatterScan.Delimiter

  /** The only date format the older parser accepts. */
  const LegacyDateFormat: string := "%Y-%m-%d %H:%M"

  datatype LegacyFrontmatter = LegacyFrontmatter(
    title: string,
    filepath: string,
    summary: Option<string>,
    tags: seq<string>,
    published: bool,
    dateCreated: DateTime,
    dateUpdated: DateTime)

  /** The keys the older parser reads; "template" and "publish" are not among them. */
  predicate IsLegacyKnownKey(key: string) {
    key == "title" || IsDateKey(key) || key == "summary" || key == "published" || key == "tag" || key == "tags"
  }

  predicate IsDateKey(key: string) {
    key == "date_created" || key == "date_updated"
  }

  /** The older `get_key_value_from_line`: a date that does not parse aborts
      (the parse result is unwrapped), the publish flag is read from the key "published", and
      there is no "template" key. */
  function LegacyApplyLine(lib: Lib, fm: LegacyFrontmatter, line: string): (r: Result<LegacyFrontmatter>)
    ensures r.Panic? <==> FrontmatterScan.KeyValue(line).Some? && IsDateKey(FrontmatterScan.KeyValue(line).value.0)
                           && lib.parseDate(FrontmatterScan.KeyValue(line).value.1, LegacyDateFormat).None?
    ensures FrontmatterScan.KeyValue(line).None? ==> r == Ok(fm)
  {
    match FrontmatterScan.KeyValue(line)
    case None => Ok(fm)
    case Some(kv) =>
      var key := kv.0;
      var value := kv.1;
      if key == "title" then Ok(fm.(title := Trim(value)))
      else if key == "date_created" then
        match lib.parseDate(value, LegacyDateFormat)
        case Some(d) => Ok(fm.(dateCreated := d))
        case None => Panic("failed to parse datestring.")
      else if key == "date_updated" then
        match lib.parseDate(value, LegacyDateFormat)
        case Some(d) => Ok(fm.(dateUpdated := d))
        case None => Panic("failed to parse datestring.")
      else if key == "summary" then Ok(fm.(summary := Some(value)))
      else if key == "published" then Ok(fm.(published := if value == "false" then false else true))
      else if key == "tag" || key == "tags" then Ok(fm.(tags := FrontmatterScan.ParseTags(value)))
      else Ok(fm)
  }

  /** "published" clears the flag only for the value "false". */
  lemma LegacyPublishedKey(lib: Lib, fm: LegacyFrontmatter, line: string)
    requires FrontmatterScan.KeyValue(line).Some? && FrontmatterScan.KeyValue(line).value.0 == "published"
    ensures LegacyApplyLine(lib, fm, line) == Ok(fm.(published := FrontmatterScan.KeyValue(line).value.1 != "false"))
  {
    var kv := FrontmatterScan.KeyValue(line).value;
    assert |kv.0| == 9;
    assert kv.0 != "title" && !IsDateKey(kv.0) && kv.0 != "summary" by {
      assert |"title"| == 5 && |"summary"| == 7;
      assert |"date_created"| == 12 && |"date_updated"| == 12;
    }
    assert LegacyApplyLine(lib, fm, line) == Ok(fm.(published := if kv.1 == "false" then false else true));
  }

  /** Keys the older parser does not know, "template" and "publish" among
      them, change nothing. */
  lemma LegacyUnknownKey(lib: Lib, fm: LegacyFrontmatter, line: string)
    requires FrontmatterScan.KeyValue(line).Some? && !IsLegacyKnownKey(FrontmatterScan.KeyValue(line).value.0)
    ensures LegacyApplyLine(lib, fm, line) == Ok(fm)
  {
  }

  /** "tag" and "tags" replace the tag list. */
  lemma LegacyTagsKey(lib: Lib, fm: LegacyFrontmatter, line: string)
    requires FrontmatterScan.KeyValue(line).Some?
    requires FrontmatterScan.KeyValue(line).value.0 == "tag" || FrontmatterScan.KeyValue(line).value.0 == "tags"
    ensures LegacyApplyLine(lib, fm, line) == Ok(fm.(tags := FrontmatterScan.ParseTags(FrontmatterScan.KeyValue(line).value.1)))
  {
    var kv := FrontmatterScan.KeyValue(line).value;
    assert |kv.0| == 3 || |kv.0| == 4;
    assert kv.0 != "title" && !IsDateKey(kv.0) && kv.0 != "summary" && kv.0 != "published" by {
      assert |"title"| == 5 && |"summary"| == 7 && |"published"| == 9;
      assert |"date_created"| == 12 && |"date_updated"| == 12;
    }
    assert LegacyApplyLine(lib, fm, line) == Ok(fm.(tags := FrontmatterScan.ParseTags(kv.1)));
  }

  /** A date that parses sets the field its key names, and only that field. */
  lemma LegacyDateKey(lib: Lib, fm: LegacyFrontmatter, line: string)
    requires FrontmatterScan.KeyValue(line).Some? && IsDateKey(FrontmatterScan.KeyValue(line).value.0)
    requires lib.parseDate(FrontmatterScan.KeyValue(line).value.1, LegacyDateFormat).Some?
    ensures var d := lib.parseDate(FrontmatterScan.KeyValue(line).value.1, LegacyDateFormat).value;
            LegacyApplyLine(lib, fm, line)
            == Ok(if FrontmatterScan.KeyValue(line).value.0 == "date_created" then fm.(dateCreated := d)
                  else fm.(dateUpdated := d))
  {
    var kv := FrontmatterScan.KeyValue(line).value;
    assert |kv.0| == 12 && kv.0 != "title" by {
      assert |"title"| == 5;
    }
  }

  /** "title" stores the trimmed value. */
  lemma LegacyTitleKey(lib: Lib, fm: LegacyFrontmatter, line: string)
    requires FrontmatterScan.KeyValue(line).Some? && FrontmatterScan.KeyValue(line).value.0 == "title"
    ensures LegacyApplyLine(lib, fm, line) == Ok(fm.(title := FrontmatterScan.KeyValue(line).value.1))
  {
    var kv := FrontmatterScan.KeyValue(line).value;
    FrontmatterScan.TrimmedValue(line);
    assert LegacyApplyLine(lib, fm, line) == Ok(fm.(title := Trim(kv.1)));
  }

  /** "summary" stores the trimmed value. */
  lemma LegacySummaryKey(lib: Lib, fm: LegacyFrontmatter, line: string)
    requires FrontmatterScan.KeyValue(line).Some? && FrontmatterScan.KeyValue(line).value.0 == "summary"
    ensures LegacyApplyLine(lib, fm, line) == Ok(fm.(summary := Some(FrontmatterScan.KeyValue(line).value.1)))
  {
    var kv := FrontmatterScan.KeyValue(line).value;
    assert |kv.0| == 7;
    assert kv.0 != "title" && !IsDateKey(kv.0) by {
      assert |"title"| == 5 && |"date_created"| == 12 && |"date_updated"| == 12;
    }
    assert LegacyApplyLine(lib, fm, line) == Ok(fm.(summary := Some(kv.1)));
  }

  function LegacyApplyLines(lib: Lib, fm: LegacyFrontmatter, ls: seq<string>): Result<LegacyFrontmatter>
    decreases |ls|
  {
    if |ls| == 0 then Ok(fm)
    else
      var next :- LegacyApplyLine(lib, fm, ls[0]);
      LegacyApplyLines(lib, next, ls[1..])
  }

  /** The older `Frontmatter::new`, with the same delimiter scan as the newer one. */
  function LegacyFrontmatterNew(lib: Lib, filepath: string, stem: string, created: DateTime,
                                updated: DateTime, lines: seq<string>): (r: Result<Option<LegacyFrontmatter>>)
    ensures |lines| > 0 && lines[0] != Delimiter ==> r == Ok(None)
    ensures |lines| == 0 ==> r == Ok(Some(LegacyFrontmatter(stem, filepath, None, [], true, created, updated)))
  {
    match FrontmatterScan.DelimitedLines(lines)
    case None => Ok(None)
    case Some(ls) =>
      var fm :- LegacyApplyLines(lib, LegacyFrontmatter(stem, filepath, None, [], true, created, updated), ls);
      Ok(Some(fm))
  }

  /** A line "key:value" whose key has no colon or surrounding blanks splits into that key. */
  lemma KeyValueOfLine(key: string, value: string)
    requires ':' !in key && key == Trim(key)
    ensures FrontmatterScan.KeyValue(key + ":" + value) == Some((key, Trim(value)))
  {
    assert key + ":" + value == key + [':'] + value;
    SplitOnceAt(key, ':', value);
  }

  /** The two date keys carry no colon and no surrounding blanks. */
  lemma DateKeysPlain(key: string)
    requires IsDateKey(key)
    ensures ':' !in key && Trim(key) == key && |key| == 12
  {
    assert |key| == 12 && key[0] == 'd' && key[11] == 'd';
    TrimUnpadded(key);
  }

  /** A date line whose value does not parse aborts the line parser. */
  lemma MalformedDateLine(lib: Lib, fm: LegacyFrontmatter, key: string, value: string)
    requires IsDateKey(key)
    requires lib.parseDate(Trim(value), LegacyDateFormat).None?
    ensures LegacyApplyLine(lib, fm, key + ":" + value).Panic?
  {
    DateKeysPlain(key);
    KeyValueOfLine(key, value);
  }

  /** A malformed date inside the frontmatter block aborts the whole parse. */
  lemma MalformedDateIsFatal(lib: Lib, filepath: string, stem: string, created: DateTime,
                             updated: DateTime, key: string, value: string)
    requires IsDateKey(key)
    requires lib.parseDate(Trim(value), LegacyDateFormat).None?
    ensures LegacyFrontmatterNew(lib, filepath, stem, created, updated,
                                 [Delimiter, key + ":" + value, Delimiter]).Panic?
  {
    var line := key + ":" + value;
    var fm0 := LegacyFrontmatter(stem, filepath, None, [], true, created, updated);
    MalformedDateLine(lib, fm0, key, value);
    PanicStopsLines(lib, fm0, [line, Delimiter]);
    DateKeysPlain(key);
    assert line != Delimiter by { assert |line| > |Delimiter|; }
    FrontmatterScan.SingleLineBlock(line);
  }

  /** A line that panics aborts the lines after it. */
  lemma PanicStopsLines(lib: Lib, fm: LegacyFrontmatter, ls: seq<string>)
    requires |ls| > 0
    ensures LegacyApplyLine(lib, fm, ls[0]).Panic? ==> LegacyApplyLines(lib, fm, ls).Panic?
  {
  }

  // ---- set_raw_contents ----

  /** The lines `set_raw_contents` keeps, starting inside a dropped region
      when `open`: every delimiter line toggles the region and is dropped,
      and other lines are kept only outside a region. */
  function Kept(ls: seq<string>, open: bool): (r: seq<string>)
    ensures Delimiter !in r
    ensures |r| <= |ls|
    decreases |ls|
  {
    if |ls| == 0 then []
    else if ls[0] == Delimiter then Kept(ls[1..], !open)
    else (if open then [] else [ls[0]]) + Kept(ls[1..], open)
  }

  /** Whether a dropped region is open after reading `ls`. */
  function OpenAfter(ls: seq<string>, open: bool): bool
    decreases |ls|
  {
    if |ls| == 0 then open else OpenAfter(ls[1..], if ls[0] == Delimiter then !open else open)
  }

  lemma {:induction false} KeptAppend(a: seq<string>, b: seq<string>, open: bool)
    ensures Kept(a + b, open) == Kept(a, open) + Kept(b, OpenAfter(a, open))
    ensures OpenAfter(a + b, open) == OpenAfter(b, OpenAfter(a, open))
    decreases |a|
  {
    if |a| == 0 {
      assert a + b == b;
    } else {
      assert (a + b)[1..] == a[1..] + b;
      KeptAppend(a[1..], b, if a[0] == Delimiter then !open else open);
    }
  }

  /** `set_raw_contents` over the file's lines: the kept lines joined by "\n". */
  method SetRawContents(lines: seq<string>) returns (raw: string)
    ensures raw == Join(Kept(lines, false), "\n")
  {
    var output: seq<string> := [];
    var inFrontmatter := false;
    var i := 0;
    while i < |lines|
      invariant 0 <= i <= |lines|
      invariant output == Kept(lines[..i], false)
      invariant inFrontmatter == OpenAfter(lines[..i], false)
    {
      var line := lines[i];
      assert lines[..i + 1] == lines[..i] + [line];
      KeptAppend(lines[..i], [line], false);
      if line == Delimiter && !inFrontmatter {
        inFrontmatter := true;
      } else if line == Delimiter && inFrontmatter {
        inFrontmatter := false;
        i := i + 1;
        continue;
      }
      if !inFrontmatter {
        output := output + [line];
      }
      i := i + 1;
    }
    assert lines[..i] == lines;
    raw := Join(output, "\n");
  }

  /** `ls` with the elements where `mask` is false removed, order kept. */
  function Select(ls: seq<string>, mask: seq<bool>): seq<string>
    requires |mask| == |ls|
    decreases |ls|
  {
    if |ls| == 0 then [] else (if mask[0] then [ls[0]] else []) + Select(ls[1..], mask[1..])
  }

  /** Line `i` survives exactly when it is not a delimiter and the delimiters
      before it leave no dropped region open. */
  function KeepMask(ls: seq<string>, open: bool): (mask: seq<bool>)
    ensures |mask| == |ls|
  {
    seq(|ls|, i requires 0 <= i < |ls| => ls[i] != Delimiter && !OpenAfter(ls[..i], open))
  }

  /** The kept lines are the in-order subsequence selected by `KeepMask`. */
  lemma {:induction false} KeptIsMaskedSubsequence(ls: seq<string>, open: bool)
    ensures Kept(ls, open) == Select(ls, KeepMask(ls, open))
    decreases |ls|
  {
    if |ls| > 0 {
      var next := if ls[0] == Delimiter then !open else open;
      KeptIsMaskedSubsequence(ls[1..], next);
      assert KeepMask(ls, open)[1..] == KeepMask(ls[1..], next) by {
        forall i | 0 <= i < |ls| - 1
          ensures KeepMask(ls, open)[1..][i] == KeepMask(ls[1..], next)[i]
        {
          KeepMaskShift(ls, open, i);
        }
      }
      var mask := KeepMask(ls, open);
      assert ls[..0] == [];
      assert mask[0] == (ls[0] != Delimiter && !open);
      assert Select(ls, mask) == (if mask[0] then [ls[0]] else []) + Select(ls[1..], mask[1..]);
    }
  }

  /** Dropping the first line shifts the mask by one, starting from the
      region state that line leaves behind. */
  lemma KeepMaskShift(ls: seq<string>, open: bool, i: nat)
    requires i + 1 < |ls|
    ensures KeepMask(ls, open)[i + 1]
            == KeepMask(ls[1..], if ls[0] == Delimiter then !open else open)[i]
  {
    var next := if ls[0] == Delimiter then !open else open;
    var pre := ls[..i + 1];
    assert pre[0] == ls[0] && pre[1..] == ls[1..][..i];
    assert OpenAfter(pre, open) == OpenAfter(pre[1..], next);
    assert KeepMask(ls, open)[i + 1] == (ls[i + 1] != Delimiter && !OpenAfter(pre, open));
    assert KeepMask(ls[1..], next)[i] == (ls[1..][i] != Delimiter && !OpenAfter(ls[1..][..i], next));
  }

  /** Without any delimiter line the body is the lines joined by "\n". */
  lemma {:induction false} NoDelimiterKeepsAll(ls: seq<string>)
    requires Delimiter !in ls
    ensures Kept(ls, false) == ls
    decreases |ls|
  {
    if |ls| > 0 {
      NoDelimiterKeepsAll(ls[1..]);
      assert ls == [ls[0]] + ls[1..];
    }
  }

  /** Inside a dropped region nothing is kept until the next delimiter. */
  lemma {:induction false} RegionDropsAll(ls: seq<string>)
    requires Delimiter !in ls
    ensures Kept(ls, true) == [] && OpenAfter(ls, true)
    decreases |ls|
  {
    if |ls| > 0 {
      RegionDropsAll(ls[1..]);
    }
  }

  /** A later pair of delimiter lines in the body hides everything between
      them, just like the frontmatter block. */
  lemma DelimitedRegionHidden(pre: seq<string>, hidden: seq<string>, post: seq<string>)
    requires !OpenAfter(pre, false)
    requires Delimiter !in hidden
    ensures Kept(pre + [Delimiter] + hidden + [Delimiter] + post, false) == Kept(pre, false) + Kept(post, false)
  {
    var region := [Delimiter] + hidden + [Delimiter];
    assert pre + [Delimiter] + hidden + [Delimiter] + post == pre + (region + post);
    KeptAppend(pre, region + post, false);
    KeptAppend(region, post, false);
    ClosedRegionKeepsNothing(hidden);
  }

  /** A delimited region is dropped whole and leaves no region open. */
  lemma ClosedRegionKeepsNothing(hidden: seq<string>)
    requires Delimiter !in hidden
    ensures Kept([Delimiter] + hidden + [Delimiter], false) == []
    ensures !OpenAfter([Delimiter] + hidden + [Delimiter], false)
  {
    KeptAppend([Delimiter] + hidden, [Delimiter], false);
    KeptAppend([Delimiter], hidden, false);
    RegionDropsAll(hidden);
    KeptDelimiter(false);
    KeptDelimiter(true);
  }

  /** A lone delimiter line is dropped and flips the region. */
  lemma KeptDelimiter(open: bool)
    ensures Kept([Delimiter], open) == [] && OpenAfter([Delimiter], open) == !open
  {
    assert [Delimiter][1..] == [];
  }

  /** A file made of a frontmatter block and a body without delimiter lines
      keeps exactly the body. */
  lemma StripsFrontmatter(header: seq<string>, body: seq<string>)
    requires Delimiter !in header && Delimiter !in body
    ensures Kept([Delimiter] + header + [Delimiter] + body, false) == body
  {
    DelimitedRegionHidden([], header, body);
    assert [] + [Delimiter] + header + [Delimiter] + body == [Delimiter] + header + [Delimiter] + body;
    assert Kept([], false) == [];
    NoDelimiterKeepsAll(body);
  }
}

=== FILE: parser.dfy ===
/** `parser::new` (parser/mod.rs): the link/table-of-contents map, then the
    code-block highlighter, then the heading rewriter, rendered to HTML. */
module Parser {
  import opened Wrappers
  import opened Externals
  import opened Events
  import L = Links
  import opened ParserMap
  import opened SyntaxHighlight
  import opened Headlines

  /** The HTML of a file, its table of contents, and the site's link lists. */
  datatype ParseOutput = ParseOutput(html: string, toc: seq<L.Link>, links: L.SiteLinks)

  lemma {:induction false} MapKeepsFencedStarts(lib: Lib, ctx: Ctx, e: Event)
    ensures IsFencedStart(MapEvent(lib, ctx, e)) <==> IsFencedStart(e)
    ensures IsHeadingStart(MapEvent(lib, ctx, e)) <==> IsHeadingStart(e)
  {
  }

  /** The event stream handed to `push_html`: the three stages in order. */
  function Rendered(lib: Lib, ctx: Ctx, evs: seq<Event>): (r: Result<seq<Event>>)
    ensures r.Ok? ==> forall i :: 0 <= i < |r.value| ==> !IsFencedStart(r.value[i]) && !IsHeadingStart(r.value[i])
    ensures r.Panic? ==> exists i :: 0 <= i < |evs| && IsFencedStart(evs[i])
  {
    var mapped := Run(lib, ctx, Initial([], L.SiteLinks([], [])), evs).1;
    assert HighlightBlocks(lib, mapped).Panic? ==> exists i :: 0 <= i < |evs| && IsFencedStart(evs[i]) by {
      if HighlightBlocks(lib, mapped).Panic? {
        var i :| 0 <= i < |mapped| && IsFencedStart(mapped[i]);
        MapKeepsFencedStarts(lib, ctx, evs[i]);
      }
    }
    var highlighted :- HighlightBlocks(lib, mapped);
    var out := ParseHeadlines(lib, highlighted);
    assert forall i :: 0 <= i < |out| ==> !IsFencedStart(out[i]) by {
      forall i | 0 <= i < |out|
        ensures !IsFencedStart(out[i])
      {
        if !out[i].Html? {
          var k :| 0 <= k < |highlighted| && highlighted[k] == out[i];
        }
      }
    }
    Ok(out)
  }

  /** `parser::new`: the rendered HTML, the file's table of contents with
      one entry per heading, and the site's link lists with one link per link
      in the file. A code block that cannot be highlighted aborts. */
  function New(lib: Lib, ctx: Ctx, toc: seq<L.Link>, links: L.SiteLinks, evs: seq<Event>): (r: Result<ParseOutput>)
    ensures r.Ok? <==> Rendered(lib, ctx, evs).Ok?
    ensures r.Ok? ==> r.value.html == lib.pushHtml(Rendered(lib, ctx, evs).value)
    ensures r.Ok? ==> toc <= r.value.toc && |r.value.toc| == |toc| + CountWhere(evs, IsHeadingEnd)
    ensures r.Ok? ==> LinkCount(r.value.links) == LinkCount(links) + CountWhere(evs, IsLinkEnd)
  {
    var st := Run(lib, ctx, Initial(toc, links), evs).0;
    RunToc(lib, ctx, Initial(toc, links), evs);
    RunLinks(lib, ctx, Initial(toc, links), evs);
    var rendered :- Rendered(lib, ctx, evs);
    Ok(ParseOutput(lib.pushHtml(rendered), st.toc, st.links))
  }

  lemma RunOutputIndependent(lib: Lib, ctx: Ctx, st1: MapState, st2: MapState, evs: seq<Event>)
    ensures Run(lib, ctx, st1, evs).1 == Run(lib, ctx, st2, evs).1
  {
  }

  /** Without fenced blocks or headings only the map changes the stream. */
  lemma PlainStreamOnlyMapped(lib: Lib, ctx: Ctx, evs: seq<Event>)
    requires forall i :: 0 <= i < |evs| ==> !IsFencedStart(evs[i]) && !IsHeadingStart(evs[i])
    ensures Rendered(lib, ctx, evs) == Ok(seq(|evs|, i requires 0 <= i < |evs| => MapEvent(lib, ctx, evs[i])))
  {
    var mapped := Run(lib, ctx, Initial([], L.SiteLinks([], [])), evs).1;
    forall i | 0 <= i < |mapped|
      ensures !IsFencedStart(mapped[i]) && !IsHeadingStart(mapped[i])
    {
      MapKeepsFencedStarts(lib, ctx, evs[i]);
    }
    HighlightPassThrough(lib, mapped);
    HeadlinesPassThrough(lib, mapped);
    assert mapped == seq(|evs|, i requires 0 <= i < |evs| => MapEvent(lib, ctx, evs[i]));
    assert Rendered(lib, ctx, evs) == Ok(mapped);
  }
}

=== FILE: parser_map.dfy ===
/** The stateful event map of `parser::new` (parser/mod.rs): it rewrites link
    and image targets, records every link with the site, and builds the
    table of contents from the headings. */
module ParserMap {
  import opened Wrappers
  import opened Externals
  import opened Events
  import L = Links

  /** What the map reads from the site and the file being parsed. */
  datatype Ctx = Ctx(baseUrl: string, fileUrl: string, fileTitle: string)

  /** The closure's captured variables, plus the file's table of contents
      and the site's link lists it appends to. */
  datatype MapState = MapState(
    capturing: bool,
    capturingHeading: bool,
    link: L.Link,
    tocEntry: L.Link,
    toc: seq<L.Link>,
    links: L.SiteLinks)

  function Initial(toc: seq<L.Link>, links: L.SiteLinks): MapState {
    MapState(false, false, L.Empty(), L.Empty(), toc, links)
  }

  /** Outside a heading the table-of-contents placeholder is blank. */
  predicate Wf(st: MapState) {
    !st.capturingHeading ==> st.tocEntry == L.Empty()
  }

  /** The event the map emits for `e`; it does not depend on the state. */
  function MapEvent(lib: Lib, ctx: Ctx, e: Event): (r: Event)
    ensures !(e.Start? && (e.tag.Link? || e.tag.Image?)) ==> r == e
    ensures e.Start? && e.tag.Image? ==> r == Start(L.UpdateImgLink(ctx.baseUrl, e.tag.linkType, e.tag.url, e.tag.title))
    ensures e.Start? && e.tag.Link? ==>
              var url := L.RewriteUrl(lib, ctx.baseUrl, e.tag.url);
              r == Start(Tag.Link(Inline, url, ctx.baseUrl + "/" + url))
  {
    match e
    case Start(Link(_, url, _)) =>
      Start(L.ForParser(ctx.baseUrl, L.FillLink(lib, ctx.baseUrl, L.Empty(), url, "", None, None)))
    case Start(Image(lt, url, title)) => Start(L.UpdateImgLink(ctx.baseUrl, lt, url, title))
    case _ => e
  }

  /** One call of the map closure. */
  function Step(lib: Lib, ctx: Ctx, st: MapState, e: Event): (r: (MapState, Event))
    ensures r.1 == MapEvent(lib, ctx, e)
  {
    match e
    case Start(Link(_, url, title)) =>
      var link := L.FillLink(lib, ctx.baseUrl, st.link, url, title, Some(ctx.fileUrl), Some(ctx.fileTitle));
      (st.(link := link, capturing := true), Start(L.ForParser(ctx.baseUrl, link)))
    case Start(Image(lt, url, title)) => (st, Start(L.UpdateImgLink(ctx.baseUrl, lt, url, title)))
    case Start(Heading(_, _, _)) => (st.(capturingHeading := true), e)
    case Text(t) =>
      var st1 := if st.capturing then st.(link := st.link.(title := t), capturing := false) else st;
      var st2 :=
        if st1.capturingHeading then
          var title := st1.tocEntry.title + t;
          st1.(tocEntry := st1.tocEntry.(title := title, url := ctx.fileUrl + "#" + lib.slugify(title)))
        else st1;
      (st2, e)
    case End(Link(_, _, _)) => (st.(links := L.AddLink(st.links, st.link)), e)
    case End(Heading(_, _, _)) =>
      (st.(capturingHeading := false, toc := st.toc + [st.tocEntry], tocEntry := L.Empty()), e)
    case _ => (st, e)
  }

  function LinkCount(links: L.SiteLinks): nat {
    |links.internal| + |links.external|
  }

  /** The map driven over a whole stream: the final state and the emitted
      events, which are the per-event map in order. */
  function Run(lib: Lib, ctx: Ctx, st: MapState, evs: seq<Event>): (r: (MapState, seq<Event>))
    ensures |r.1| == |evs|
    ensures forall i :: 0 <= i < |evs| ==> r.1[i] == MapEvent(lib, ctx, evs[i])
    decreases |evs|
  {
    if |evs| == 0 then (st, [])
    else
      var step := Step(lib, ctx, st, evs[0]);
      var rest := Run(lib, ctx, step.0, evs[1..]);
      (rest.0, [step.1] + rest.1)
  }

  /** Every heading end adds one table-of-contents entry, and entries are
      only ever appended. */
  lemma {:induction false} RunToc(lib: Lib, ctx: Ctx, st: MapState, evs: seq<Event>)
    ensures var r := Run(lib, ctx, st, evs).0;
            st.toc <= r.toc && |r.toc| == |st.toc| + CountWhere(evs, IsHeadingEnd)
    decreases |evs|
  {
    if |evs| > 0 {
      var st1 := Step(lib, ctx, st, evs[0]).0;
      RunToc(lib, ctx, st1, evs[1..]);
      assert st.toc <= st1.toc && |st1.toc| == |st.toc| + (if IsHeadingEnd(evs[0]) then 1 else 0);
    }
  }

  /** Every link end records one link with the site, and the link lists are
      only ever appended to. */
  lemma {:induction false} RunLinks(lib: Lib, ctx: Ctx, st: MapState, evs: seq<Event>)
    ensures var r := Run(lib, ctx, st, evs).0;
            && st.links.internal <= r.links.internal && st.links.external <= r.links.external
            && LinkCount(r.links) == LinkCount(st.links) + CountWhere(evs, IsLinkEnd)
    decreases |evs|
  {
    if |evs| > 0 {
      var st1 := Step(lib, ctx, st, evs[0]).0;
      RunLinks(lib, ctx, st1, evs[1..]);
      StepLinks(lib, ctx, st, evs[0]);
      assert Run(lib, ctx, st, evs).0 == Run(lib, ctx, st1, evs[1..]).0;
      assert CountWhere(evs, IsLinkEnd) == (if IsLinkEnd(evs[0]) then 1 else 0) + CountWhere(evs[1..], IsLinkEnd);
    }
  }

  /** One event adds a link exactly when it ends one. */
  lemma StepLinks(lib: Lib, ctx: Ctx, st: MapState, e: Event)
    ensures var st1 := Step(lib, ctx, st, e).0;
            && st.links.internal <= st1.links.internal && st.links.external <= st1.links.external
            && LinkCount(st1.links) == LinkCount(st.links) + (if IsLinkEnd(e) then 1 else 0)
  {
  }

  /** Outside a heading the placeholder stays blank. */
  lemma {:induction false} RunWf(lib: Lib, ctx: Ctx, st: MapState, evs: seq<Event>)
    requires Wf(st)
    ensures Wf(Run(lib, ctx, st, evs).0)
    decreases |evs|
  {
    if |evs| > 0 {
      RunWf(lib, ctx, Step(lib, ctx, st, evs[0]).0, evs[1..]);
    }
  }

  lemma {:induction false} RunAppend(lib: Lib, ctx: Ctx, st: MapState, a: seq<Event>, b: seq<Event>)
    ensures Run(lib, ctx, st, a + b).0 == Run(lib, ctx, Run(lib, ctx, st, a).0, b).0
    decreases |a|
  {
    if |a| == 0 {
      assert a + b == b;
    } else {
      assert (a + b)[1..] == a[1..] + b;
      RunAppend(lib, ctx, Step(lib, ctx, st, a[0]).0, a[1..], b);
    }
  }

  /** The text of the first `Text` event. */
  function FirstText(evs: seq<Event>): string
    requires HasText(evs)
  {
    if evs[0].Text? then evs[0].text else FirstText(evs[1..])
  }

  lemma {:induction false} NoTextNoTexts(evs: seq<Event>)
    requires !HasText(evs)
    ensures Texts(evs) == ""
    decreases |evs|
  {
    if |evs| > 0 {
      assert !HasText(evs[1..]) by {
        forall i | 0 <= i < |evs| - 1
          ensures !evs[1..][i].Text?
        {
          assert evs[1..][i] == evs[i + 1];
        }
      }
      NoTextNoTexts(evs[1..]);
    }
  }

  lemma HasTextUnfold(evs: seq<Event>)
    requires |evs| > 0
    ensures HasText(evs) <==> evs[0].Text? || HasText(evs[1..])
  {
    if HasText(evs) && !evs[0].Text? {
      var i :| 0 <= i < |evs| && evs[i].Text?;
      assert evs[1..][i - 1] == evs[i];
    }
    if HasText(evs[1..]) {
      var i :| 0 <= i < |evs| - 1 && evs[1..][i].Text?;
      assert evs[i + 1] == evs[1..][i];
    }
  }

  /** Inside a link: the record takes the first text as its title while
      capturing, and nothing else touches it or the link lists. */
  lemma {:induction false} RunInsideLink(lib: Lib, ctx: Ctx, st: MapState, mid: seq<Event>)
    requires forall i :: 0 <= i < |mid| ==> !mid[i].Start? || !mid[i].tag.Link?
    requires forall i :: 0 <= i < |mid| ==> !IsLinkEnd(mid[i])
    ensures var r := Run(lib, ctx, st, mid).0;
            && r.links == st.links
            && r.capturing == (st.capturing && !HasText(mid))
            && r.link == (if st.capturing && HasText(mid) then st.link.(title := FirstText(mid)) else st.link)
    decreases |mid|
  {
    if |mid| > 0 {
      HasTextUnfold(mid);
      var st1 := Step(lib, ctx, st, mid[0]).0;
      StepInsideLink(lib, ctx, st, mid[0]);
      assert Run(lib, ctx, st, mid).0 == Run(lib, ctx, st1, mid[1..]).0;
      RunInsideLink(lib, ctx, st1, mid[1..]);
    }
  }

  /** One event inside a link. */
  lemma StepInsideLink(lib: Lib, ctx: Ctx, st: MapState, e: Event)
    requires !(e.Start? && e.tag.Link?) && !IsLinkEnd(e)
    ensures var st1 := Step(lib, ctx, st, e).0;
            && st1.links == st.links
            && st1.capturing == (st.capturing && !e.Text?)
            && st1.link == (if st.capturing && e.Text? then st.link.(title := e.text) else st.link)
  {
  }

  /** A link's start, the events inside it and its end record exactly one
      link with the site: the record filled from the link's target whose
      title is the first text inside the link, if any. */
  lemma LinkSegmentRecordsLink(lib: Lib, ctx: Ctx, st: MapState, lt: LinkType, url: string, title: string,
                               mid: seq<Event>, close: Tag)
    requires forall i :: 0 <= i < |mid| ==> !mid[i].Start? || !mid[i].tag.Link?
    requires forall i :: 0 <= i < |mid| ==> !IsLinkEnd(mid[i])
    requires close.Link?
    ensures var filled := L.FillLink(lib, ctx.baseUrl, st.link, url, title, Some(ctx.fileUrl), Some(ctx.fileTitle));
            Run(lib, ctx, st, [Start(Tag.Link(lt, url, title))] + mid + [End(close)]).0.links
            == L.AddLink(st.links, if HasText(mid) then filled.(title := FirstText(mid)) else filled)
  {
    var start := [Start(Tag.Link(lt, url, title))];
    RunAppend(lib, ctx, st, start + mid, [End(close)]);
    RunAppend(lib, ctx, st, start, mid);
    var st1 := Run(lib, ctx, st, start).0;
    assert st1 == Step(lib, ctx, st, start[0]).0;
    RunInsideLink(lib, ctx, st1, mid);
  }

  /** The table-of-contents entry a heading with inner events `mid` yields:
      blank when it has no text, otherwise titled with its texts concatenated
      and pointing at the file's url plus "#" and the slug of that title. */
  function TocEntryFor(lib: Lib, ctx: Ctx, mid: seq<Event>): L.Link {
    if HasText(mid) then
      L.Empty().(title := Texts(mid), url := ctx.fileUrl + "#" + lib.slugify(Texts(mid)))
    else L.Empty()
  }

  lemma {:induction false} RunInsideHeading(lib: Lib, ctx: Ctx, st: MapState, mid: seq<Event>)
    requires st.capturingHeading
    requires forall i :: 0 <= i < |mid| ==> !IsHeadingEnd(mid[i])
    ensures var r := Run(lib, ctx, st, mid).0;
            && r.capturingHeading && r.toc == st.toc
            && r.tocEntry == (if HasText(mid) then
                                st.tocEntry.(title := st.tocEntry.title + Texts(mid),
                                             url := ctx.fileUrl + "#" + lib.slugify(st.tocEntry.title + Texts(mid)))
                              else st.tocEntry)
    decreases |mid|
  {
    if |mid| > 0 {
      HasTextUnfold(mid);
      var st1 := Step(lib, ctx, st, mid[0]).0;
      StepInsideHeading(lib, ctx, st, mid[0]);
      assert Run(lib, ctx, st, mid).0 == Run(lib, ctx, st1, mid[1..]).0;
      assert Texts(mid) == (if mid[0].Text? then mid[0].text else "") + Texts(mid[1..]);
      RunInsideHeading(lib, ctx, st1, mid[1..]);
      if mid[0].Text? {
        ExtendTocEntry(lib, ctx, st.tocEntry, mid[0].text, mid[1..]);
      } else {
        assert st1.tocEntry == st.tocEntry;
        assert Texts(mid) == Texts(mid[1..]);
        assert HasText(mid) == HasText(mid[1..]);
      }
    }
  }

  /** Appending one text and then the texts of `rest` to a table-of-contents
      entry is the same as appending their concatenation at once. */
  lemma ExtendTocEntry(lib: Lib, ctx: Ctx, entry: L.Link, t: string, rest: seq<Event>)
    ensures var e1 := entry.(title := entry.title + t, url := ctx.fileUrl + "#" + lib.slugify(entry.title + t));
            var all := t + Texts(rest);
            (if HasText(rest) then e1.(title := e1.title + Texts(rest), url := ctx.fileUrl + "#" + lib.slugify(e1.title + Texts(rest)))
             else e1)
            == entry.(title := entry.title + all, url := ctx.fileUrl + "#" + lib.slugify(entry.title + all))
  {
    if HasText(rest) {
      assert entry.title + t + Texts(rest) == entry.title + (t + Texts(rest));
    } else {
      NoTextNoTexts(rest);
      assert t + Texts(rest) == t;
    }
  }

  /** One event inside a heading. */
  lemma StepInsideHeading(lib: Lib, ctx: Ctx, st: MapState, e: Event)
    requires st.capturingHeading && !IsHeadingEnd(e)
    ensures var st1 := Step(lib, ctx, st, e).0;
            && st1.capturingHeading && st1.toc == st.toc
            && st1.tocEntry == (if e.Text? then
                                  st.tocEntry.(title := st.tocEntry.title + e.text,
                                               url := ctx.fileUrl + "#" + lib.slugify(st.tocEntry.title + e.text))
                                else st.tocEntry)
  {
  }

  /** A heading's start, inner events and end add exactly one entry to the
      table of contents and leave the placeholder blank again. */
  lemma HeadingSegmentAddsTocEntry(lib: Lib, ctx: Ctx, st: MapState, level: HeadingLevel, id: Option<string>,
                                   classes: seq<string>, mid: seq<Event>, close: Tag)
    requires Wf(st) && !st.capturingHeading
    requires forall i :: 0 <= i < |mid| ==> !IsHeadingEnd(mid[i])
    requires close.Heading?
    ensures var r := Run(lib, ctx, st, [Start(Heading(level, id, classes))] + mid + [End(close)]).0;
            r.toc == st.toc + [TocEntryFor(lib, ctx, mid)] && r.tocEntry == L.Empty() && !r.capturingHeading
  {
    var start := [Start(Heading(level, id, classes))];
    RunAppend(lib, ctx, st, start + mid, [End(close)]);
    RunAppend(lib, ctx, st, start, mid);
    var st1 := Run(lib, ctx, st, start).0;
    assert st1 == Step(lib, ctx, st, start[0]).0;
    assert st1.tocEntry == L.Empty() && st1.toc == st.toc;
    RunInsideHeading(lib, ctx, st1, mid);
    var st2 := Run(lib, ctx, st1, mid).0;
    assert Run(lib, ctx, st2, [End(close)]).0 == Step(lib, ctx, st2, End(close)).0;
    assert "" + Texts(mid) == Texts(mid);
  }

  /** A heading without text adds the blank `Link::empty()` record. */
  lemma TextlessHeadingEntry(lib: Lib, ctx: Ctx, mid: seq<Event>)
    requires !HasText(mid)
    ensures var e := TocEntryFor(lib, ctx, mid);
            e.title == "" && e.url == "" && !e.isInternal && e.linkType == L.Default
  {
  }
}

=== FILE: paths.dfy ===
/** File-system paths as sequences of components, and the parts of Rust's
    `Path`/`PathBuf` API the generator uses. */
module Paths {
  import opened Wrappers
  import opened Text

  /** A path as the sequence of its components. An absolute path starts with
      the root component "/"; `Path` equality is component-wise, as in Rust. */
  type Path = seq<string>

  /** `Path::starts_with`: `base` is a component-wise prefix of `p`. */
  predicate PathStartsWith(p: Path, base: Path) {
    base <= p
  }

  /** `display()` of a path, also its `into_string()`: the components joined
      by "/", where the root component of an absolute path is the leading
      "/" itself rather than a piece to join. */
  function PathToString(p: Path): (s: string)
    ensures |p| > 0 && p[0] == "/" ==> |s| > 0 && s[0] == '/'
  {
    if |p| > 0 && p[0] == "/" then "/" + Join(p[1..], "/") else Join(p, "/")
  }

  /** An absolute path is written as "/" followed by its other components
      joined by "/"; the root is not doubled. */
  lemma AbsolutePathToString(ps: seq<string>)
    ensures PathToString(["/"] + ps) == "/" + Join(ps, "/")
  {
    assert (["/"] + ps)[1..] == ps;
  }

  /** The written form of `/site/a.md`. */
  lemma AbsolutePathExample()
    ensures PathToString(["/", "site", "a.md"]) == "/site/a.md"
  {
    AbsolutePathToString(["site", "a.md"]);
    assert Join(["site", "a.md"], "/") == "site" + "/" + Join(["a.md"], "/");
  }

  /** Splitting the written form at '/' gives the components back: all of
      them for a relative path, and after an empty first piece (the text
      before the leading '/') the non-root ones for an absolute path. */
  lemma PathToStringSplits(p: Path)
    requires |p| > 0
    requires forall i :: 0 < i < |p| ==> '/' !in p[i]
    requires p[0] != "/" ==> '/' !in p[0]
    ensures p[0] != "/" ==> Split(PathToString(p), '/') == p
    ensures p[0] == "/" && |p| > 1 ==> Split(PathToString(p), '/') == [""] + p[1..]
  {
    if p[0] == "/" {
      if |p| > 1 {
        SplitJoin(p[1..], '/');
        var s := PathToString(p);
        assert s[1..] == Join(p[1..], "/");
      }
    } else {
      SplitJoin(p, '/');
    }
  }

  /** `Path::file_name`: the last component, if it is a name. */
  function FileName(p: Path): (r: Option<string>)
    ensures r.Some? ==> |p| > 0 && r.value == p[|p| - 1]
    ensures r.None? <==> |p| == 0 || p[|p| - 1] == "/" || p[|p| - 1] == ".."
  {
    if |p| == 0 || p[|p| - 1] == "/" || p[|p| - 1] == ".." then None else Some(p[|p| - 1])
  }

  /** Splits a file name into stem and extension at its last dot, the way Rust
      does: ".." and names whose only dot is the first character have no
      extension. */
  function SplitExtension(name: string): (r: (string, Option<string>))
    ensures r.1.None? ==> r.0 == name
    ensures r.1.None? <==> name == ".." || '.' !in name || '.' !in name[1..]
    ensures r.1.Some? ==> name == r.0 + "." + r.1.value && |r.0| > 0 && '.' !in r.1.value
  {
    if name == ".." || '.' !in name then (name, None)
    else
      var i := LastIndexOf(name, '.');
      if i == 0 then (name, None)
      else
        assert name == name[..i] + "." + name[i + 1..];
        assert '.' in name[1..] by { assert name[1..][i - 1] == '.'; }
        (name[..i], Some(name[i + 1..]))
  }

  /** `Path::extension` of a component path. */
  function Extension(p: Path): Option<string> {
    match FileName(p)
    case None => None
    case Some(name) => SplitExtension(name).1
  }

  /** `p` without its trailing '/' characters. */
  function StripTrailingSlashes(p: string): (q: string)
    ensures q <= p
    ensures |q| == 0 || q[|q| - 1] != '/'
    ensures forall i :: |q| <= i < |p| ==> p[i] == '/'
  {
    if |p| == 0 || p[|p| - 1] != '/' then p else StripTrailingSlashes(p[..|p| - 1])
  }

  /** Where the last '/'-separated segment of `q` begins. */
  function NameStart(q: string): (i: nat)
    ensures i <= |q|
    ensures '/' !in q[i..]
    ensures i > 0 ==> q[i - 1] == '/'
  {
    if '/' in q then LastIndexOf(q, '/') + 1 else 0
  }

  /** `PathBuf::from(p).with_extension(ext)` shown back as a string: the file
      name (the text after the last '/', trailing slashes ignored) loses its
      extension and gains `ext`; a path without a file name is unchanged. */
  function WithExtension(p: string, ext: string): string {
    var q := StripTrailingSlashes(p);
    var cut := NameStart(q);
    var name := q[cut..];
    if name == "" || name == "." || name == ".." then p
    else q[..cut] + SplitExtension(name).0 + (if ext == "" then "" else "." + ext)
  }

  /** For a bare file name the stem is kept and `ext` takes the old
      extension's place. */
  lemma WithExtensionBareName(p: string, ext: string)
    requires '/' !in p && p != "" && p != "." && p != ".."
    ensures WithExtension(p, ext) == SplitExtension(p).0 + (if ext == "" then "" else "." + ext)
  {
    var tail := if ext == "" then "" else "." + ext;
    assert p[|p| - 1] != '/' by { assert p[|p| - 1] in p; }
    assert StripTrailingSlashes(p) == p;
    assert NameStart(p) == 0;
    assert p[0..] == p;
    assert WithExtension(p, ext) == p[..0] + SplitExtension(p).0 + tail;
    assert p[..0] + SplitExtension(p).0 == SplitExtension(p).0;
  }

  /** A path whose file name has no dot gains the extension at its end. */
  lemma WithExtensionAppends(p: string, ext: string)
    requires |p| > 0 && p[|p| - 1] != '/'
    requires '.' !in p[NameStart(p)..]
    requires ext != ""
    ensures WithExtension(p, ext) == p + "." + ext
  {
    assert StripTrailingSlashes(p) == p;
    var cut := NameStart(p);
    var name := p[cut..];
    assert name[|name| - 1] == p[|p| - 1];
    assert name != "." && name != "..";
    assert SplitExtension(name).0 == name;
    assert p[..cut] + name == p;
  }

  /** The last dot of "stem.ext", neither part holding a dot or a slash,
      sits right after the stem. */
  lemma LastDotAfterStem(stem: string, ext: string)
    requires '.' !in stem && '/' !in stem
    requires '.' !in ext && '/' !in ext
    ensures '/' !in stem + "." + ext && '.' in stem + "." + ext
    ensures LastIndexOf(stem + "." + ext, '.') == |stem|
  {
    var name := stem + "." + ext;
    assert name[|stem|] == '.';
    forall k | 0 <= k < |name|
      ensures name[k] != '/'
    {
      if k < |stem| { assert name[k] == stem[k]; }
      else if k > |stem| { assert name[k] == ext[k - |stem| - 1]; }
    }
    var i := LastIndexOf(name, '.');
    assert forall k :: |stem| < k < |name| ==> name[k] == ext[k - |stem| - 1];
    assert forall k :: 0 <= k < |stem| ==> name[k] == stem[k];
    assert i == |stem|;
  }

  /** The stem of "stem.ext" is `stem`. */
  lemma StemOfDottedName(stem: string, ext: string)
    requires stem != "" && '.' !in stem && '/' !in stem
    requires '.' !in ext && '/' !in ext
    ensures '/' !in stem + "." + ext
    ensures SplitExtension(stem + "." + ext).0 == stem
  {
    var name := stem + "." + ext;
    LastDotAfterStem(stem, ext);
    assert name[..|stem|] == stem;
    assert name != ".." by {
      assert name[0] == stem[0] && stem[0] != '.';
    }
  }

  /** So replacing the extension of "stem.ext" keeps `stem` and drops `ext`. */
  lemma DottedNameExtension(stem: string, ext: string, newExt: string)
    requires stem != "" && '.' !in stem && '/' !in stem
    requires '.' !in ext && '/' !in ext
    requires newExt != ""
    ensures WithExtension(stem + "." + ext, newExt) == stem + "." + newExt
  {
    var name := stem + "." + ext;
    StemOfDottedName(stem, ext);
    assert name != "." && name != ".." by {
      assert name[0] == stem[0] && stem[0] != '.';
    }
    WithExtensionBareName(name, newExt);
  }
}

=== FILE: site_build.dfy ===
/** The build-time passes of the site (site.rs): the scan of `load_files`,
    the rebuild reset, the watch-event classifier, the feed ordering and the
    tag pages. */
module SiteBuild {
  import opened Wrappers
  import opened Text
  import opened Paths
  import opened Externals
  import opened Links
  import opened Documents
  import opened SiteIndex
  import opened Templates
  import Util
  import BuildErrors
  import FrontmatterScan

  // ---- the scan pass of load_files ----

  /** A markdown path and what loading it gave: `None` when its frontmatter
      is missing (the first line is not "---"). */
  datatype Candidate = Candidate(path: Path, file: Option<MdFile>)

  predicate Published(c: Candidate) {
    c.file.Some? && c.file.value.frontmatter.publish
  }

  predicate PublishedIn(c: Candidate, dir: Path) {
    Published(c) && c.file.value.webPathParents == dir
  }

  /** Files grouped by web directory, the flat sitemap, the files without
      frontmatter, the tag index and the template sitemap. */
  datatype ScanState = ScanState(
    files: map<Path, seq<MdFile>>,
    flat: FlatSitemap,
    invalid: seq<Path>,
    tags: Tags,
    sitemap: seq<Link>)

  function Group(files: map<Path, seq<MdFile>>, dir: Path): seq<MdFile> {
    if dir in files then files[dir] else []
  }

  /** One iteration of the scan loop. A published file joins its directory's
      group; only when the group already existed is it also put in the
      template sitemap. */
  function ScanOne(lib: Lib, st: ScanState, c: Candidate): (r: ScanState)
    ensures c.file.None? ==> r == st.(invalid := st.invalid + [c.path])
    ensures c.file.Some? && !c.file.value.frontmatter.publish ==> r == st
  {
    match c.file
    case None => st.(invalid := st.invalid + [c.path])
    case Some(md) =>
      if !md.frontmatter.publish then st
      else
        var dir := md.webPathParents;
        var flat := CollectFlatSitemap(dir, md.fileNameWithoutExtension, st.flat);
        var tags := CollectTags(st.tags, md.frontmatter.tags, NewTagLinkFromMdFile(lib, md));
        if dir in st.files then
          st.(files := st.files[dir := st.files[dir] + [md]], flat := flat, tags := tags,
              sitemap := st.sitemap + [NewSitemapLink(md)])
        else
          st.(files := st.files[dir := [md]], flat := flat, tags := tags)
  }

  /** The scan loop over the candidates, in order. */
  function Scan(lib: Lib, st: ScanState, cs: seq<Candidate>): ScanState
    decreases |cs|
  {
    if |cs| == 0 then st else ScanOne(lib, Scan(lib, st, cs[..|cs| - 1]), cs[|cs| - 1])
  }

  /** The paths of the candidates without frontmatter, in order. */
  function InvalidPaths(cs: seq<Candidate>): seq<Path>
    decreases |cs|
  {
    if |cs| == 0 then []
    else InvalidPaths(cs[..|cs| - 1]) + (if cs[|cs| - 1].file.None? then [cs[|cs| - 1].path] else [])
  }

  /** The published files of directory `dir`, in order. */
  function PublishedGroup(cs: seq<Candidate>, dir: Path): seq<MdFile>
    decreases |cs|
  {
    if |cs| == 0 then []
    else
      var c := cs[|cs| - 1];
      PublishedGroup(cs[..|cs| - 1], dir) + (if PublishedIn(c, dir) then [c.file.value] else [])
  }

  predicate EarlierSibling(prior: set<Path>, cs: seq<Candidate>, dir: Path) {
    dir in prior || exists j :: 0 <= j < |cs| && PublishedIn(cs[j], dir)
  }

  /** The sitemap links: one per published file that has an earlier
      published file (or a pre-existing group) in its directory. */
  function SitemapLinks(prior: set<Path>, cs: seq<Candidate>): seq<Link>
    decreases |cs|
  {
    if |cs| == 0 then []
    else
      var init := cs[..|cs| - 1];
      var c := cs[|cs| - 1];
      SitemapLinks(prior, init)
      + (if Published(c) && EarlierSibling(prior, init, c.file.value.webPathParents)
         then [NewSitemapLink(c.file.value)] else [])
  }

  /** The tag links under tag `t`: per published file, one per occurrence. */
  function TagLinks(lib: Lib, cs: seq<Candidate>, t: string): seq<Link>
    decreases |cs|
  {
    if |cs| == 0 then []
    else
      var c := cs[|cs| - 1];
      TagLinks(lib, cs[..|cs| - 1], t)
      + (if Published(c) then Repeat(NewTagLinkFromMdFile(lib, c.file.value), Count(c.file.value.frontmatter.tags, t))
         else [])
  }

  /** Files without frontmatter go to the invalid list and nowhere else. */
  lemma {:induction false} ScanInvalid(lib: Lib, st: ScanState, cs: seq<Candidate>)
    ensures Scan(lib, st, cs).invalid == st.invalid + InvalidPaths(cs)
    decreases |cs|
  {
    if |cs| > 0 {
      ScanInvalid(lib, st, cs[..|cs| - 1]);
    }
  }

  /** One scan step on the directory groups. */
  lemma ScanOneFiles(lib: Lib, st: ScanState, c: Candidate, dir: Path)
    ensures Group(ScanOne(lib, st, c).files, dir) == Group(st.files, dir) + (if PublishedIn(c, dir) then [c.file.value] else [])
    ensures dir in ScanOne(lib, st, c).files <==> dir in st.files || PublishedIn(c, dir)
  {
  }

  lemma EarlierSiblingSnoc(prior: set<Path>, cs: seq<Candidate>, dir: Path)
    requires |cs| > 0
    ensures EarlierSibling(prior, cs, dir)
            <==> EarlierSibling(prior, cs[..|cs| - 1], dir) || PublishedIn(cs[|cs| - 1], dir)
  {
    var init := cs[..|cs| - 1];
    if exists j :: 0 <= j < |cs| && PublishedIn(cs[j], dir) {
      var j :| 0 <= j < |cs| && PublishedIn(cs[j], dir);
      if j < |cs| - 1 {
        assert init[j] == cs[j];
      }
    }
    if exists j :: 0 <= j < |init| && PublishedIn(init[j], dir) {
      var j :| 0 <= j < |init| && PublishedIn(init[j], dir);
      assert cs[j] == init[j];
    }
  }

  /** Each directory's group is its published files in scan order;
      unpublished and invalid files are dropped. */
  lemma {:induction false} ScanGroups(lib: Lib, st: ScanState, cs: seq<Candidate>, dir: Path)
    ensures Group(Scan(lib, st, cs).files, dir) == Group(st.files, dir) + PublishedGroup(cs, dir)
    decreases |cs|
  {
    if |cs| > 0 {
      var init := cs[..|cs| - 1];
      var c := cs[|cs| - 1];
      ScanGroups(lib, st, init, dir);
      assert Scan(lib, st, cs) == ScanOne(lib, Scan(lib, st, init), c);
      ScanOneFiles(lib, Scan(lib, st, init), c, dir);
      assert PublishedGroup(cs, dir) == PublishedGroup(init, dir) + (if PublishedIn(c, dir) then [c.file.value] else []);
    }
  }

  /** A directory has a group after the scan exactly when it had one before
      or some scanned file was published in it. */
  lemma {:induction false} ScanGroupKeys(lib: Lib, st: ScanState, cs: seq<Candidate>, dir: Path)
    ensures dir in Scan(lib, st, cs).files <==> EarlierSibling(st.files.Keys, cs, dir)
    decreases |cs|
  {
    if |cs| > 0 {
      var init := cs[..|cs| - 1];
      ScanGroupKeys(lib, st, init, dir);
      ScanOneFiles(lib, Scan(lib, st, init), cs[|cs| - 1], dir);
      EarlierSiblingSnoc(st.files.Keys, cs, dir);
    }
  }

  /** A file reaches the template sitemap exactly when an earlier published
      file (or a pre-existing group) shares its directory. */
  lemma {:induction false} ScanSitemap(lib: Lib, st: ScanState, cs: seq<Candidate>)
    ensures Scan(lib, st, cs).sitemap == st.sitemap + SitemapLinks(st.files.Keys, cs)
    decreases |cs|
  {
    if |cs| > 0 {
      var init := cs[..|cs| - 1];
      var c := cs[|cs| - 1];
      var prev := Scan(lib, st, init);
      ScanSitemap(lib, st, init);
      ScanOneSitemap(lib, prev, c);
      if Published(c) {
        ScanGroupKeys(lib, st, init, c.file.value.webPathParents);
      }
      assert SitemapLinks(st.files.Keys, cs) == SitemapLinks(st.files.Keys, init)
        + (if Published(c) && EarlierSibling(st.files.Keys, init, c.file.value.webPathParents)
           then [NewSitemapLink(c.file.value)] else []);
    }
  }

  /** One scan step on the template sitemap. */
  lemma ScanOneSitemap(lib: Lib, st: ScanState, c: Candidate)
    ensures ScanOne(lib, st, c).sitemap
            == st.sitemap + (if Published(c) && c.file.value.webPathParents in st.files
                             then [NewSitemapLink(c.file.value)] else [])
  {
  }

  /** Every published file adds one tag link per occurrence of each of its
      tags, in scan order. */
  lemma {:induction false} ScanTags(lib: Lib, st: ScanState, cs: seq<Candidate>, t: string)
    ensures Get(Scan(lib, st, cs).tags, t) == Get(st.tags, t) + TagLinks(lib, cs, t)
    decreases |cs|
  {
    if |cs| > 0 {
      var init := cs[..|cs| - 1];
      var c := cs[|cs| - 1];
      var prev := Scan(lib, st, init);
      ScanTags(lib, st, init, t);
      assert Scan(lib, st, cs) == ScanOne(lib, prev, c);
      if Published(c) {
        var md := c.file.value;
        var link := NewTagLinkFromMdFile(lib, md);
        assert ScanOne(lib, prev, c).tags == CollectTags(prev.tags, md.frontmatter.tags, link);
        CollectTagsGet(prev.tags, md.frontmatter.tags, link, t);
        assert TagLinks(lib, cs, t) == TagLinks(lib, init, t) + Repeat(link, Count(md.frontmatter.tags, t));
      } else {
        assert ScanOne(lib, prev, c).tags == prev.tags;
        assert TagLinks(lib, cs, t) == TagLinks(lib, init, t);
      }
    }
  }

  /** The first published file of a directory never reaches the sitemap:
      scanning it after files none of which was published in its directory,
      on a state without a group for that directory, leaves the sitemap as
      it was. */
  lemma FirstInDirectoryNotInSitemap(lib: Lib, st: ScanState, cs: seq<Candidate>, c: Candidate)
    requires Published(c) && c.file.value.webPathParents !in st.files
    requires forall j :: 0 <= j < |cs| ==> !PublishedIn(cs[j], c.file.value.webPathParents)
    ensures Scan(lib, st, cs + [c]).sitemap == Scan(lib, st, cs).sitemap
  {
    var dir := c.file.value.webPathParents;
    assert (cs + [c])[..|cs|] == cs;
    ScanGroupKeys(lib, st, cs, dir);
    ScanOneSitemap(lib, Scan(lib, st, cs), c);
  }

  // ---- the site record ----

  /** The parts of the site state the core reads and writes. */
  datatype Site = Site(
    errors: BuildErrors.Errors,
    files: map<Path, seq<MdFile>>,
    paths: seq<Path>,
    invalid: seq<Path>,
    tags: Tags,
    sitemap: seq<Link>,
    links: SiteLinks,
    attachments: seq<Link>,
    flat: FlatSitemap)

  /** `clear_site_for_rebuild`: errors, files, paths, invalid files, tags and
      sitemap are emptied; links, attachments and the flat sitemap are kept. */
  function ClearSiteForRebuild(s: Site): (r: Site)
    ensures !BuildErrors.HasErrors(r.errors) && r.errors == BuildErrors.New()
    ensures r.files == map[] && r.paths == [] && r.invalid == [] && r.tags == map[] && r.sitemap == []
    ensures r.links == s.links && r.attachments == s.attachments && r.flat == s.flat
  {
    s.(errors := BuildErrors.Clear(s.errors), files := map[], paths := [], invalid := [], tags := map[], sitemap := [])
  }

  // ---- the loading pass of load_files ----

  /** What the file system gives `Frontmatter::new` for one path: the file's
      lines, its file stem, and its creation and modification times. */
  datatype FileSource = FileSource(lines: seq<string>, stem: string, created: DateTime, updated: DateTime)

  /** `Frontmatter::new` on one kept path, then `MdFile::new` (the parameter
      `make`) around the frontmatter it read. Only a file with a frontmatter
      block can record date errors. */
  function LoadOne(lib: Lib, errors: BuildErrors.Errors, p: Path, src: FileSource,
                   make: (Path, FrontmatterScan.Frontmatter) -> MdFile): (r: (Candidate, BuildErrors.Errors))
    ensures r.0.path == p
    ensures r.0.file.None? <==> |src.lines| > 0 && src.lines[0] != FrontmatterScan.Delimiter
    ensures r.0.file.None? ==> r.1 == errors
    ensures r.1 == BuildErrors.Append(errors, FileDateErrors(lib, p, src))
  {
    FrontmatterScan.FrontmatterNewErrors(lib, PathToString(p), src.stem, src.created, src.updated,
                                         src.lines, errors);
    var loaded := FrontmatterScan.FrontmatterNew(lib, PathToString(p), src.stem, src.created, src.updated,
                                                 src.lines, errors);
    match loaded.0
    case None => (Candidate(p, None), loaded.1)
    case Some(fm) => (Candidate(p, Some(make(p, fm).(frontmatter := fm))), loaded.1)
  }

  /** The date errors one file records on its own. */
  function FileDateErrors(lib: Lib, p: Path, src: FileSource): BuildErrors.Errors {
    FrontmatterScan.FrontmatterNew(lib, PathToString(p), src.stem, src.created, src.updated,
                                   src.lines, BuildErrors.New()).1
  }

  /** The date errors of every file, each file's on its own, in path order. */
  function DateErrors(lib: Lib, ps: seq<Path>, source: Path -> FileSource): BuildErrors.Errors
    decreases |ps|
  {
    if |ps| == 0 then BuildErrors.New()
    else BuildErrors.Append(DateErrors(lib, ps[..|ps| - 1], source),
                            FileDateErrors(lib, ps[|ps| - 1], source(ps[|ps| - 1])))
  }

  /** The loading loop over the kept paths, in order, threading the site's
      error list through every file. */
  function LoadAll(lib: Lib, errors: BuildErrors.Errors, ps: seq<Path>, source: Path -> FileSource,
                   make: (Path, FrontmatterScan.Frontmatter) -> MdFile): (seq<Candidate>, BuildErrors.Errors)
    decreases |ps|
  {
    if |ps| == 0 then ([], errors)
    else
      var before := LoadAll(lib, errors, ps[..|ps| - 1], source, make);
      var last := LoadOne(lib, before.1, ps[|ps| - 1], source(ps[|ps| - 1]), make);
      (before.0 + [last.0], last.1)
  }

  /** The loop leaves the site's errors followed by every file's own date
      errors, in path order. */
  lemma {:induction false} LoadAllErrors(lib: Lib, errors: BuildErrors.Errors, ps: seq<Path>,
                                         source: Path -> FileSource,
                                         make: (Path, FrontmatterScan.Frontmatter) -> MdFile)
    ensures LoadAll(lib, errors, ps, source, make).1 == BuildErrors.Append(errors, DateErrors(lib, ps, source))
    decreases |ps|
  {
    if |ps| == 0 {
      BuildErrors.AppendNew(errors);
    } else {
      var init := ps[..|ps| - 1];
      var p := ps[|ps| - 1];
      var src := source(p);
      LoadAllErrors(lib, errors, init, source, make);
      var before := LoadAll(lib, errors, init, source, make).1;
      FrontmatterScan.FrontmatterNewErrors(lib, PathToString(p), src.stem, src.created, src.updated, src.lines, before);
      BuildErrors.AppendAssoc(errors, DateErrors(lib, init, source), FileDateErrors(lib, p, src));
    }
  }

  /** One candidate per kept path, in order; which files load and what they
      hold does not depend on the errors recorded so far. */
  lemma {:induction false} LoadAllCandidates(lib: Lib, e1: BuildErrors.Errors, e2: BuildErrors.Errors,
                                             ps: seq<Path>, source: Path -> FileSource,
                                             make: (Path, FrontmatterScan.Frontmatter) -> MdFile)
    ensures var cs := LoadAll(lib, e1, ps, source, make).0;
            |cs| == |ps| && (forall i :: 0 <= i < |ps| ==> cs[i].path == ps[i])
    ensures LoadAll(lib, e1, ps, source, make).0 == LoadAll(lib, e2, ps, source, make).0
    decreases |ps|
  {
    if |ps| > 0 {
      var init := ps[..|ps| - 1];
      var p := ps[|ps| - 1];
      var src := source(p);
      LoadAllCandidates(lib, e1, e2, init, source, make);
      var b1 := LoadAll(lib, e1, init, source, make).1;
      var b2 := LoadAll(lib, e2, init, source, make).1;
      FrontmatterScan.FrontmatterNewErrors(lib, PathToString(p), src.stem, src.created, src.updated, src.lines, b1);
      FrontmatterScan.FrontmatterNewErrors(lib, PathToString(p), src.stem, src.created, src.updated, src.lines, b2);
      assert LoadOne(lib, b1, p, src, make).0 == LoadOne(lib, b2, p, src, make).0;
    }
  }

  /** A file's own date errors appear among the date errors of any path list
      holding it. */
  lemma {:induction false} DateErrorsInclude(lib: Lib, ps: seq<Path>, source: Path -> FileSource, i: nat)
    requires i < |ps|
    ensures forall f :: f in FileDateErrors(lib, ps[i], source(ps[i])).invalidDateUpdated
                        ==> f in DateErrors(lib, ps, source).invalidDateUpdated
    ensures forall f :: f in FileDateErrors(lib, ps[i], source(ps[i])).invalidDateCreated
                        ==> f in DateErrors(lib, ps, source).invalidDateCreated
    decreases |ps|
  {
    if i < |ps| - 1 {
      DateErrorsInclude(lib, ps[..|ps| - 1], source, i);
    }
  }

  /** The scan part of `load_files`: the paths are filtered through the
      ignore list, loaded (`source` stands for the file system, `make` for
      `MdFile::new`) and scanned; the stored path list is the unfiltered one.
      Tags and sitemap build on the site's current ones, and the site's
      errors gain the date errors of every kept file, in order. */
  function LoadFiles(lib: Lib, site: Site, dir: Path, ignored: Option<seq<Path>>, paths: seq<Path>,
                     source: Path -> FileSource, make: (Path, FrontmatterScan.Frontmatter) -> MdFile): (r: Site)
    ensures r.paths == paths
    ensures r.errors == BuildErrors.Append(site.errors, DateErrors(lib, LoadFilter(dir, ignored, paths), source))
  {
    var kept := LoadFilter(dir, ignored, paths);
    var loaded := LoadAll(lib, site.errors, kept, source, make);
    LoadAllErrors(lib, site.errors, kept, source, make);
    var st := Scan(lib, ScanState(map[], map[], [], site.tags, site.sitemap), loaded.0);
    site.(errors := loaded.1, files := st.files, flat := st.flat, invalid := st.invalid, tags := st.tags,
          sitemap := st.sitemap, paths := paths)
  }

  /** A kept file whose frontmatter holds only a `date_updated` value that no
      accepted format parses leaves its path among the site's updated-date
      errors, written with a single leading "/" when the path is absolute, so
      the build reports errors. */
  lemma UnparsedUpdatedDateReported(lib: Lib, site: Site, dir: Path, ignored: Option<seq<Path>>,
                                    paths: seq<Path>, source: Path -> FileSource,
                                    make: (Path, FrontmatterScan.Frontmatter) -> MdFile, p: Path, value: string)
    requires p in paths && IsInPrivateFolder(dir, ignored, p)
    requires source(p).lines == [FrontmatterScan.Delimiter, "date_updated" + ":" + value, FrontmatterScan.Delimiter]
    requires FrontmatterScan.MatchPossibleDates(lib, Trim(value)).None?
    ensures PathToString(p) in LoadFiles(lib, site, dir, ignored, paths, source, make).errors.invalidDateUpdated
    ensures BuildErrors.HasErrors(LoadFiles(lib, site, dir, ignored, paths, source, make).errors)
    ensures |p| > 0 && p[0] == "/" ==>
              "/" + Join(p[1..], "/") in LoadFiles(lib, site, dir, ignored, paths, source, make).errors.invalidDateUpdated
  {
    if |p| > 0 && p[0] == "/" {
      assert p == ["/"] + p[1..];
      AbsolutePathToString(p[1..]);
    }
    var kept := LoadFilter(dir, ignored, paths);
    var src := source(p);
    var i :| 0 <= i < |kept| && kept[i] == p;
    FrontmatterScan.UnparsedUpdatedDateRecorded(lib, PathToString(p), src.stem, src.created, src.updated,
                                                value, BuildErrors.New());
    assert PathToString(p) in FileDateErrors(lib, p, src).invalidDateUpdated;
    DateErrorsInclude(lib, kept, source, i);
  }

  lemma {:induction false} ScanNothing(lib: Lib, st: ScanState)
    ensures Scan(lib, st, []) == st
  {
  }

  /** With no ignore list configured a build loads no file at all and
      records no error. */
  lemma UnconfiguredBuildIsEmpty(lib: Lib, site: Site, dir: Path, paths: seq<Path>, source: Path -> FileSource,
                                 make: (Path, FrontmatterScan.Frontmatter) -> MdFile)
    ensures var r := LoadFiles(lib, site, dir, None, paths, source, make);
            && r.files == map[] && r.invalid == [] && r.flat == map[] && r.tags == site.tags
            && r.sitemap == site.sitemap && r.errors == site.errors
  {
    UnconfiguredLoadsNothing(dir, paths);
    BuildErrors.AppendNew(site.errors);
  }

  // ---- the watcher ----

  /** The file-watcher events. */
  datatype WatchEvent =
    | NoticeWrite(path: Path) | NoticeRemove(path: Path) | Create(path: Path) | Write(path: Path)
    | Chmod(path: Path) | Remove(path: Path) | Rename(from: Path, to: Path) | Rescan | Error(message: string)

  /** What a change can trigger; the handler runs its checks in the order
      listed here. */
  datatype Action = RebuildMarkdown | CopyPublic | FullRebuild | CopyData

  /** An action's place in the handler's order of checks. */
  function Rank(a: Action): nat {
    match a
    case RebuildMarkdown => 0
    case CopyPublic => 1
    case FullRebuild => 2
    case CopyData => 3
  }

  predicate InHandlerOrder(actions: seq<Action>) {
    forall i, j :: 0 <= i < j < |actions| ==> Rank(actions[i]) <= Rank(actions[j])
  }

  /** The directories the handler compares against. */
  datatype WatchDirs = WatchDirs(dir: Path, publicDir: Path, templatesDir: Path, attachments: Option<Path>)

  function CountAction(actions: seq<Action>, a: Action): nat {
    Count(actions, a)
  }

  /** `handle_watch_event`: only writes, creations and removals act; the
      path is first stripped of the site directory (fatal when it is not
      under it), then each of the checks runs independently. */
  function HandleWatchEvent(w: WatchDirs, ev: WatchEvent): (r: Result<seq<Action>>)
    ensures !(ev.Write? || ev.Create? || ev.Remove?) ==> r == Ok([])
    ensures (ev.Write? || ev.Create? || ev.Remove?) ==> (r.Panic? <==> Util.StripPwd(w.dir, ev.path).Panic?)
    ensures r.Ok? && (ev.Write? || ev.Create? || ev.Remove?) ==>
              && (RebuildMarkdown in r.value <==> Extension(ev.path) == Some("md"))
              && (CopyPublic in r.value <==> PathStartsWith(ev.path, w.publicDir))
              && CountAction(r.value, FullRebuild)
                 == (if PathStartsWith(ev.path, w.templatesDir) then 1 else 0)
                    + (if FileName(ev.path) == Some("config.yaml") then 1 else 0)
              && (CopyData in r.value <==> w.attachments.Some? && FileName(w.attachments.value).Some?
                                           && PathStartsWith(Util.StripPwd(w.dir, ev.path).value,
                                                             [FileName(w.attachments.value).value]))
    ensures r.Ok? ==> InHandlerOrder(r.value)
  {
    if ev.Write? || ev.Create? || ev.Remove? then
      var path := ev.path;
      var stripped :- Util.StripPwd(w.dir, path);
      var markdown := if Extension(path) == Some("md") then [RebuildMarkdown] else [];
      var public := if PathStartsWith(path, w.publicDir) then [CopyPublic] else [];
      var templates := if PathStartsWith(path, w.templatesDir) then [FullRebuild] else [];
      var config := if FileName(path) == Some("config.yaml") then [FullRebuild] else [];
      var data :=
        match w.attachments
        case None => []
        case Some(a) =>
          match FileName(a)
          case None => []
          case Some(name) => if PathStartsWith(stripped, [name]) then [CopyData] else [];
      var actions := markdown + public + templates + config + data;
      CountActions(markdown, public, templates, config, data);
      OptionalInOrder(markdown, public, templates, config, data);
      Ok(actions)
    else Ok([])
  }

  /** Every action in `xs` has rank `k`. */
  predicate AllRank(xs: seq<Action>, k: nat) {
    forall i :: 0 <= i < |xs| ==> Rank(xs[i]) == k
  }

  /** Checks whose actions have non-decreasing ranks give a list in the
      handler's order. */
  lemma FiveInOrder(m: seq<Action>, p: seq<Action>, t: seq<Action>, c: seq<Action>, d: seq<Action>)
    requires AllRank(m, 0) && AllRank(p, 1) && AllRank(t, 2) && AllRank(c, 2) && AllRank(d, 3)
    ensures InHandlerOrder(m + p + t + c + d)
  {
    var s := m + p + t + c + d;
    forall i | 0 <= i < |s|
      ensures Rank(s[i]) == if i < |m| then 0 else if i < |m| + |p| then 1
                            else if i < |m| + |p| + |t| + |c| then 2 else 3
    {
    }
  }

  /** The handler's five optional checks, each giving its one action or
      nothing, list their actions in the handler's order. */
  lemma OptionalInOrder(m: seq<Action>, p: seq<Action>, t: seq<Action>, c: seq<Action>, d: seq<Action>)
    requires m == [] || m == [RebuildMarkdown]
    requires p == [] || p == [CopyPublic]
    requires t == [] || t == [FullRebuild]
    requires c == [] || c == [FullRebuild]
    requires d == [] || d == [CopyData]
    ensures InHandlerOrder(m + p + t + c + d)
  {
    assert AllRank(m, 0) && AllRank(p, 1) && AllRank(t, 2) && AllRank(c, 2) && AllRank(d, 3);
    FiveInOrder(m, p, t, c, d);
  }

  lemma CountActions(m: seq<Action>, p: seq<Action>, t: seq<Action>, c: seq<Action>, d: seq<Action>)
    requires m == [] || m == [RebuildMarkdown]
    requires p == [] || p == [CopyPublic]
    requires t == [] || t == [FullRebuild]
    requires c == [] || c == [FullRebuild]
    requires d == [] || d == [CopyData]
    ensures CountAction(m + p + t + c + d, FullRebuild) == |t| + |c|
    ensures RebuildMarkdown in m + p + t + c + d <==> m != []
    ensures CopyPublic in m + p + t + c + d <==> p != []
    ensures CopyData in m + p + t + c + d <==> d != []
  {
    CountAppend(m + p + t + c, d, FullRebuild);
    CountAppend(m + p + t, c, FullRebuild);
    CountAppend(m + p, t, FullRebuild);
    CountAppend(m, p, FullRebuild);
    CountOptional(m, RebuildMarkdown, FullRebuild);
    CountOptional(p, CopyPublic, FullRebuild);
    CountOptional(t, FullRebuild, FullRebuild);
    CountOptional(c, FullRebuild, FullRebuild);
    CountOptional(d, CopyData, FullRebuild);
  }

  lemma CountOptional(xs: seq<Action>, a: Action, x: Action)
    requires xs == [] || xs == [a]
    ensures Count(xs, x) == if a == x then |xs| else 0
  {
    if xs != [] {
      assert xs[1..] == [];
    }
  }

  lemma {:induction false} CountAppend(a: seq<Action>, b: seq<Action>, x: Action)
    ensures Count(a + b, x) == Count(a, x) + Count(b, x)
    decreases |a|
  {
    if |a| == 0 {
      assert a + b == b;
    } else {
      assert (a + b)[1..] == a[1..] + b;
      CountAppend(a[1..], b, x);
    }
  }

  /** The checks are not exclusive: saving config.yaml inside the templates
      directory rebuilds the whole site twice. */
  lemma ConfigInTemplatesRebuildsTwice(w: WatchDirs, rel: Path)
    requires w.templatesDir == w.dir + rel
    ensures var r := HandleWatchEvent(w, Write(w.templatesDir + ["config.yaml"]));
            r.Ok? && CountAction(r.value, FullRebuild) == 2
  {
    var path := w.templatesDir + ["config.yaml"];
    assert path == w.dir + (rel + ["config.yaml"]);
    assert w.dir <= path;
  }

  /** A change reported for a path outside the site directory aborts. */
  lemma OutsideSiteIsFatal(w: WatchDirs, path: Path)
    requires !(w.dir <= path)
    ensures HandleWatchEvent(w, Create(path)).Panic?
  {
  }

  // ---- the feed and the tag pages ----

  predicate SortedByDateDesc(ps: seq<Page>) {
    forall i, j :: 0 <= i < j < |ps| ==> ps[i].dateCreatedTimestamp >= ps[j].dateCreatedTimestamp
  }

  /** Inserts `p` before the first page that is not newer than it. */
  function InsertByDate(p: Page, s: seq<Page>): seq<Page>
    decreases |s|
  {
    if |s| == 0 || s[0].dateCreatedTimestamp <= p.dateCreatedTimestamp then [p] + s
    else [s[0]] + InsertByDate(p, s[1..])
  }

  /** Insertion keeps a newest-first sequence newest-first. */
  lemma {:induction false} InsertByDateSorted(p: Page, s: seq<Page>)
    requires SortedByDateDesc(s)
    ensures var r := InsertByDate(p, s);
            SortedByDateDesc(r) && |r| > 0 && (r[0] == p || (|s| > 0 && r[0] == s[0]))
    decreases |s|
  {
    if |s| > 0 && s[0].dateCreatedTimestamp > p.dateCreatedTimestamp {
      var rest := InsertByDate(p, s[1..]);
      InsertByDateSorted(p, s[1..]);
      var r := [s[0]] + rest;
      forall i, j | 0 <= i < j < |r|
        ensures r[i].dateCreatedTimestamp >= r[j].dateCreatedTimestamp
      {
        assert r[j] == rest[j - 1];
        if i > 0 {
          assert r[i] == rest[i - 1];
        } else if j > 1 {
          assert rest[0].dateCreatedTimestamp >= rest[j - 1].dateCreatedTimestamp;
        }
      }
    }
  }

  /** Insertion adds exactly `p`. */
  lemma {:induction false} InsertByDatePermutes(p: Page, s: seq<Page>)
    ensures multiset(InsertByDate(p, s)) == multiset(s) + multiset{p}
    decreases |s|
  {
    if |s| > 0 && s[0].dateCreatedTimestamp > p.dateCreatedTimestamp {
      InsertByDatePermutes(p, s[1..]);
      assert s == [s[0]] + s[1..];
    }
  }

  /** The sort of `build_syndication_pages`, by insertion. */
  function SortByDateDesc(ps: seq<Page>): seq<Page>
    decreases |ps|
  {
    if |ps| == 0 then [] else InsertByDate(ps[0], SortByDateDesc(ps[1..]))
  }

  /** The feed is newest first. */
  lemma {:induction false} SortByDateDescSorted(ps: seq<Page>)
    ensures SortedByDateDesc(SortByDateDesc(ps))
    decreases |ps|
  {
    if |ps| > 0 {
      SortByDateDescSorted(ps[1..]);
      InsertByDateSorted(ps[0], SortByDateDesc(ps[1..]));
    }
  }

  /** The feed holds exactly the pages given. */
  lemma {:induction false} SortByDateDescPermutes(ps: seq<Page>)
    ensures multiset(SortByDateDesc(ps)) == multiset(ps)
    decreases |ps|
  {
    if |ps| > 0 {
      var rest := SortByDateDesc(ps[1..]);
      SortByDateDescPermutes(ps[1..]);
      InsertByDatePermutes(ps[0], rest);
      assert ps == [ps[0]] + ps[1..];
    }
  }

  /** The pages created at time `t`, in their order. */
  function WithTimestamp(ps: seq<Page>, t: int): seq<Page>
    decreases |ps|
  {
    if |ps| == 0 then []
    else (if ps[0].dateCreatedTimestamp == t then [ps[0]] else []) + WithTimestamp(ps[1..], t)
  }

  /** Insertion puts `p` ahead of every page of its own time: the pages it
      passes are strictly newer. */
  lemma {:induction false} InsertByDateStable(p: Page, s: seq<Page>, t: int)
    ensures WithTimestamp(InsertByDate(p, s), t)
            == (if p.dateCreatedTimestamp == t then [p] else []) + WithTimestamp(s, t)
    decreases |s|
  {
    var r := InsertByDate(p, s);
    if |s| == 0 || s[0].dateCreatedTimestamp <= p.dateCreatedTimestamp {
      assert r == [p] + s;
      assert r[1..] == s;
    } else {
      InsertByDateStable(p, s[1..], t);
      assert r[1..] == InsertByDate(p, s[1..]);
      if p.dateCreatedTimestamp == t {
        assert s[0].dateCreatedTimestamp != t;
      }
    }
  }

  /** The sort is stable: pages created at the same time keep their input
      order, as with `sort_by`. */
  lemma {:induction false} SortByDateDescStable(ps: seq<Page>, t: int)
    ensures WithTimestamp(SortByDateDesc(ps), t) == WithTimestamp(ps, t)
    decreases |ps|
  {
    if |ps| > 0 {
      SortByDateDescStable(ps[1..], t);
      InsertByDateStable(ps[0], SortByDateDesc(ps[1..]), t);
    }
  }

  /** The pages `build_tag_pages` writes: none without a tags directory;
      otherwise one per non-empty tag, named after the tag with its
      extension replaced by "html". */
  function TagPageNames(tagsDir: Option<Path>, tagNames: seq<string>): (r: seq<(string, string)>)
    ensures tagsDir.None? ==> r == []
    decreases |tagNames|
  {
    if tagsDir.None? || |tagNames| == 0 then []
    else
      var rest := TagPageNames(tagsDir, tagNames[1..]);
      if tagNames[0] != "" then [(tagNames[0], WithExtension(tagNames[0], "html"))] + rest else rest
  }

  /** Every page written belongs to a non-empty tag and is named after it. */
  lemma {:induction false} TagPageNamesSound(tagsDir: Option<Path>, tagNames: seq<string>, page: (string, string))
    requires page in TagPageNames(tagsDir, tagNames)
    ensures page.0 != "" && page.0 in tagNames && page.1 == WithExtension(page.0, "html")
    decreases |tagNames|
  {
    var rest := TagPageNames(tagsDir, tagNames[1..]);
    if page in rest {
      TagPageNamesSound(tagsDir, tagNames[1..], page);
      assert page.0 in tagNames[1..];
    }
  }

  /** With a tags directory every non-empty tag gets its page. */
  lemma {:induction false} TagPageNamesComplete(tagsDir: Option<Path>, tagNames: seq<string>, t: string)
    requires tagsDir.Some? && t in tagNames && t != ""
    ensures (t, WithExtension(t, "html")) in TagPageNames(tagsDir, tagNames)
    decreases |tagNames|
  {
    if tagNames[0] != t {
      assert t in tagNames[1..] by {
        var k :| 0 <= k < |tagNames| && tagNames[k] == t;
        assert tagNames[1..][k - 1] == t;
      }
      TagPageNamesComplete(tagsDir, tagNames[1..], t);
    }
  }

  /** A tag without dots or slashes gets the page `tag.html`. */
  lemma PlainTagPage(tag: string)
    requires tag != "" && '.' !in tag && '/' !in tag
    ensures WithExtension(tag, "html") == tag + "." + "html"
  {
    assert NameStart(tag) == 0;
    WithExtensionAppends(tag, "html");
  }

  /** A tag "stem.ext" gets the page "stem.html": what follows the last dot
      is lost. */
  lemma DottedTagPage(stem: string, ext: string)
    requires stem != "" && '.' !in stem && '/' !in stem
    requires '.' !in ext && '/' !in ext
    ensures WithExtension(stem + "." + ext, "html") == stem + "." + "html"
  {
    DottedNameExtension(stem, ext, "html");
  }

  /** So two tags that differ only after their last dot, such as "v1.0" and
      "v1.5", write the same page ("v1.html"). */
  lemma DottedTagsCollide(stem: string, ext1: string, ext2: string)
    requires stem != "" && '.' !in stem && '/' !in stem
    requires '.' !in ext1 && '/' !in ext1 && '.' !in ext2 && '/' !in ext2
    ensures WithExtension(stem + "." + ext1, "html") == WithExtension(stem + "." + ext2, "html") == stem + "." + "html"
  {
    DottedTagPage(stem, ext1);
    DottedTagPage(stem, ext2);
  }
}

=== FILE: site_index.dfy ===
/** The site's indexes (site.rs): the flat sitemap used to resolve
    wikilinks, the tag index, and the ignore-list filter. */
module SiteIndex {
  import opened Wrappers
  import opened Text
  import opened Paths
  import opened Links

  /** Relative path (and bare file stem) to the relative-path strings of the
      files it may name. */
  type FlatSitemap = map<Path, seq<string>>

  predicate NoDuplicates(xs: seq<string>) {
    forall i, j :: 0 <= i < j < |xs| ==> xs[i] != xs[j]
  }

  function PushIfAbsent(xs: seq<string>, x: string): (r: seq<string>)
    ensures xs <= r && x in r
    ensures NoDuplicates(xs) ==> NoDuplicates(r)
  {
    if x in xs then xs else xs + [x]
  }

  /** The first half of `collect_flat_sitemap`: `rel` is pushed under `key`
      unless already there. */
  function RegisterPath(flat: FlatSitemap, key: Path, rel: string): (r: FlatSitemap)
    ensures r.Keys == flat.Keys + {key} && rel in r[key]
    ensures forall k :: k in flat ==> flat[k] <= r[k]
    ensures forall k :: k in flat && k != key ==> r[k] == flat[k]
    ensures (forall k :: k in flat ==> NoDuplicates(flat[k])) ==> forall k :: k in r ==> NoDuplicates(r[k])
  {
    if key in flat then flat[key := PushIfAbsent(flat[key], rel)] else flat[key := [rel]]
  }

  /** The second half: under the stem key, `rel` is pushed when missing,
      followed by the bare stem when that is missing too. */
  function RegisterStem(flat: FlatSitemap, key: Path, rel: string, stem: string): (r: FlatSitemap)
    ensures r.Keys == flat.Keys + {key} && rel in r[key]
    ensures forall k :: k in flat ==> flat[k] <= r[k]
    ensures forall k :: k in flat && k != key ==> r[k] == flat[k]
    ensures (forall k :: k in flat ==> NoDuplicates(flat[k])) ==> forall k :: k in r ==> NoDuplicates(r[k])
  {
    if key in flat then
      var res := flat[key];
      if rel in res then flat
      else
        assert NoDuplicates(res) ==> NoDuplicates(res + [rel]);
        flat[key := PushIfAbsent(res + [rel], stem)]
    else flat[key := [rel]]
  }

  /** `collect_flat_sitemap`: the file's relative path (its parent
      directories and its stem) is registered under the full relative path
      and under the bare stem. When the stem key already exists and lacks the
      path, the bare stem string itself is pushed as well. */
  function CollectFlatSitemap(parents: Path, stem: string, flat: FlatSitemap): FlatSitemap {
    var rel := PathToString(parents + [stem]);
    RegisterStem(RegisterPath(flat, parents + [stem], rel), [stem], rel, stem)
  }

  /** Afterwards both the relative-path key and the stem key exist and hold
      the relative path; no other key is added. */
  lemma FlatSitemapRegisters(parents: Path, stem: string, flat: FlatSitemap)
    ensures var r := CollectFlatSitemap(parents, stem, flat);
            && r.Keys == flat.Keys + {parents + [stem], [stem]}
            && PathToString(parents + [stem]) in r[parents + [stem]]
            && PathToString(parents + [stem]) in r[[stem]]
  {
    var relKey := parents + [stem];
    var rel := PathToString(relKey);
    var f1 := RegisterPath(flat, relKey, rel);
    var r := RegisterStem(f1, [stem], rel, stem);
    assert CollectFlatSitemap(parents, stem, flat) == r;
    assert r.Keys == f1.Keys + {[stem]} && f1.Keys == flat.Keys + {relKey};
    assert rel in f1[relKey] && rel in r[[stem]];
    if relKey != [stem] {
      assert relKey in f1 && r[relKey] == f1[relKey];
    }
  }

  /** Existing lists only grow, and keys other than the two are untouched. */
  lemma FlatSitemapGrows(parents: Path, stem: string, flat: FlatSitemap, k: Path)
    requires k in flat
    ensures var r := CollectFlatSitemap(parents, stem, flat);
            && k in r && flat[k] <= r[k]
            && (k != parents + [stem] && k != [stem] ==> r[k] == flat[k])
  {
    var rel := PathToString(parents + [stem]);
    var f1 := RegisterPath(flat, parents + [stem], rel);
    var r := RegisterStem(f1, [stem], rel, stem);
    assert flat[k] <= f1[k];
    assert f1[k] <= r[k];
  }

  /** Lists free of duplicates stay free of duplicates. */
  lemma FlatSitemapStaysUnique(parents: Path, stem: string, flat: FlatSitemap)
    requires forall k :: k in flat ==> NoDuplicates(flat[k])
    ensures var r := CollectFlatSitemap(parents, stem, flat);
            forall k :: k in r ==> NoDuplicates(r[k])
  {
    var rel := PathToString(parents + [stem]);
    var f1 := RegisterPath(flat, parents + [stem], rel);
    assert forall k :: k in f1 ==> NoDuplicates(f1[k]);
  }

  /** The bare-stem push: a file in a sub-directory whose stem key is already
      present without its path adds its path and, if missing, the stem. */
  lemma StemKeyGetsBareStem(parents: Path, stem: string, flat: FlatSitemap)
    requires |parents| > 0
    requires [stem] in flat && PathToString(parents + [stem]) !in flat[[stem]]
    ensures var rel := PathToString(parents + [stem]);
            CollectFlatSitemap(parents, stem, flat)[[stem]]
            == flat[[stem]] + [rel] + (if stem in flat[[stem]] then [] else [stem])
  {
    var relKey := parents + [stem];
    var rel := PathToString(relKey);
    assert relKey != [stem] by { assert |relKey| > 1; }
    JoinLonger(parents, stem);
    var f1 := RegisterPath(flat, relKey, rel);
    assert f1[[stem]] == flat[[stem]];
    assert CollectFlatSitemap(parents, stem, flat) == RegisterStem(f1, [stem], rel, stem);
    assert stem in flat[[stem]] + [rel] <==> stem in flat[[stem]];
  }

  lemma JoinLonger(ps: seq<string>, x: string)
    requires |ps| > 0
    ensures |PathToString(ps + [x])| > |x|
  {
    assert (ps + [x])[1..] == ps[1..] + [x];
    JoinEndsWith(ps[1..], x);
    if ps[0] != "/" {
      assert PathToString(ps + [x]) == ps[0] + "/" + Join(ps[1..] + [x], "/");
    }
  }

  /** Joining never makes the text shorter than its last piece. */
  lemma {:induction false} JoinEndsWith(ps: seq<string>, x: string)
    ensures |Join(ps + [x], "/")| >= |x|
    decreases |ps|
  {
    if |ps| == 0 {
      assert ps + [x] == [x];
    } else {
      assert (ps + [x])[1..] == ps[1..] + [x];
      JoinEndsWith(ps[1..], x);
    }
  }


  /** `get_item_from_flat_sitemap`: the first candidate under the key (the
      loop returns on its first element in both branches). */
  function GetItemFromFlatSitemap(flat: FlatSitemap, k: Path): (r: Option<string>)
    ensures r.Some? <==> k in flat && |flat[k]| > 0
    ensures r.Some? ==> r.value == flat[k][0]
  {
    if k in flat && |flat[k]| > 0 then Some(flat[k][0]) else None
  }

  /** Registering a file never changes what an existing key resolves to: the
      first candidate registered wins. After registering, both the relative
      path and the stem resolve. */
  lemma LookupIsStable(parents: Path, stem: string, flat: FlatSitemap, k: Path)
    requires GetItemFromFlatSitemap(flat, k).Some?
    ensures GetItemFromFlatSitemap(CollectFlatSitemap(parents, stem, flat), k) == GetItemFromFlatSitemap(flat, k)
  {
    var r := CollectFlatSitemap(parents, stem, flat);
    FlatSitemapGrows(parents, stem, flat, k);
    assert r[k][0] == flat[k][0];
  }

  lemma RegisteredFileResolves(parents: Path, stem: string, flat: FlatSitemap)
    requires [stem] !in flat && parents + [stem] !in flat
    ensures var r := CollectFlatSitemap(parents, stem, flat);
            GetItemFromFlatSitemap(r, parents + [stem]) == Some(PathToString(parents + [stem]))
            && GetItemFromFlatSitemap(r, [stem]) == Some(PathToString(parents + [stem]))
  {
    FlatSitemapRegisters(parents, stem, flat);
  }

  // ---- tags ----

  /** Tag name to the links of the files carrying it. */
  type Tags = map<string, seq<Link>>

  function Get(tags: Tags, t: string): seq<Link> {
    if t in tags then tags[t] else []
  }

  function Repeat(link: Link, n: nat): (r: seq<Link>)
    ensures |r| == n && forall i :: 0 <= i < n ==> r[i] == link
  {
    seq(n, _ => link)
  }

  lemma RepeatAdd(link: Link, a: nat, b: nat)
    ensures Repeat(link, a) + Repeat(link, b) == Repeat(link, a + b)
  {
  }

  /** One iteration of the tag loop: the link appended under `t0`, the entry
      created if missing. */
  function AddTagLink(tags: Tags, t0: string, link: Link): (r: Tags)
    ensures r.Keys == tags.Keys + {t0}
    ensures forall t :: Get(r, t) == Get(tags, t) + Repeat(link, if t == t0 then 1 else 0)
  {
    if t0 in tags then tags[t0 := tags[t0] + [link]] else tags[t0 := [link]]
  }

  /** The copies for the first tag and for the rest add up to the copies for
      all of them. */
  lemma RepeatCount(link: Link, fileTags: seq<string>, t: string)
    requires |fileTags| > 0
    ensures Repeat(link, if t == fileTags[0] then 1 else 0) + Repeat(link, Count(fileTags[1..], t))
            == Repeat(link, Count(fileTags, t))
  {
    RepeatAdd(link, if t == fileTags[0] then 1 else 0, Count(fileTags[1..], t));
  }

  /** `collect_tags_from_frontmatter`: the file's tags in order, each
      appending the file's tag link under that tag. */
  function CollectTags(tags: Tags, fileTags: seq<string>, link: Link): Tags
    decreases |fileTags|
  {
    if |fileTags| == 0 then tags
    else CollectTags(AddTagLink(tags, fileTags[0], link), fileTags[1..], link)
  }

  /** For every occurrence of a tag of the file, one copy of the file's tag
      link is appended under that tag; other tags are unchanged. */
  lemma {:induction false} CollectTagsGet(tags: Tags, fileTags: seq<string>, link: Link, t: string)
    ensures Get(CollectTags(tags, fileTags, link), t) == Get(tags, t) + Repeat(link, Count(fileTags, t))
    decreases |fileTags|
  {
    if |fileTags| > 0 {
      var next := AddTagLink(tags, fileTags[0], link);
      CollectTagsGet(next, fileTags[1..], link, t);
      RepeatCount(link, fileTags, t);
      assert Get(next, t) == Get(tags, t) + Repeat(link, if t == fileTags[0] then 1 else 0);
    }
  }

  /** The tags with an entry afterwards are the old ones and the file's. */
  lemma {:induction false} CollectTagsKeys(tags: Tags, fileTags: seq<string>, link: Link)
    ensures CollectTags(tags, fileTags, link).Keys == tags.Keys + (set t | t in fileTags)
    decreases |fileTags|
  {
    if |fileTags| > 0 {
      CollectTagsKeys(AddTagLink(tags, fileTags[0], link), fileTags[1..], link);
      assert (set t | t in fileTags) == {fileTags[0]} + (set t | t in fileTags[1..]) by {
        assert fileTags == [fileTags[0]] + fileTags[1..];
      }
    }
  }

  // ---- the ignore list ----

  /** `dir.join(d)`: an absolute `d` replaces `dir`. */
  function JoinPath(dir: Path, d: Path): (r: Path)
    ensures |d| > 0 && d[0] == "/" ==> r == d
    ensures !(|d| > 0 && d[0] == "/") ==> r == dir + d
  {
    if |d| > 0 && d[0] == "/" then d else dir + d
  }

  /** The shortest prefix `Path::ancestors` yields: the root of an absolute
      path, the empty path of a relative one. */
  function AncestorFloor(file: Path): nat {
    if |file| > 0 && file[0] == "/" then 1 else 0
  }

  /** Some prefix of `file` of length in [lo, hi] is one of `dirs`. */
  predicate SomeAncestorIn(file: Path, lo: nat, hi: nat, dirs: seq<Path>)
    requires hi <= |file|
    decreases hi
  {
    lo <= hi && (file[..hi] in dirs || (hi > lo && SomeAncestorIn(file, lo, hi - 1, dirs)))
  }

  lemma {:induction false} SomeAncestorInMeans(file: Path, lo: nat, hi: nat, dirs: seq<Path>)
    requires hi <= |file|
    ensures SomeAncestorIn(file, lo, hi, dirs) <==> exists k :: lo <= k <= hi && file[..k] in dirs
    decreases hi
  {
    if lo <= hi && hi > lo {
      SomeAncestorInMeans(file, lo, hi - 1, dirs);
    }
  }

  /** `is_in_private_folder` (despite its name, true for the files to keep):
      false when no ignore list is configured; otherwise true when no
      ancestor of the file is `dir` joined with an ignored entry. */
  function IsInPrivateFolder(dir: Path, ignored: Option<seq<Path>>, file: Path): (r: bool)
    ensures ignored.None? ==> !r
    ensures ignored.Some? ==>
              (r <==> forall k, d :: (AncestorFloor(file) <= k <= |file| && d in ignored.value)
                                     ==> file[..k] != JoinPath(dir, d))
  {
    match ignored
    case None => false
    case Some(ds) =>
      var targets := seq(|ds|, i requires 0 <= i < |ds| => JoinPath(dir, ds[i]));
      SomeAncestorInMeans(file, AncestorFloor(file), |file|, targets);
      assert forall d :: d in ds ==> JoinPath(dir, d) in targets by {
        forall d | d in ds
          ensures JoinPath(dir, d) in targets
        {
          var i :| 0 <= i < |ds| && ds[i] == d;
          assert targets[i] == JoinPath(dir, d);
        }
      }
      !SomeAncestorIn(file, AncestorFloor(file), |file|, targets)
  }

  /** A file under an ignored relative directory is filtered out. */
  lemma IgnoredDirectoryExcluded(dir: Path, ds: seq<Path>, d: Path, rest: Path)
    requires d in ds && !(|d| > 0 && d[0] == "/")
    requires |dir| > 0 && dir[0] == "/"
    ensures !IsInPrivateFolder(dir, Some(ds), dir + d + rest)
  {
    var file := dir + d + rest;
    assert file[..|dir + d|] == dir + d;
  }

  /** The filter `load_files` applies. */
  function LoadFilter(dir: Path, ignored: Option<seq<Path>>, files: seq<Path>): (r: seq<Path>)
    ensures forall i :: 0 <= i < |r| ==> r[i] in files && IsInPrivateFolder(dir, ignored, r[i])
    ensures forall f :: f in files && IsInPrivateFolder(dir, ignored, f) ==> f in r
    ensures |r| <= |files|
  {
    if |files| == 0 then []
    else
      var rest := LoadFilter(dir, ignored, files[1..]);
      if IsInPrivateFolder(dir, ignored, files[0]) then [files[0]] + rest else rest
  }

  /** A single path is kept exactly when it passes the filter. */
  lemma LoadFilterSingle(dir: Path, ignored: Option<seq<Path>>, f: Path)
    ensures LoadFilter(dir, ignored, [f]) == if IsInPrivateFolder(dir, ignored, f) then [f] else []
  {
    assert [f][1..] == [];
  }

  /** The filter works path by path: it keeps the order of the paths and
      every repetition of a kept one. */
  lemma {:induction false} LoadFilterAppend(dir: Path, ignored: Option<seq<Path>>, a: seq<Path>, b: seq<Path>)
    ensures LoadFilter(dir, ignored, a + b) == LoadFilter(dir, ignored, a) + LoadFilter(dir, ignored, b)
    decreases |a|
  {
    if |a| > 0 {
      assert (a + b)[0] == a[0];
      assert (a + b)[1..] == a[1..] + b;
      LoadFilterAppend(dir, ignored, a[1..], b);
    } else {
      assert a + b == b;
    }
  }

  /** Without an ignore list nothing is loaded at all. */
  lemma {:induction false} UnconfiguredLoadsNothing(dir: Path, files: seq<Path>)
    ensures LoadFilter(dir, None, files) == []
    decreases |files|
  {
    if |files| > 0 {
      UnconfiguredLoadsNothing(dir, files[1..]);
    }
  }
}

=== FILE: syntax_highlight.dfy ===
/** Fenced code blocks collapsed into highlighted HTML
    (parser/syntax_highlight.rs). */
module SyntaxHighlight {
  import opened Wrappers
  import opened Externals
  import opened Events

  /** The code-block languages whose syntax goes by another name. */
  const LangAliases: map<string, string> := map[
    "elixir" := "Elixir", "clojure" := "Clojure", "haskell" := "Haskell", "perl" := "Perl",
    "python" := "Python", "python3" := "Python", "racket" := "Racket", "ruby" := "Ruby",
    "rust" := "Rust", "shell" := "Shell-Unix-Generic", "elm" := "Elm"]

  /** `syntect_lang_name`: the syntax name for a code-block language. */
  function SyntectLangName(lang: string): (r: string)
    ensures lang in LangAliases ==> r == LangAliases[lang]
    ensures lang !in LangAliases ==> r == lang
  {
    match lang
    case "elixir" => "Elixir"
    case "clojure" => "Clojure"
    case "haskell" => "Haskell"
    case "perl" => "Perl"
    case "python" => "Python"
    case "python3" => "Python"
    case "racket" => "Racket"
    case "ruby" => "Ruby"
    case "rust" => "Rust"
    case "shell" => "Shell-Unix-Generic"
    case "elm" => "Elm"
    case _ => lang
  }

  /** A character matched by `\w`, taken as ASCII letters, digits and '_'. */
  predicate IsWordChar(c: char) {
    ('a' <= c <= 'z') || ('A' <= c <= 'Z') || ('0' <= c <= '9') || c == '_'
  }

  /** The `^\w+$` check on a code-block language. */
  predicate IsCodeSpec(lang: string) {
    |lang| > 0 && forall i :: 0 <= i < |lang| ==> IsWordChar(lang[i])
  }

  /** `parse_code_spec`: no language for "", the language itself when it is
      a single word, and a panic for anything else. */
  function ParseCodeSpec(lang: string): (r: Result<Option<string>>)
    ensures lang == "" ==> r == Ok(None)
    ensures lang != "" && IsCodeSpec(lang) ==> r == Ok(Some(lang))
    ensures r.Ok? && r.value.Some? ==> r.value.value == lang
    ensures r.Panic? <==> lang != "" && !IsCodeSpec(lang)
    ensures r.Ok? <==> lang == "" || IsCodeSpec(lang)
  {
    if lang == "" then Ok(None)
    else if IsCodeSpec(lang) then Ok(Some(lang))
    else Panic("couldn't match code spec")
  }

  /** "c++" is not a single word, so a block tagged with it aborts the build. */
  lemma CppSpecIsFatal()
    ensures ParseCodeSpec("c++").Panic?
  {
    assert !IsWordChar("c++"[1]);
  }

  /** `HighlightSpec`: the syntax found, and its slug as the HTML class. */
  datatype HighlightSpec = HighlightSpec(htmlId: string, syntax: string)

  /** `HighlightSpec::find`: the syntax for a language, looked up by name and
      then by extension after the alias table. */
  function Find(lib: Lib, original: string): (r: Option<HighlightSpec>)
    ensures original == "" ==> r.None?
    ensures r.Some? ==> r.value.htmlId == lib.slugify(r.value.syntax)
    ensures r.Some? ==> Some(r.value.syntax) == lib.syntaxByName(SyntectLangName(original))
                        || (lib.syntaxByName(SyntectLangName(original)).None?
                            && Some(r.value.syntax) == lib.syntaxByExtension(SyntectLangName(original)))
    ensures (original != "" && (lib.syntaxByName(SyntectLangName(original)).Some?
                                || lib.syntaxByExtension(SyntectLangName(original)).Some?)) ==> r.Some?
  {
    if original == "" then None
    else
      var mapped := SyntectLangName(original);
      var found := if lib.syntaxByName(mapped).Some? then lib.syntaxByName(mapped) else lib.syntaxByExtension(mapped);
      if found.None? then None else Some(HighlightSpec(lib.slugify(found.value), found.value))
  }

  /** `push_code_highlight`: the highlighted code in a classed `<code>` when a
      syntax is found, the escaped code in a plain `<code>` otherwise; a
      failure of the highlighter is fatal. */
  function PushCodeHighlight(lib: Lib, lang: Option<string>, code: string): (r: Result<string>)
    ensures (lang.None? || Find(lib, lang.value).None?) ==> r == Ok("<code>" + lib.escapeHtml(code) + "</code>")
    ensures lang.Some? && Find(lib, lang.value).Some? ==>
              var spec := Find(lib, lang.value).value;
              && (lib.highlight(spec.syntax, code).None? <==> r.Panic?)
              && (r.Ok? ==> r.value == "<code class=\"highlight code " + spec.htmlId + "\">"
                                       + lib.highlight(spec.syntax, code).value + "</code>")
  {
    var spec := if lang.Some? then Find(lib, lang.value) else None;
    match spec
    case Some(s) =>
      (match lib.highlight(s.syntax, code)
       case Some(h) => Ok("<code class=\"highlight code " + s.htmlId + "\">" + h + "</code>")
       case None => Panic("highlighting failed"))
    case None => Ok("<code>" + lib.escapeHtml(code) + "</code>")
  }

  const PreOpen: string := "<pre class=\"syntax-code\">"
  const PreClose: string := "</pre>"

  /** How many `Text` events open `evs`. */
  function TextRun(evs: seq<Event>): (n: nat)
    ensures n <= |evs|
    ensures forall i :: 0 <= i < n ==> evs[i].Text?
    ensures n < |evs| ==> !evs[n].Text?
  {
    if |evs| == 0 || !evs[0].Text? then 0 else 1 + TextRun(evs[1..])
  }

  /** `CodeBlockSyntaxHighlight` over a whole event stream: a fenced block
      start, the run of `Text` events after it and the event that ends the
      run (which is dropped) become one `Html` event; everything else passes
      through. */
  function HighlightBlocks(lib: Lib, evs: seq<Event>): (r: Result<seq<Event>>)
    ensures r.Ok? ==> |r.value| <= |evs|
    ensures r.Ok? ==> forall i :: 0 <= i < |r.value| ==> !IsFencedStart(r.value[i])
    ensures r.Ok? ==> forall i :: 0 <= i < |r.value| ==> r.value[i].Html? || r.value[i] in evs
    ensures r.Panic? ==> exists i :: 0 <= i < |evs| && IsFencedStart(evs[i])
    decreases |evs|
  {
    if |evs| == 0 then Ok([])
    else if IsFencedStart(evs[0]) then
      var lang :- ParseCodeSpec(evs[0].tag.kind.lang);
      var n := TextRun(evs[1..]);
      var code := Texts(evs[1..1 + n]);
      var inner :- PushCodeHighlight(lib, lang, code);
      var next := if 1 + n < |evs| then 2 + n else |evs|;
      var tail :- HighlightBlocks(lib, evs[next..]);
      assert forall e :: e in tail ==> e.Html? || e in evs by {
        forall e | e in tail && !e.Html?
          ensures e in evs
        {
          var k :| 0 <= k < |tail| && tail[k] == e;
          assert e in evs[next..];
        }
      }
      Ok([Html(PreOpen + inner + PreClose)] + tail)
    else
      var tail :- HighlightBlocks(lib, evs[1..]);
      assert forall e :: e in tail ==> e.Html? || e in evs by {
        forall e | e in tail && !e.Html?
          ensures e in evs
        {
          assert e in evs[1..];
        }
      }
      Ok([evs[0]] + tail)
  }

  /** A stream without fenced blocks (indented blocks included) comes back
      unchanged. */
  lemma {:induction false} HighlightPassThrough(lib: Lib, evs: seq<Event>)
    requires forall i :: 0 <= i < |evs| ==> !IsFencedStart(evs[i])
    ensures HighlightBlocks(lib, evs) == Ok(evs)
    decreases |evs|
  {
    if |evs| > 0 {
      HighlightPassThrough(lib, evs[1..]);
      assert evs == [evs[0]] + evs[1..];
    }
  }

  /** A fenced block with a valid language becomes
      `<pre class="syntax-code">` + the code's HTML + `</pre>`, the code being
      the block's texts concatenated; the closing event is consumed. */
  lemma HighlightBlock(lib: Lib, lang: string, texts: seq<Event>, close: Event, rest: seq<Event>)
    requires forall i :: 0 <= i < |texts| ==> texts[i].Text?
    requires !close.Text?
    requires ParseCodeSpec(lang).Ok?
    requires PushCodeHighlight(lib, ParseCodeSpec(lang).value, Texts(texts)).Ok?
    ensures var r := HighlightBlocks(lib, [Start(CodeBlock(Fenced(lang)))] + texts + [close] + rest);
            && (r.Ok? <==> HighlightBlocks(lib, rest).Ok?)
            && (r.Ok? ==> r.value == [Html(PreOpen + PushCodeHighlight(lib, ParseCodeSpec(lang).value, Texts(texts)).value
                                          + PreClose)] + HighlightBlocks(lib, rest).value)
  {
    var evs := [Start(CodeBlock(Fenced(lang)))] + texts + [close] + rest;
    assert evs[1..] == texts + [close] + rest;
    TextRunOf(texts, close, rest);
    assert evs[1..1 + |texts|] == texts;
    assert evs[2 + |texts|..] == rest;
  }

  lemma {:induction false} TextRunOf(texts: seq<Event>, close: Event, rest: seq<Event>)
    requires forall i :: 0 <= i < |texts| ==> texts[i].Text?
    requires !close.Text?
    ensures TextRun(texts + [close] + rest) == |texts|
    decreases |texts|
  {
    if |texts| > 0 {
      assert (texts + [close] + rest)[1..] == texts[1..] + [close] + rest;
      TextRunOf(texts[1..], close, rest);
    }
  }

  /** A fenced block whose language is neither empty nor a single word aborts
      the whole conversion. */
  lemma BadSpecIsFatal(lib: Lib, lang: string, rest: seq<Event>)
    requires lang != "" && !IsCodeSpec(lang)
    ensures HighlightBlocks(lib, [Start(CodeBlock(Fenced(lang)))] + rest).Panic?
  {
  }

  /** The alias table only renames, so applying it twice changes nothing. */
  lemma SyntectLangNameIdempotent(lang: string)
    ensures SyntectLangName(SyntectLangName(lang)) == SyntectLangName(lang)
  {
  }
}

=== FILE: templates.dfy ===
/** The values handed to the template engine (templates.rs). */
module Templates {
  import opened Wrappers
  import opened Externals
  import opened Links
  import opened Documents
  import Util

  const DefaultTemplate: string := "single.html"

  /** `get_name`: the frontmatter's template with ".html" when the engine has
      loaded a template of exactly that name, "single.html" otherwise. */
  function GetName(loaded: seq<string>, template: string): (r: string)
    ensures template + ".html" in loaded ==> r == template + ".html"
    ensures template + ".html" !in loaded ==> r == DefaultTemplate
  {
    var withHtml := template + ".html";
    if exists i :: 0 <= i < |loaded| && loaded[i] == withHtml then withHtml else DefaultTemplate
  }

  /** The chosen name is one of the two candidates, and it is always a loaded
      template when the fallback is. */
  lemma GetNameIsLoaded(loaded: seq<string>, template: string)
    ensures GetName(loaded, template) in {template + ".html", DefaultTemplate}
    ensures DefaultTemplate in loaded ==> GetName(loaded, template) in loaded
  {
  }

  datatype TemplateConfig = TemplateConfig(title: string, description: string, url: string)

  /** `Config::new`: title and url copied, a missing description becomes "". */
  function ConfigNew(config: SiteConfig): (r: TemplateConfig)
    ensures r.title == config.title && r.url == config.url
    ensures config.description.None? ==> r.description == ""
    ensures config.description.Some? ==> r.description == config.description.value
  {
    TemplateConfig(config.title, config.description.GetOr(""), config.url)
  }

  datatype Page = Page(
    content: string,
    title: string,
    backlinks: seq<Link>,
    url: string,
    summary: Option<string>,
    dateCreated: string,
    dateUpdated: string,
    dateCreatedTimestamp: int,
    dateUpdatedTimestamp: int,
    tags: seq<string>,
    toc: seq<Link>,
    relatedFiles: seq<Link>,
    isSection: bool)

  /** `Page::new`: the file's rendered content, links and metadata, with both
      dates in "%Y-%m-%d %H:%M" form. */
  function PageNew(lib: Lib, md: MdFile): (r: Page)
    ensures r.content == md.html && r.title == md.frontmatter.title && r.url == md.fullUrl
    ensures r.backlinks == md.backlinks && r.toc == md.toc && r.relatedFiles == md.relatedFiles
    ensures r.summary == md.frontmatter.summary && r.tags == md.frontmatter.tags
    ensures r.dateCreatedTimestamp == md.dateCreatedTimestamp && r.dateUpdatedTimestamp == md.dateUpdatedTimestamp
    ensures r.isSection == md.isSection
    ensures r.dateCreated == lib.formatDate(md.frontmatter.dateCreated, "%Y-%m-%d %H:%M")
    ensures r.dateUpdated == lib.formatDate(md.frontmatter.dateUpdated, "%Y-%m-%d %H:%M")
  {
    Page(md.html, md.frontmatter.title, md.backlinks, md.fullUrl, md.frontmatter.summary,
         Util.NaiveDateToStr(lib, md.frontmatter.dateCreated), Util.NaiveDateToStr(lib, md.frontmatter.dateUpdated),
         md.dateCreatedTimestamp, md.dateUpdatedTimestamp, md.frontmatter.tags, md.toc, md.relatedFiles,
         md.isSection)
  }

  datatype SectionPage = SectionPage(pages: seq<Page>)

  /** `SectionPage::new` keeps the pages in the given order. */
  function SectionPageNew(pages: seq<Page>): (r: SectionPage)
    ensures r.pages == pages
  {
    SectionPage(pages)
  }
}

=== FILE: text.dfy ===
/** String operations of Rust's `str` that the site generator relies on:
    `starts_with`, `split`, `join`, `split_once`, `trim` and `replace`. */
module Text {
  import opened Wrappers

  /** `s.starts_with(prefix)`; Dafny's `<=` on sequences is the prefix order. */
  predicate StartsWith(s: string, prefix: string) {
    prefix <= s
  }

  /** Number of occurrences of `x` in `xs`. */
  function Count<T(==)>(xs: seq<T>, x: T): nat {
    if |xs| == 0 then 0 else (if xs[0] == x then 1 else 0) + Count(xs[1..], x)
  }

  /** Rust's `s.split(sep)` for a one-character separator: the pieces between
      separators, always at least one (`"".split(',')` yields `[""]`). */
  function Split(s: string, sep: char): (parts: seq<string>)
    ensures |parts| >= 1
    ensures forall i :: 0 <= i < |parts| ==> sep !in parts[i]
    ensures |parts| == 1 + Count(s, sep)
  {
    if |s| == 0 then [""]
    else if s[0] == sep then [""] + Split(s[1..], sep)
    else
      var rest := Split(s[1..], sep);
      [[s[0]] + rest[0]] + rest[1..]
  }

  /** `parts.join(sep)`. */
  function Join(parts: seq<string>, sep: string): string {
    if |parts| == 0 then ""
    else if |parts| == 1 then parts[0]
    else parts[0] + sep + Join(parts[1..], sep)
  }

  /** Joining the pieces of a split with the same separator gives back the input. */
  lemma {:induction false} JoinSplit(s: string, sep: char)
    ensures Join(Split(s, sep), [sep]) == s
  {
    if |s| == 0 {
    } else if s[0] == sep {
      JoinSplit(s[1..], sep);
      assert s == [sep] + s[1..];
    } else {
      JoinSplit(s[1..], sep);
      var rest := Split(s[1..], sep);
      if |rest| == 1 {
        assert s == [s[0]] + s[1..];
      } else {
        calc {
          Join(Split(s, sep), [sep]);
          ([s[0]] + rest[0]) + [sep] + Join(rest[1..], [sep]);
          [s[0]] + (rest[0] + [sep] + Join(rest[1..], [sep]));
          [s[0]] + Join(rest, [sep]);
          { assert s == [s[0]] + s[1..]; }
          s;
        }
      }
    }
  }

  /** A piece without separators splits into itself. */
  lemma {:induction false} SplitNoSeparator(a: string, sep: char)
    requires sep !in a
    ensures Split(a, sep) == [a]
  {
    if |a| > 0 {
      SplitNoSeparator(a[1..], sep);
      assert a == [a[0]] + a[1..];
    }
  }

  /** Splitting stops at the first separator. */
  lemma {:induction false} SplitAtSeparator(a: string, sep: char, b: string)
    requires sep !in a
    ensures Split(a + [sep] + b, sep) == [a] + Split(b, sep)
  {
    if |a| == 0 {
      assert a + [sep] + b == [sep] + b;
      assert (a + [sep] + b)[1..] == b;
    } else {
      SplitAtSeparator(a[1..], sep, b);
      assert (a + [sep] + b)[1..] == a[1..] + [sep] + b;
      assert [a[0]] + a[1..] == a;
    }
  }

  /** Splitting a join of separator-free pieces gives back the pieces. */
  lemma {:induction false} SplitJoin(parts: seq<string>, sep: char)
    requires |parts| >= 1
    requires forall i :: 0 <= i < |parts| ==> sep !in parts[i]
    ensures Split(Join(parts, [sep]), sep) == parts
  {
    if |parts| == 1 {
      SplitNoSeparator(parts[0], sep);
    } else {
      SplitJoin(parts[1..], sep);
      SplitAtSeparator(parts[0], sep, Join(parts[1..], [sep]));
      assert [parts[0]] + parts[1..] == parts;
    }
  }

  /** Index of the first `c` in `s`. */
  function IndexOf(s: string, c: char): (i: nat)
    requires c in s
    ensures i < |s| && s[i] == c && c !in s[..i]
  {
    if s[0] == c then 0 else 1 + IndexOf(s[1..], c)
  }

  /** Index of the last `c` in `s`. */
  function LastIndexOf(s: string, c: char): (i: nat)
    requires c in s
    ensures i < |s| && s[i] == c && c !in s[i + 1..]
  {
    if s[|s| - 1] == c then |s| - 1
    else
      assert c in s[..|s| - 1] by {
        var k :| 0 <= k < |s| && s[k] == c;
        assert s[..|s| - 1][k] == c;
      }
      var i := LastIndexOf(s[..|s| - 1], c);
      assert s[i + 1..] == s[..|s| - 1][i + 1..] + [s[|s| - 1]];
      i
  }

  /** `s.split_once(c)`: the text before and after the first `c`. */
  function SplitOnce(s: string, c: char): (r: Option<(string, string)>)
    ensures r.None? <==> c !in s
    ensures r.Some? ==> s == r.value.0 + [c] + r.value.1 && c !in r.value.0
  {
    if c !in s then None
    else
      var i := IndexOf(s, c);
      assert s == s[..i] + [c] + s[i + 1..];
      Some((s[..i], s[i + 1..]))
  }

  /** Splitting at the first separator recovers the text on both sides. */
  lemma SplitOnceAt(a: string, c: char, b: string)
    requires c !in a
    ensures SplitOnce(a + [c] + b, c) == Some((a, b))
  {
    var s := a + [c] + b;
    var i := IndexOf(s, c);
    assert s[|a|] == c;
    assert forall k :: 0 <= k < |a| ==> s[k] == a[k];
    assert i == |a|;
    assert s[..i] == a;
    assert s[i + 1..] == b;
  }

  /** Rust's `char::is_whitespace` (the Unicode White_Space property). */
  predicate IsWhitespace(c: char) {
    ('\t' <= c <= '\r') || c == ' ' || c == '\U{0085}' || c == '\U{00A0}' || c == '\U{1680}'
    || ('\U{2000}' <= c <= '\U{200A}') || c == '\U{2028}' || c == '\U{2029}'
    || c == '\U{202F}' || c == '\U{205F}' || c == '\U{3000}'
  }

  /** Length of the leading run of whitespace. */
  function LeadingWhitespace(s: string): (n: nat)
    ensures n <= |s|
    ensures forall i :: 0 <= i < n ==> IsWhitespace(s[i])
    ensures n < |s| ==> !IsWhitespace(s[n])
  {
    if |s| == 0 || !IsWhitespace(s[0]) then 0 else 1 + LeadingWhitespace(s[1..])
  }

  /** Length of the trailing run of whitespace. */
  function TrailingWhitespace(s: string): (n: nat)
    ensures n <= |s|
    ensures forall i :: |s| - n <= i < |s| ==> IsWhitespace(s[i])
    ensures n < |s| ==> !IsWhitespace(s[|s| - n - 1])
  {
    if |s| == 0 || !IsWhitespace(s[|s| - 1]) then 0 else 1 + TrailingWhitespace(s[..|s| - 1])
  }

  /** `s.trim()`: `s` without leading and trailing whitespace. */
  function Trim(s: string): (r: string)
    ensures |r| > 0 ==> !IsWhitespace(r[0]) && !IsWhitespace(r[|r| - 1])
    ensures LeadingWhitespace(s) + |r| <= |s|
    ensures r == s[LeadingWhitespace(s)..LeadingWhitespace(s) + |r|]
    ensures forall i :: LeadingWhitespace(s) + |r| <= i < |s| ==> IsWhitespace(s[i])
  {
    var rest := s[LeadingWhitespace(s)..];
    rest[..|rest| - TrailingWhitespace(rest)]
  }

  /** Trimming twice is trimming once (the title is trimmed twice in the source). */
  lemma TrimIdempotent(s: string)
    ensures Trim(Trim(s)) == Trim(s)
  {
    var r := Trim(s);
    if |r| > 0 {
      assert LeadingWhitespace(r) == 0;
      assert TrailingWhitespace(r) == 0;
    }
  }

  /** A string with no blank at either end is its own trim. */
  lemma TrimUnpadded(s: string)
    requires |s| > 0 && !IsWhitespace(s[0]) && !IsWhitespace(s[|s| - 1])
    ensures Trim(s) == s
  {
    assert LeadingWhitespace(s) == 0;
    assert TrailingWhitespace(s) == 0;
  }

  /** True when `pat` occurs in `s` at some position. */
  predicate Contains(s: string, pat: string)
    decreases |s|
  {
    pat <= s || (|s| > 0 && Contains(s[1..], pat))
  }

  /** `s.replace(pat, rep)`: every non-overlapping occurrence of `pat`, scanning
      left to right, is replaced by `rep`. */
  function ReplaceAll(s: string, pat: string, rep: string): (r: string)
    requires |pat| > 0
    ensures !Contains(s, pat) ==> r == s
    decreases |s|
  {
    if |s| == 0 then ""
    else if pat <= s then rep + ReplaceAll(s[|pat|..], pat, rep)
    else [s[0]] + ReplaceAll(s[1..], pat, rep)
  }

  /** The first character of a `"%20"` to `"-"` replacement. */
  lemma ReplacePct20Head(t: string)
    requires |t| > 0
    ensures |ReplaceAll(t, "%20", "-")| > 0
    ensures ReplaceAll(t, "%20", "-")[0] == if "%20" <= t then '-' else t[0]
  {
  }

  /** After replacing `"%20"` by `"-"`, no `"%20"` is left. */
  lemma {:induction false} ReplacePct20Complete(s: string)
    ensures !Contains(ReplaceAll(s, "%20", "-"), "%20")
    decreases |s|
  {
    var r := ReplaceAll(s, "%20", "-");
    if |s| == 0 {
    } else if "%20" <= s {
      ReplacePct20Complete(s[3..]);
      assert r[1..] == ReplaceAll(s[3..], "%20", "-");
    } else {
      var t := s[1..];
      var rt := ReplaceAll(t, "%20", "-");
      ReplacePct20Complete(t);
      assert r == [s[0]] + rt;
      assert r[1..] == rt;
      if |t| >= 2 && s[0] == '%' && !("%20" <= t) {
        ReplacePct20Head(t);
        ReplacePct20Head(t[1..]);
        assert rt == [t[0]] + ReplaceAll(t[1..], "%20", "-");
        assert rt[1] == ReplaceAll(t[1..], "%20", "-")[0];
        assert t[1..][0] == t[1];
      }
    }
  }
}

=== FILE: util.dfy ===
/** Path and date helpers (util.rs). */
module Util {
  import opened Wrappers
  import opened Paths
  import opened Externals

  /** `strip_pwd`: the directory of `p` relative to `pwd`. Panics when `pwd`
      is not a component-wise prefix of `p` (`strip_prefix(..).unwrap()`) or
      when `p` is `pwd` itself (`parent().unwrap()` of the empty path). */
  function StripPwd(pwd: Path, p: Path): (r: Result<Path>)
    ensures r.Ok? <==> PathStartsWith(p, pwd) && |p| > |pwd|
    ensures r.Ok? ==> p == pwd + r.value + [p[|p| - 1]]
  {
    if !(pwd <= p) then Panic("strip_prefix: pwd is not a prefix of the path")
    else if |p| == |pwd| then Panic("parent of the empty path")
    else
      assert p == pwd + p[|pwd|..|p| - 1] + [p[|p| - 1]];
      Ok(p[|pwd|..|p| - 1])
  }

  /** A file directly inside `pwd` has the empty relative directory. */
  lemma StripPwdDirectChild(pwd: Path, name: string)
    ensures StripPwd(pwd, pwd + [name]) == Ok([])
  {
  }

  /** The unit test of `strip_pwd`. */
  lemma StripPwdExample()
    ensures StripPwd(["/", "Users", "tees", "development", "tees", "esker", "test_site"],
                     ["/", "Users", "tees", "development", "tees", "esker", "test_site", "posts", "private file.md"])
            == Ok(["posts"])
  {
    var pwd: Path := ["/", "Users", "tees", "development", "tees", "esker", "test_site"];
    var p := pwd + ["posts", "private file.md"];
    assert p == ["/", "Users", "tees", "development", "tees", "esker", "test_site", "posts", "private file.md"];
    assert p[|pwd|..|p| - 1] == ["posts"];
  }

  /** `naive_date_to_str`. */
  function NaiveDateToStr(lib: Lib, d: DateTime): string {
    lib.formatDate(d, "%Y-%m-%d %H:%M")
  }
}

=== FILE: wrappers.dfy ===
/** Option and Result wrappers used throughout the model. */
module Wrappers {

  /** An optional value (Rust's `Option`). */
  datatype Option<T> = None | Some(value: T) {

    /** The value, or `default` when there is none (Rust's `unwrap_or`). */
    function GetOr(default: T): T {
      match this
      case Some(v) => v
      case None => default
    }
  }

  /** A computation that either yields a value or aborts the program, as Rust's
      `panic!` and a failed `unwrap` do. The reason is informative only. */
  datatype Result<T> = Ok(value: T) | Panic(reason: string) {

    predicate IsFailure() {
      Panic?
    }

    function PropagateFailure<U>(): Result<U>
      requires Panic?
    {
      Panic(reason)
    }

    function Extract(): T
      requires Ok?
    {
      value
    }
  }
}
